=== FILE: README.md ===
# Budget tracker — a Dafny model

This project models the core of a small budgeting application. The server is written in Express over MongoDB. The client is written in React with zustand stores. Users keep spending categories, monthly budgets per category and dated expenses.

The model covers three tiers:

- **Server handlers** (`server/controllers/*`, `server/middlewares/auth.js`). The database is a class `ServerData.Database` with one sequence per collection. Each handler is a method that changes the database and returns a reply: a status and a body, or `NoReply` where the handler does not catch a rejection and so answers nothing itself. A function beside each method states the new collection and the reply. The `addExpense` handler has an ordered validation chain, the UTC month of the expense, the calendar month window and the budget reconciliation. The budget upsert keeps at most one row per (user, category, month). The middleware chooses the bearer header before the cookie.
- **Client stores** (`client/src/stores/*`). Each store is a class whose list fields change through optimistic temporary entries, in-place replacement by id, deletion with rollback and fetches. Each network call is a parameter `Outcome` (success with data, or failure with an error). A store method returns the error it rethrows, if any.
- **Client views** (`client/src/pages/*`, `client/src/components/*`, `client/src/App.jsx`). These cover:
  - the month stepping shared by four pages;
  - the search, sort and paging of expense lists;
  - the date filters of the expense-list modal;
  - the Budgets page's limits object, its total and the rule that picks which budgets to save;
  - the report totals and percentages and the budget cards;
  - the two expense forms;
  - the route guard.
  Page state that React keeps in `useState` is a class; each handler is a method.

Shared modules:

- `Base`: options, sums, `Math.round`.
- `Text`: digits, `padStart`, `trim`, `toLowerCase`, `includes`, `split`.
- `Calendar`: the proleptic Gregorian calendar over UTC milliseconds, month and day tokens, and ISO day texts.
- `Sorting`: an insertion sort by a numeric key, proved to produce a sorted permutation.

Opaque primitives are parameters of the members that use them:

- `ObjectId.isValid`;
- `Number(text)`, which returns `None` for NaN;
- `new Date(text)` for an expense's date and for the Expenses page's range inputs (`ExpensesPage.Page.ApplyRange`); the month and day texts of the server's expense queries and the expense-list modal's range inputs are read by the model itself, with `Calendar.ParseMonthToken` and `Calendar.ParseDay` (see below);
- bcrypt;
- jwt;
- `String(number)`;
- the clock.

Amounts are exact reals. Dates are integer UTC milliseconds.

Where the code and its intended design differ, the model follows the code:

- The expense schema has no `month` field, so Mongoose's strict mode drops the month that `addExpense` passes; stored expenses carry no month.
- `deleteCategory` does not cascade to budgets or expenses.
- The budget upsert checks neither the sign of the limit nor the format of the month.

## Model

| member | source | states |
|---|---|---|
| ExpenseController.ValidateExpense | server/controllers/expenseController.js:18-58 | each rejection (401 missing user, 400 invalid user, missing category, invalid category, non-positive or NaN amount, invalid date) happens exactly when every earlier check passed and its own fails; success carries the cast ids, the amount and the date (now when none is given) |
| ExpenseController.SpentAfterInsert | server/controllers/expenseController.js:87-98 | inserting an expense adds its amount to the spent total of the (user, category, month) it counts toward and leaves every other total unchanged |
| ExpenseController.SpentNonNegative | server/controllers/expenseController.js:87-98 | with positive amounts only, the aggregated spending is never negative |
| ExpenseController.FindBudget | server/controllers/expenseController.js:77-81 | the budget found holds the triple; none is found exactly when no row holds it |
| ExpenseController.Reconcile | server/controllers/expenseController.js:83-103 | remaining is limit minus spent; the status is OVER_BUDGET exactly when remaining is below zero; without a budget the summary is all zeros and within budget; with one, limit is its limit and spent the month's aggregated amount |
| ExpenseController.AddExpense | server/controllers/expenseController.js:15-110 | a failed check answers its error and stores nothing; otherwise exactly one expense (without the month, which the schema drops) is appended and the 201 reply carries it with the reconciliation of its own month |
| ExpenseController.NewExpenseCounted | server/controllers/expenseController.js:59-98 | the new expense counts toward its own month window, so the spent figure includes its amount |
| ExpenseController.NoBudgetNeverOver | server/controllers/expenseController.js:83-84 | without a budget row for the triple the answer is zeros and WITHIN_BUDGET |
| ExpenseController.OverBudgetExample | server/controllers/expenseController.js:98-102 | a limit of 100 with 40 spent, plus a new 70, answers spent 110, remaining -10 and OVER_BUDGET |
| ExpenseController.NewestFirst | server/controllers/expenseController.js:145 | the result is a permutation of the input sorted by date, newest first |
| ExpenseController.GetExpenses | server/controllers/expenseController.js:120-147 | a missing month answers 400, then a missing or invalid user 401/400, then an unparsable month fails the query (500); otherwise 200 with exactly the caller's expenses dated inside the month's half-open window (which is the calendar month of their date), newest first |
| ExpenseController.GetExpensesRange | server/controllers/expenseController.js:179-213 | missing start or end answers 400, then an unparsable one 400, then start after end 400, all before the user is checked; success holds exactly the caller's expenses from the first millisecond of start to the last of end, newest first |
| ExpenseController.SingleDayRange | server/controllers/expenseController.js:188-189 | a range from a day to itself holds exactly the instants whose ISO date is that day |
| ExpenseController.DeleteExpenseSpec | server/controllers/expenseController.js:156-177 | 401 without a user; an uncastable caller id is a 400 and changes nothing; a malformed expense id is a 500; 404 when the caller owns no expense with that id; otherwise the first expense with that id owned by the caller is removed, every other row staying in order, and "Deleted" is answered; the table changes exactly when "Deleted" is answered |
| ExpenseController.DeleteKeepsOthers | server/controllers/expenseController.js:165-168 | every expense not owned by the caller with that id survives a delete |
| ExpenseController.DeleteExpense | server/controllers/expenseController.js:156-177 | the method's new expense table and reply are those of the specification; other collections are untouched |
| BudgetController.GetBudgets | server/controllers/budgetController.js:3-8 | exactly the caller's rows for the queried month; an uncastable user is an unhandled rejection |
| BudgetController.UpsertedRow | server/controllers/budgetController.js:13-27 | the answered row holds the triple and the new limit and is in the table after the upsert |
| BudgetController.UpsertExisting | server/controllers/budgetController.js:15-17 | with a row for the triple only that row's limit changes |
| BudgetController.UpsertNew | server/controllers/budgetController.js:18-25 | without a row for the triple exactly one row is appended with the triple and limit |
| BudgetController.UpsertKeepsUnique | server/controllers/budgetController.js:13-25 | an upsert keeps at most one row per (user, category, month) |
| BudgetController.UpsertLeavesOneRow | server/controllers/budgetController.js:13-25 | after an upsert exactly one row holds the triple, with the new limit |
| BudgetController.OnlyRow | server/controllers/budgetController.js:13 | with unique triples, the rows holding a triple are just the one found |
| BudgetController.UpsertTwice | server/controllers/budgetController.js:10-28 | upserting L1 then L2 for a triple leaves exactly one row for it: the row the first upsert answered with (the old row, or the new one with the first id), now holding L2 |
| BudgetController.UpsertBudgetSpec | server/controllers/budgetController.js:10-28 | an uncastable id, a missing month or a missing limit is an unhandled rejection that stores nothing; otherwise the reply is the upserted row |
| BudgetController.UpsertBudget | server/controllers/budgetController.js:10-28 | the method's new budget table and reply are those of the specification |
| BudgetController.DeleteBudgetSpec | server/controllers/budgetController.js:30-33 | with castable ids the first row with that id owned by the caller is removed, every other row staying in order, and "Deleted" is answered whether or not a row went; only the caller's row with that id can go; an uncastable id leaves the table and sends no reply |
| BudgetController.DeleteBudget | server/controllers/budgetController.js:30-33 | the method's new budget table and reply are those of the specification |
| CategoryController.GetCategories | server/controllers/categoryController.js:3-8 | exactly the caller's categories, sorted newest first |
| CategoryController.CreateCategorySpec | server/controllers/categoryController.js:10-15 | a missing name fails validation (unhandled); otherwise one category is appended with the default colour #E5E7EB when none is given, answered with 201 |
| CategoryController.CreateCategory | server/controllers/categoryController.js:10-15 | the method's new category table and reply are those of the specification |
| CategoryController.Patched | server/controllers/categoryController.js:18-22 | each schema field the body carries (name, colour, owner, creation time) replaces the stored one; the id stays |
| CategoryController.EmptyPatchKeeps | server/controllers/categoryController.js:18-22 | an update with an empty body leaves the category as it was |
| CategoryController.UpdateCategorySpec | server/controllers/categoryController.js:17-25 | only the caller's category with that id is patched; without one the reply is 200 with null and nothing changes |
| CategoryController.UpdateCategory | server/controllers/categoryController.js:17-25 | the method's new category table and reply are those of the specification |
| CategoryController.DeleteCategorySpec | server/controllers/categoryController.js:27-30 | with castable ids the first category with that id owned by the caller is removed, every other row staying in order, and "Deleted" is answered whether or not a row went; only the caller's row with that id can go; an uncastable id leaves the table and sends no reply |
| CategoryController.DeleteCategory | server/controllers/categoryController.js:27-30 | the category table follows the specification; budgets and expenses that reference it stay |
| AuthController.FindByEmail | server/controllers/authController.js:31 | the user found has that email; none exactly when no user has it |
| AuthController.SignupSpec | server/controllers/authController.js:27-45 | a used email answers 400 "Email already used"; a missing password makes hashing throw (500); otherwise one user is appended with the hash, the cookie is set and the reply holds the id and email |
| AuthController.SignupKeepsEmailsUnique | server/controllers/authController.js:31-36 | sign-up keeps emails unique |
| AuthController.Signup | server/controllers/authController.js:27-49 | the method's new user table and answer are those of the specification |
| AuthController.Login | server/controllers/authController.js:55-79 | an unknown email and a wrong password both answer 400 "Invalid credentials"; a known email with no password answers 500 "Login failed", the rejection of the hash comparison being caught; success sets the cookie for the stored user's id and answers its id and email |
| AuthController.LoginFailuresAlike | server/controllers/authController.js:59-63 | a caller cannot tell an unknown email from a wrong password |
| AuthController.Logout | server/controllers/authController.js:85-92 | clears the token cookie and answers "Logged out" |
| AuthController.Me | server/controllers/authController.js:103-115 | 401 exactly without a user; 500 exactly when the id cannot be cast; 404 exactly when no user has the id; otherwise 200 with the id and email of the user holding it |
| AuthMiddleware.BearerToken | server/middlewares/auth.js:6-9 | the header token is the text after "Bearer " up to the next space |
| AuthMiddleware.TokenOf | server/middlewares/auth.js:3-14 | the header token when the header starts with "Bearer " and it is not empty, else the cookie token when present and not empty, else none |
| AuthMiddleware.HeaderWins | server/middlewares/auth.js:6-14 | a header carrying a token wins over the cookie |
| AuthMiddleware.DoubleSpaceFallsBack | server/middlewares/auth.js:6-14 | "Bearer" followed by two spaces yields an empty token, so the cookie is used |
| AuthMiddleware.Request.constructor | server/middlewares/auth.js:3 | a request carries its header and cookie, with no user and no call to next yet |
| AuthMiddleware.Protect | server/middlewares/auth.js:3-24 | 401 "Not authorized" without a token and 401 "Token invalid" when it does not verify, neither calling next; otherwise `req.user` is the token's id and next is called once |
| ClientData.Or | client/src/stores/expenseStore.js:46-47 | `a \|\| b` is `a` when it is a non-empty text and `b` otherwise; it is a non-empty text exactly when one of the two is |
| ClientData.OrElse | client/src/stores/expenseStore.js:103-106 | `a \|\| fallback` is the text of `a` when it is non-empty and the fallback otherwise, so never empty unless the fallback is |
| ClientData.Nullish | client/src/components/AddExpenseModal.jsx:125 | `a ?? b ?? fallback`: only an absent text falls through |
| ClientData.UiStore.constructor | client/src/stores/uiStore.js:5-9 | no toast, expense modal closed |
| ClientData.UiStore.ShowToast | client/src/stores/uiStore.js:10-13 | the toast is set; the modal flag is untouched |
| ClientData.UiStore.OpenExpenseModal | client/src/stores/uiStore.js:6 | the modal flag is set; the toast is untouched |
| ClientData.UiStore.CloseExpenseModal | client/src/stores/uiStore.js:7 | the modal flag is cleared; the toast is untouched |
| ClientData.ReplaceId | client/src/stores/expenseStore.js:34-37 | same length; each entry with the id becomes the new record, every other entry stays |
| ClientData.RemoveId | client/src/stores/expenseStore.js:114 | no entry with the id remains, every entry with another id survives, nothing new appears, and a list without the id is returned unchanged |
| ClientData.RemoveIdAppend | client/src/stores/expenseStore.js:114 | removal distributes over concatenation, so the survivors keep their order |
| ClientData.ReplaceTemp | client/src/stores/expenseStore.js:77-84 | replacing a freshly prepended temporary entry puts the saved record in its place at the front |
| ClientData.RollbackTemp | client/src/stores/expenseStore.js:71-108 | removing a freshly prepended temporary entry gives back the list as it was |
| ClientData.RemoveIdKeeps | client/src/stores/expenseStore.js:114 | every entry with another id survives a removal |
| ClientData.UpsertById | client/src/stores/budgetStore.js:23-26 | the entry with the record's id is replaced in place; a new id is prepended |
| ClientData.UpsertKeepsIdsUnique | client/src/stores/budgetStore.js:23-26 | replace-or-prepend keeps ids unique |
| ExpenseStore.TempExpense | client/src/stores/expenseStore.js:71-76 | the optimistic entry carries the temporary id and the payload's category id, amount, date and notes |
| ExpenseStore.AddedToast | client/src/stores/expenseStore.js:86-98 | an error toast exactly when the status is OVER_BUDGET, reporting the absolute remaining amount (0 when absent); otherwise the server's message or "Expense added" |
| ExpenseStore.AddFailedToast | client/src/stores/expenseStore.js:103-107 | an error toast with the server's message when it is non-empty, else the server's error when that is non-empty, else "Failed to add expense"; never empty |
| ExpenseStore.AddOutcome | client/src/stores/expenseStore.js:70-109 | with a fresh temporary id, a successful add leaves the saved record in front of the previous list and a failed one leaves the previous list |
| ExpenseStore.Store.constructor | client/src/stores/expenseStore.js:7-9 | empty list, not loading, no error |
| ExpenseStore.Store.Fetch | client/src/stores/expenseStore.js:12-68 | `fetchExpenses` and `fetchExpensesRange`: success replaces the list; failure keeps it, records `err.message \|\| server message` and rethrows; loading ends either way |
| ExpenseStore.Store.Update | client/src/stores/expenseStore.js:29-51 | success replaces the entries with the id and toasts "Expense updated"; failure keeps the list, toasts the server message, the error message or "Update failed", and rethrows |
| ExpenseStore.Store.Add | client/src/stores/expenseStore.js:70-110 | the list is the add's outcome (temporary entry swapped for the saved record, or removed); the toast is the added or failed toast; a failure rethrows |
| ExpenseStore.Store.Delete | client/src/stores/expenseStore.js:112-122 | success removes the id; failure restores the exact previous list and rethrows |
| CategoryStore.TempCategory | client/src/stores/categoryStore.js:20-21 | the optimistic entry is the payload under the temporary id |
| CategoryStore.AddOutcome | client/src/stores/categoryStore.js:19-34 | with a fresh temporary id, success leaves the server's record in front of the previous list; failure leaves the previous list |
| CategoryStore.Store.constructor | client/src/stores/categoryStore.js:5-7 | empty list, not loading, no error |
| CategoryStore.Store.Fetch | client/src/stores/categoryStore.js:8-18 | success replaces the list; failure keeps it, records `err.message` and rethrows |
| CategoryStore.Store.Add | client/src/stores/categoryStore.js:19-35 | the list is the add's outcome; a failure rethrows |
| CategoryStore.Store.Update | client/src/stores/categoryStore.js:36-49 | success replaces the entries with the id, keeping the length; failure keeps the list and rethrows |
| CategoryStore.Store.Delete | client/src/stores/categoryStore.js:50-60 | success removes the id; failure restores the exact previous list and rethrows |
| BudgetStore.Store.constructor | client/src/stores/budgetStore.js:5-7 | empty list, not loading, no error |
| BudgetStore.Store.Fetch | client/src/stores/budgetStore.js:8-18 | success replaces the list; failure keeps it, records `err.message` and rethrows |
| BudgetStore.Store.Upsert | client/src/stores/budgetStore.js:19-32 | success replaces the row with the saved row's id in place or prepends it, keeping ids unique; failure keeps the list and rethrows |
| BudgetStore.Store.Delete | client/src/stores/budgetStore.js:33-43 | the row is removed only after the server call succeeds; failure keeps the list and rethrows |
| AuthStore.AuthError | client/src/stores/authStore.js:29 | the recorded error is the server's message when that is a non-empty text, and the error's own message otherwise |
| AuthStore.Store.constructor | client/src/stores/authStore.js:6-9 | no user, not loading, no error, session not yet checked |
| AuthStore.Store.SetAuth | client/src/stores/authStore.js:11 | sets the user and clears the error |
| AuthStore.Store.MarkAuthChecked | client/src/stores/authStore.js:14 | the flag takes the value given, true when none is given |
| AuthStore.Store.Authenticate | client/src/stores/authStore.js:16-49 | success sets the reported user with no error; failure keeps the user, records the error and rethrows; loading ends either way |
| AuthStore.Store.Logout | client/src/stores/authStore.js:51-59 | the user is cleared whether or not the server call succeeds |
| ExpenseViews.SortModeOf | client/src/pages/Expenses.jsx:166-180 | "amount_asc", "amount_desc" and "date_asc" select exactly their orders; any other value falls to newest first |
| ExpenseViews.SortExpenses | client/src/pages/Expenses.jsx:166-180 | the sorted copy holds the same expenses (as a multiset) ordered by the mode's key (amount or date) in the mode's direction |
| ExpenseViews.KeepMatching | client/src/pages/Expenses.jsx:163 | an expense is kept exactly when it is in the input and its lower-cased notes (absent notes read as empty) contain the needle; never longer than the input |
| ExpenseViews.SearchNotes | client/src/pages/Expenses.jsx:161-164 | a blank query keeps the list as it is; otherwise exactly the expenses whose notes contain the trimmed query, ignoring case |
| ExpenseViews.LowerTwice | client/src/pages/Expenses.jsx:162 | lower-casing is idempotent |
| ExpenseViews.TrimLower | client/src/pages/Expenses.jsx:162 | trimming and lower-casing commute |
| ExpenseViews.SearchIgnoresCase | client/src/pages/Expenses.jsx:161-164 | searching for a query and for its lower-cased form gives the same list |
| ExpenseViews.FormError | client/src/components/AddExpenseModal.jsx:83-87 | no category gives "Please select a category"; otherwise an empty, non-numeric or non-positive amount gives the amount message; the form passes exactly when a category is set and the amount is a number above zero |
| Sorting.Insert | client/src/pages/Expenses.jsx:166-180 | inserting into a sorted list adds exactly that element and keeps the list sorted |
| Sorting.SortBy | client/src/pages/Expenses.jsx:166-180 | the result is a permutation of the input, sorted by the key in the chosen direction |
| Sorting.SortByMembers | client/src/pages/Expenses.jsx:166-180 | sorting neither adds nor drops an element |
| MonthNav.MonthLabelIsToken | client/src/pages/Expenses.jsx:109 | for four-digit years the written month label is the `YYYY-MM` token the server reads |
| MonthNav.Step | client/src/pages/Expenses.jsx:105-121 | a month text that reads as `YYYY-MM` steps to the next or previous calendar month's label; any other text has no month |
| MonthNav.StepForward | client/src/pages/Expenses.jsx:105-112 | from a month's token the next arrow gives the next month's token, December going to January of the next year |
| MonthNav.StepBack | client/src/pages/Expenses.jsx:114-121 | from a month's token the previous arrow gives the previous month's token, January going to December of the previous year |
| MonthNav.StepBackAndForth | client/src/pages/Expenses.jsx:105-121 | back then forward, and forward then back, return to the same month |
| ExpensesPage.FilteredAndSorted | client/src/pages/Expenses.jsx:158-183 | the list shown before paging is a permutation of the search result, sorted in the selected order; a blank query keeps every expense |
| ExpensesPage.Visible | client/src/pages/Expenses.jsx:185 | the visible part is the prefix of the list of length `min(count, length)` |
| ExpensesPage.LoadMoreIffHidden | client/src/pages/Expenses.jsx:289-297 | "Load more" is offered exactly when the page is not loading and some entries are not visible |
| ExpensesPage.LoadFailedToast | client/src/pages/Expenses.jsx:68-71 | a failed load shows an error toast with the server's message when it is non-empty and "Failed to load expenses" otherwise |
| ExpensesPage.RangeError | client/src/pages/Expenses.jsx:125-131 | a range is accepted exactly when both dates read and the start is not after the end |
| ExpensesPage.Page.constructor | client/src/pages/Expenses.jsx:36-56 | month mode on the current month, today as both range ends, no expenses, newest first, no query, 25 per page |
| ExpensesPage.Page.Fetch | client/src/pages/Expenses.jsx:59-97 | a success shows the answer, a failure toasts and empties the list; loading ends and the page returns to its first page; the other fields are unchanged |
| ExpensesPage.Page.StepMonth | client/src/pages/Expenses.jsx:105-121 | the month steps; in month mode the new month is loaded, in range mode the list and page stay |
| ExpensesPage.Page.ApplyRange | client/src/pages/Expenses.jsx:123-134 | an invalid range only toasts its message; a valid one switches to range mode and loads the range |
| ExpensesPage.Page.SwitchToMonth | client/src/pages/Expenses.jsx:136-140 | month mode on the picked month, loaded |
| ExpensesPage.Page.LoadMore | client/src/pages/Expenses.jsx:292 | one more page becomes visible and nothing else changes |
| ExpensesPage.Page.HandleDelete | client/src/pages/Expenses.jsx:143-155 | unconfirmed: nothing happens; a failed delete toasts "Delete failed" and keeps the list; a successful one reloads the current view |
| ExpensesPage.Page.Shown | client/src/pages/Expenses.jsx:185 | the rows shown are a prefix of the searched, sorted list, at most the visible count |
| Calendar.Next | server/controllers/expenseController.js:72-74 | the month after a month is a valid month one step further along the line of months |
| Calendar.Prev | client/src/pages/Expenses.jsx:114-118 | the month before a month is a valid month one step back, and the month after it is the month itself |
| Calendar.PrevNext | client/src/pages/Expenses.jsx:105-118 | the month before the month after a month is that month |
| Calendar.DaysInMonth | server/controllers/expenseController.js:72-74 | a month has 28 to 31 days, and 29 exactly for February of a leap year |
| Calendar.YearMonthOf | server/controllers/expenseController.js:55-59 | every instant falls in a valid calendar month |
| Calendar.InMonthIff | server/controllers/expenseController.js:72-74 | an instant lies in `[first instant of the month, first instant of the next month)` exactly when its UTC month is that month |
| Calendar.LeapFebruaryWindow | server/controllers/expenseController.js:72-74 | the window of February 2024 holds all of its 29th day and stops where March begins; 29 February 2023 is not a date |
| Calendar.ParseMonthToken | server/controllers/expenseController.js:136-138 | a month token that reads has seven characters with a dash at the fifth and names a valid month of a year from 0 to 9999 |
| Calendar.ParseMonthTokenRoundTrip | server/controllers/expenseController.js:136-138 | a month's `YYYY-MM` token reads back as that month |
| Calendar.ParseDayRoundTrip | server/controllers/expenseController.js:188-189 | a date's `YYYY-MM-DD` token reads back as that date's day |
| Calendar.DayTokenInjective | client/src/components/ExpenseListModal.jsx:69 | distinct dates have distinct day tokens |
| Calendar.IsoDay | client/src/components/ExpenseListModal.jsx:66 | the ISO day of an instant is ten characters long |
| Calendar.IsoMonth | server/controllers/expenseController.js:59 | the month token of an instant is seven characters long |
| Calendar.IsoMonthOf | server/controllers/expenseController.js:59-74 | for years 0 to 9999 an instant's month token is its own month's token, reads back as that month, and the instant lies in that month's window |
| Calendar.DayTokenMonth | client/src/components/AddExpenseModal.jsx:91 | the first seven characters of a day token are its month's token |
| Calendar.IsoDayIff | client/src/components/ExpenseListModal.jsx:66-79 | an instant's ISO day is a date's token exactly when the instant lies between that date's first and last millisecond |
| Text.Pad | client/src/pages/Expenses.jsx:109 | `padStart` gives only digits whose value is the number, as wide as the width or the number, whichever is wider |
| Text.PadWidth | client/src/pages/Expenses.jsx:109 | a number below `10^width` pads to exactly the width |
| Text.Trim | client/src/pages/Expenses.jsx:161-162 | the trimmed text neither starts nor ends with white space, and is empty exactly when the text is all white space |
| Text.TrimInfix | client/src/pages/Expenses.jsx:161-162 | the trimmed text is an infix of the text with only white space before and after it |
| Text.ToLower | client/src/pages/Expenses.jsx:162 | the same length, each character lower-cased |
| Text.IncludesIff | client/src/pages/Expenses.jsx:163 | `includes` holds exactly when the query occurs at some position |
| Text.Split | server/middlewares/auth.js:8 | at least one piece, no piece holds the separator, and a text without the separator is its own single piece |
| Text.SplitJoin | server/middlewares/auth.js:8 | joining the pieces with the separator gives the text back |
| Text.JoinSplit | server/middlewares/auth.js:8 | splitting a join of separator-free pieces gives the pieces back |
| Text.SplitSecond | server/middlewares/auth.js:8 | the second piece of `head sep rest` is the text after the first separator up to the next one |
| Base.Round | client/src/components/BudgetCard.jsx:13 | `Math.round` is within a half of its argument, halves going up |
| Base.Abs | client/src/components/BudgetCard.jsx:74 | the magnitude is not negative and is the amount or its negation |
| ExpenseListModal.CategoryFiltered | client/src/components/ExpenseListModal.jsx:51-60 | an expense is kept exactly when it is in the store's list and its category id (populated or bare) reads as the selected id; never longer than the store's list |
| ExpenseListModal.DateFiltered | client/src/components/ExpenseListModal.jsx:63-83 | "all" or an unknown mode keeps the list; "single" keeps exactly the expenses on that UTC day; "range" keeps exactly those from the start day's first to the end day's last millisecond, and nothing when a date does not read or the start is after the end |
| ExpenseListModal.OneDayRange | client/src/components/ExpenseListModal.jsx:63-83 | a range from a day to the same day keeps exactly what that single day keeps |
| ExpenseListModal.Sorted | client/src/components/ExpenseListModal.jsx:86-104 | a permutation of the date-filtered list, sorted in the chosen order, newest first for an unknown order |
| ExpenseListModal.Modal.constructor | client/src/components/ExpenseListModal.jsx:18-31 | amount descending, every date, today in each date field, no local expenses |
| ExpenseListModal.Modal.Open | client/src/components/ExpenseListModal.jsx:34-48 | when open: the month is loaded into the store (a failure toasts "Failed to load expenses") and the filter, order and dates are reset; when closed nothing changes |
| ExpenseListModal.Modal.SyncCategory | client/src/components/ExpenseListModal.jsx:51-60 | while open the local list is the store's list filtered to the category; otherwise it is kept |
| ExpenseListModal.Modal.Rendered | client/src/components/ExpenseListModal.jsx:86-106 | nothing when closed; otherwise a permutation of the date-filtered local list in the chosen order |
| ExpenseListModal.Modal.HandleDelete | client/src/components/ExpenseListModal.jsx:108-117 | unconfirmed: nothing; a failed delete keeps the list and toasts "Delete failed"; a delete whose reload fails leaves the expense removed and still toasts "Delete failed"; a full success shows the reloaded month and "Expense deleted" |
| BudgetsPage.Lookup | client/src/pages/Budgets.jsx:115 | a key reads as absent exactly when no entry has that category id, and otherwise reads the text of the first entry that has it |
| BudgetsPage.Assign | client/src/pages/Budgets.jsx:82-88 | after `{ ...limits, [id]: text }` the key reads the new text; a present key keeps the object's size, a new key is appended |
| BudgetsPage.AssignLookup | client/src/pages/Budgets.jsx:82-88 | after the assignment the key reads the new text and every other key reads what it read before |
| BudgetsPage.LimitText | client/src/pages/Budgets.jsx:72-75 | a category starts at the formatted limit of its first budget (0 when that limit is unset), or at "0" when it has no budget |
| BudgetsPage.LimitsForLookup | client/src/pages/Budgets.jsx:67-78 | the initial limits hold, for every category id, the text of that category's first budget (or "0"), and no key that is not a category id |
| BudgetsPage.EntryNumber | client/src/pages/Budgets.jsx:107 | an empty text counts as 0 |
| BudgetsPage.Total | client/src/pages/Budgets.jsx:106-108 | the total is a number exactly when every entry's text reads as a number (one `NaN` spoils it) |
| BudgetsPage.TotalAssign | client/src/pages/Budgets.jsx:80-108 | typing a number into a category moves the total by the new number minus the old one, or adds the new number for a new key |
| BudgetsPage.SaveValue | client/src/pages/Budgets.jsx:115-116 | a category absent from the limits counts as 0 |
| BudgetsPage.PlanCovers | client/src/pages/Budgets.jsx:113-133 | every planned upsert is for the page's month with a limit that is not negative, and a category gets one exactly when its value is a non-negative number that is non-zero or replaces an existing budget |
| BudgetsPage.NoBudgetZeroSkipped | client/src/pages/Budgets.jsx:124 | a category without a budget whose value is 0 gets no upsert |
| BudgetsPage.AllFailedUnchanged | client/src/pages/Budgets.jsx:135-141 | when every upsert fails the store's list is as it was |
| BudgetsPage.PlanSaves | client/src/pages/Budgets.jsx:113-133 | the first loop pushes exactly the save plan: one request per passing category, in category order |
| BudgetsPage.Page.constructor | client/src/pages/Budgets.jsx:48-58 | the current month, no limits, not saving |
| BudgetsPage.Page.Load | client/src/pages/Budgets.jsx:61-64 | the categories and the month's budgets are loaded into their stores; a failed load leaves its store's list as it was |
| BudgetsPage.Page.InitLimits | client/src/pages/Budgets.jsx:67-78 | the limits become the object built from the categories and budgets |
| BudgetsPage.Page.HandleInputChange | client/src/pages/Budgets.jsx:80-89 | a text opening with "-" is ignored; any other text, the empty one included, is stored for the category |
| BudgetsPage.Page.StepMonth | client/src/pages/Budgets.jsx:91-103 | the month steps one calendar month; the limits stay |
| BudgetsPage.Page.HandleSave | client/src/pages/Budgets.jsx:110-152 | the save plan is sent; each upsert's failure is swallowed; a successful reload shows the reloaded budgets and "Budgets saved", a failed one keeps the upserted list and toasts "Failed to save budgets"; the limits and month are unchanged |
| Figures.CentsOfMagnitude | client/src/components/ReportsTable.jsx:46 | a non-negative amount rounded to cents stays non-negative and within half a cent of the amount |
| Figures.Cents | client/src/components/ReportsTable.jsx:46 | `+x.toFixed(2)` is within half a cent of `x` and keeps a non-negative amount non-negative |
| Figures.CentsNegative | client/src/components/ReportsTable.jsx:46-71 | the rounded remaining amount is below zero (red, with a minus sign) exactly when the amount is at least half a cent below zero |
| Figures.PercentOf | client/src/components/ReportsTable.jsx:47 | 0 for a zero whole; otherwise the nearest whole percent of `part / whole` |
| Figures.PercentWithin | client/src/components/ReportsTable.jsx:47 | a part no larger than a positive whole is 0 to 100 percent of it |
| Figures.PercentNotCapped | client/src/pages/Reports.jsx:40-41 | the percentage itself is not capped: 3 of 2 is 150 percent |
| Figures.ProgressWidth | client/src/components/ReportsTable.jsx:16 | the bar's width is the percentage clamped to 0..100 |
| Figures.SignedOf | client/src/components/ReportsTable.jsx:71 | the sign is shown exactly for a negative amount and the sign with the magnitude gives back the amount |
| ReportsTable.RowSpent | client/src/components/ReportsTable.jsx:44 | `totalSpent`, else `spent`, else 0 |
| ReportsTable.RowLimit | client/src/components/ReportsTable.jsx:45 | the limit, or 0 when unset |
| ReportsTable.RowOf | client/src/components/ReportsTable.jsx:41-85 | the row shows the budget's title, colour, spent amount and limit; its percentage is the spent amount as a rounded percentage of the limit (0 for a zero limit); its signed remaining amount is the limit minus the spent amount rounded to cents, negative exactly when it is at least half a cent short; the bar width is within 0..100 and equals the percentage whenever that is within 0..100 |
| ReportsTable.RowTitle | client/src/components/ReportsTable.jsx:42 | a populated category's name, "Unnamed" otherwise |
| ReportsTable.RowColor | client/src/components/ReportsTable.jsx:43 | a populated category's colour, "#0ea5e9" otherwise |
| ReportsTable.RowWithinLimit | client/src/components/ReportsTable.jsx:41-85 | a budget spent within a positive limit shows 0 to 100 percent, a bar of that width and no minus sign |
| ReportsTable.Rows | client/src/components/ReportsTable.jsx:41-93 | one row per budget in order, or exactly the placeholder row when there is none |
| ReportsPage.TotalsLeft | client/src/pages/Reports.jsx:34-39 | the total budget minus the total spent is the sum of the rows' remaining amounts |
| ReportsPage.RowsWithinTotalWithin | client/src/pages/Reports.jsx:34-38 | when every row is within its limit, the month's total spent is within its total budget |
| ReportsPage.SummaryOf | client/src/pages/Reports.jsx:34-41 | the totals are the sums over the rows; the percentage is the total spent as a rounded percentage of the total budget (0 for a zero budget); the remaining card is the difference rounded to cents, "Over budget" exactly when it is at least half a cent short; a month within a positive budget shows 0 to 100 percent and no overrun |
| ReportsPage.Page.constructor | client/src/pages/Reports.jsx:17-23 | the current month |
| ReportsPage.Page.Load | client/src/pages/Reports.jsx:25-31 | the month's budgets and expenses are loaded into their stores; a failed load leaves its store's list as it was |
| ReportsPage.Page.StepMonth | client/src/pages/Reports.jsx:43-55 | the month steps one calendar month |
| BudgetCard.CardPercent | client/src/components/BudgetCard.jsx:12-13 | the bar is at most 100 percent, 0 for a zero budget, and otherwise the rounded percentage capped at 100 |
| BudgetCard.OverspentShowsFull | client/src/components/BudgetCard.jsx:12-13 | spending at least a positive budget fills the bar exactly |
| BudgetCard.Dot | client/src/components/BudgetCard.jsx:26-28 | the colour goes into the inline style exactly when it starts with "#" |
| BudgetCard.Render | client/src/components/BudgetCard.jsx:12-76 | the card shows its title; its bar is the spent amount as a rounded percentage of the budget capped at 100 (0 for a zero budget); "OVER BUDGET" shows exactly when more than the budget is spent, and the footer then gives the positive overrun, otherwise the non-negative amount left; the dot shows exactly for a `#` colour |
| DashboardPage.CardPropsOf | client/src/pages/Dashboard.jsx:103-110 | the card's title is the category's name or "Unnamed Category", its colour the category's colour or "bg-blue-500", its spent amount `totalSpent` or 0, its budget the limit |
| DashboardPage.Cards | client/src/pages/Dashboard.jsx:102-111 | one card per budget, in order |
| DashboardPage.ViewOf | client/src/pages/Dashboard.jsx:88-113 | the loading line exactly while loading, the empty hint exactly when loaded with no budget, otherwise a non-empty grid with one card per budget |
| DashboardPage.Page.constructor | client/src/pages/Dashboard.jsx:16-26 | the current month, nothing selected, the list closed |
| DashboardPage.Page.Load | client/src/pages/Dashboard.jsx:29-31 | the month's budgets are loaded; a failure keeps the list; loading ends |
| DashboardPage.Page.StepMonth | client/src/pages/Dashboard.jsx:33-45 | the month steps one calendar month; the selection is kept |
| DashboardPage.Page.OpenCategoryExpenses | client/src/pages/Dashboard.jsx:48-51 | the card's category becomes the selection and the list opens |
| DashboardPage.Page.CloseCategoryExpenses | client/src/pages/Dashboard.jsx:53-56 | no selection and the list closed |
| DashboardPage.Page.ModalCategory | client/src/pages/Dashboard.jsx:133-138 | the list filters by the selected category id when there is one |
| AddExpenseModal.MonthOfDate | client/src/components/AddExpenseModal.jsx:91 | the first seven characters of the date, or the whole text when it is shorter |
| AddExpenseModal.MonthOfDayToken | client/src/components/AddExpenseModal.jsx:91 | the month cut from a `YYYY-MM-DD` date is that date's `YYYY-MM` token and reads back as the date's month |
| AddExpenseModal.StorePayload | client/src/components/AddExpenseModal.jsx:94-103 | the store receives the form's category, amount and notes |
| AddExpenseModal.Form.constructor | client/src/components/AddExpenseModal.jsx:31-37 | no category, no amount, today's date, no notes, not saving, no error |
| AddExpenseModal.Form.SyncDefaultCategory | client/src/components/AddExpenseModal.jsx:51-59 | with nothing selected and categories loaded the first category is selected; otherwise the selection stays; no other field changes |
| AddExpenseModal.Form.HandleClose | client/src/components/AddExpenseModal.jsx:70-77 | the error, amount, date and notes are reset, the category is kept, and the modal closes |
| AddExpenseModal.Form.HandleSubmit | client/src/components/AddExpenseModal.jsx:79-131 | a failed check only sets its message; otherwise the payload with the date's month goes to the store; after a successful add the month's expenses and budgets are reloaded (failures ignored), "Expense saved" shows and the form closes and resets; a failed add sets and toasts the server's message, the error's message or "Save failed" and keeps the form |
| EditExpenseModal.CategoryField | client/src/components/EditExpenseModal.jsx:15 | the populated category's id, or "" for a bare id or none |
| EditExpenseModal.DateFieldReadsBack | client/src/components/EditExpenseModal.jsx:17-19 | the form's date text reads back as the expense's own UTC day |
| EditExpenseModal.LoadedFormPasses | client/src/components/EditExpenseModal.jsx:44-47 | a form loaded from an expense with a category and a positive amount passes the check |
| EditExpenseModal.Form.constructor | client/src/components/EditExpenseModal.jsx:15-22 | the fields are loaded from the expense (date cut to its UTC day), or empty with today's date when there is none |
| EditExpenseModal.Form.Sync | client/src/components/EditExpenseModal.jsx:30-37 | on a new expense every field is reloaded the same way; saving and the error stay |
| EditExpenseModal.Form.Shown | client/src/components/EditExpenseModal.jsx:39 | the form renders exactly when there is an expense |
| EditExpenseModal.Form.HandleSubmit | client/src/components/EditExpenseModal.jsx:41-67 | a failed check only sets its message; otherwise the payload is sent to the store's update; on success the list holds the updated expense, the "Expense updated" toast shows and the form closes, on failure the message is set and toasted and the form stays; the fields are unchanged |
| AppRoutes.Route | client/src/App.jsx:36-75 | only the waiting text until the session check ends; a page renders only for a signed-in user on its private path; the sign-in page shows exactly to a signed-out user on `/auth`; a signed-out user anywhere else goes to `/auth`; a signed-in user off the private paths goes to `/dashboard` |
| AppRoutes.RedirectSettles | client/src/App.jsx:36-75 | after one redirect the guard renders a screen: the dashboard for a signed-in user, the sign-in page otherwise |
| AppRoutes.CheckAuth | client/src/App.jsx:19-34 | while mounted: the user the server reports, or none when the call fails, and the session marked as checked; after unmount nothing changes |

## Left out

- Database failures are not modelled: every database call succeeds. The 500 replies of handlers with a `try` block are therefore never produced. A rejected call in a handler without one is `NoReply` only where the rejection comes from an id cast or a missing required field.
- `populate` on expense and budget reads is not modelled: the server's lists hold category ids. The client's records carry a category that is populated, a bare id or absent.
- `server/utils/getMonthString.js` is not part of this model. The month of an expense is modelled as the UTC `YYYY-MM` of its date (`Calendar.IsoMonth`).
- `server/models/User.js` is not part of this model. Users are records of id, email and password hash.
- Time zones: every date, `setHours` and `getMonth` call is taken in UTC. The pages' initial month (`MonthNav.CurrentMonth`) and today's date are parameters.
- Concurrency: the interleaving of overlapping requests, of overlapping `await`s in a page, and of the React effects with the stores is not modelled. Each handler runs to completion. An effect is a method the caller invokes after the state it depends on changes.
- The toast timer (`setTimeout` clearing the toast) and all console logging are left out.
- Hashing, salts, token signing and token verification are abstract parameters. So are the cookie options.
- Floating point: amounts are exact reals. `toFixed(2)` is rounding half away from zero on the exact value. `Math.round` is `floor(x + 1/2)`. `Number(text)` and `String(number)` are parameters.
- Sorting ties: `Array.prototype.sort` is stable, so equal keys keep their input order. The model proves a sorted permutation but does not fix the order of equal keys. The database's `sort` is modelled the same way.
- Month texts that do not read as `YYYY-MM` step to `"NaN-NaN"` as a whole. The model does not follow JavaScript's partial reading of such texts. Years below 1000 or above 9999 are outside the round-trip lemmas.
- Object key order in the Budgets page's `limits`: JavaScript lists integer-like keys first. The model keeps insertion order; ids are Mongo ObjectIds, which are never integer-like.
- `AddExpenseModal` and `EditExpenseModal` fetch the categories when they open. That fetch is the category store's `Fetch` and is not repeated in the forms. The `categories` prop of `AddExpenseModal` is not modelled: the form reads the store's list.
- The plain field setters of the pages and forms (select boxes, text inputs) are left out: they assign one field.
- `DashboardPage.Page.ModalCategory`: a card without a category gives `undefined`, which the modal reads as "undefined"; after closing, the selection is `null`, read as "null". The model keeps one `None` and picks the text from whether the list is open.
- `BudgetCard`: the currency symbol and the number formatting of the figures are left out.
- Rendering markup, styles, the sidebar, the header, the `Categories` and `AuthPage` pages and the `ProtectedRoute`, `ExpenseForm`, `CategoryCard` and `StatCard` components are left out. They hold no logic beyond what the modelled members cover.
- The server's routing (`server/routes/*`) and start-up (`server/server.js`) are left out. Start-up wires the handlers to paths and installs the `errorHandler` middleware after the routes (`server/server.js:48`); `server/middlewares/errorHandler.js` is not part of this model.
- NoReply: `BudgetController.GetBudgets`, `BudgetController.UpsertBudgetSpec`, `BudgetController.DeleteBudgetSpec`, `CategoryController.GetCategories`, `CategoryController.CreateCategorySpec`, `CategoryController.UpdateCategorySpec` and `CategoryController.DeleteCategorySpec` answer `NoReply` where their handler has no `try` block and a cast or validation rejects. The model takes Express 4, where such a rejection does not reach `errorHandler`. What follows it is not modelled: under Express 4 on recent Node versions the unhandled rejection ends the process; under Express 5 `errorHandler` answers the request.
- Fail: the 500 bodies of the `catch` blocks carry an `error` field with the exception's message besides `message` (`server/controllers/authController.js:48`, `:78`, `:95`, `:113`; `server/controllers/expenseController.js:113`, `:151`, `:174`, `:217`). `Fail(status, text)` keeps only the `message` text.
- ToLower: only the ASCII capitals `A`–`Z` are lowered. JavaScript's `toLowerCase` also lowers other cased letters (`É`, Greek, Cyrillic) and can change a text's length (`İ`). Those are left out because full Unicode case mapping is beyond the model.
- KeepMatching: the note search of the expense lists inherits the ASCII-only lowering of `Text.ToLower`, so a query matches a note differing only in the case of a non-ASCII letter in JavaScript but not in the model.
- SearchNotes: the same ASCII-only case folding as `KeepMatching`.
- SearchIgnoresCase: proved for the ASCII-only lowering; for non-ASCII letters the claim about JavaScript's search is not covered.
- UpsertBudgetSpec: an absent `categoryId` is not modelled. The model takes the category id as a present value that must cast, so the source's lookup with an undefined category and its creation of a row without a category are left out (the schema's `category` is optional).
- UpsertBudget: the same absent-`categoryId` case as `UpsertBudgetSpec` is left out.
- Route: paths are compared exactly. React Router also matches a path that differs only in letter case or has a trailing slash; that normalisation is left out.
- GetExpenses: the `month` query is read strictly as `YYYY-MM` (four digits, a dash, two digits). The source builds the text `month + "-01T00:00:00.000Z"` and reads it with `new Date`, which also accepts a bare year (`2024` reads as January 2024) and the expanded six-digit years of the ISO format; the model answers those with the 500 reply of an unreadable month.
- GetExpensesRange: the `start` and `end` queries are read strictly as `YYYY-MM-DD`. The source appends a time of day and reads the text with `new Date`, which also accepts a bare year or a year and month (the first day of that year or month) and expanded six-digit years; the model answers those with the 400 "Invalid date format" reply.
- CategoryText: the model has one absent category. In the source a category that `populate` found deleted is `null` and reads "null", while an absent one reads "undefined"; the model reads both as "undefined".
- Patched: only the schema's fields of an update body are modelled, each present with a value. A field sent as an explicit `null` is stored as `null` in the source (update validators are off), which the model does not express; a `createdAt` text is taken as the instant it denotes, so a text that does not cast (which rejects the update) is left out; `_id` in the body and fields outside the schema are left out.
- CreateCategorySpec: a `color` sent as an explicit `null` stays `null` in the source, since the schema default fills only a missing value; the model has one absent colour and stores the default for it.
- DateFiltered: the expense-list modal's `rangeStart` and `rangeEnd` are read with `Calendar.ParseDay`, strictly as `YYYY-MM-DD` (a day up to 31 rolls into the next month). `new Date(text)` also accepts other forms (a bare year, a year and month, expanded six-digit years, other layouts); the modal's date inputs give only `YYYY-MM-DD` or an empty text, and an empty text keeps nothing in both.

=== FILE: add_expense_modal.dfy ===
/** The quick-add expense form (client/src/components/AddExpenseModal.jsx): the default
    category, the check before saving, the payload with its month, the save through
    the expense store, the reloads after it, and the reset on close. */
module AddExpenseModal {
  import opened Base
  import opened Calendar
  import opened ClientData
  import opened ExpenseViews
  import ExpenseStore
  import BudgetStore

  /** `date.slice(0, 7)`. */
  function MonthOfDate(date: string): (m: string)
    ensures |date| >= 7 ==> m == date[..7]
    ensures |date| < 7 ==> m == date
  {
    if |date| >= 7 then date[..7] else date
  }

  /** The month of a `YYYY-MM-DD` date is that date's `YYYY-MM` token, and reads back
      as the date's month. */
  lemma MonthOfDayToken(date: Date)
    requires date.Valid() && 0 <= date.year <= 9999
    ensures MonthOfDate(DayToken(date)) == MonthToken(date.Month())
    ensures ParseMonthToken(MonthOfDate(DayToken(date))) == Some(date.Month())
  {
    DayTokenFields(date);
    DayTokenMonth(date);
    ParseMonthTokenRoundTrip(date.Month());
  }

  /** The body the form saves. */
  datatype Payload = Payload(category: string, amount: real, date: string, month: string, notes: string)

  class Form {
    var categoryId: string
    var amount: string
    var date: string
    var notes: string
    var saving: bool
    var error: Option<string>

    /** The first render: no category, no amount, today, no notes. */
    constructor (today: string)
      ensures categoryId == "" && amount == "" && date == today && notes == "" && !saving && error == None
    {
      categoryId, amount, date, notes := "", "", today, "";
      saving, error := false, None;
    }

    /** The default-category effect: with nothing selected and categories loaded,
        the first category is selected. */
    method SyncDefaultCategory(categories: seq<ClientCategory>)
      modifies this
      ensures old(categoryId) == "" && |categories| > 0 ==> categoryId == categories[0].id
      ensures !(old(categoryId) == "" && |categories| > 0) ==> categoryId == old(categoryId)
      ensures amount == old(amount) && date == old(date) && notes == old(notes)
      ensures saving == old(saving) && error == old(error)
    {
      if categoryId == "" && |categories| > 0 {
        categoryId := categories[0].id;
      }
    }

    /** `handleClose`: the error, the amount, the date and the notes are reset, the
        category is kept, and the modal closes. */
    method HandleClose(ui: UiStore, today: string)
      modifies this, ui
      ensures error == None && amount == "" && date == today && notes == ""
      ensures categoryId == old(categoryId) && saving == old(saving)
      ensures !ui.expenseModalOpen && ui.toast == old(ui.toast)
    {
      error, amount, date, notes := None, "", today, "";
      ui.CloseExpenseModal();
    }

    /** `handleSubmit`. A failed check only sets the message. Otherwise the payload
        goes to the expense store; after a successful add the month's expenses and
        budgets are reloaded, failures of the reloads ignored, a success toast shows
        and the form closes; a failed add sets and toasts the error and the form
        stays open. `sent` is the payload saved, if any. */
    method HandleSubmit(ui: UiStore, store: ExpenseStore.Store, budgetStore: BudgetStore.Store,
                        parse: NumberParser, instantOf: string -> int, now: nat, today: string,
                        added: Outcome<ExpenseStore.AddResponse>, expensesRefetch: Outcome<seq<ClientExpense>>,
                        budgetsRefetch: Outcome<seq<ClientBudget>>)
      returns (sent: Option<Payload>)
      modifies this, ui, store, budgetStore
      ensures categoryId == old(categoryId)
      ensures var check := FormError(old(categoryId), Typed(old(amount)), parse);
              check.Some? ==>
                saving == old(saving) && error == check && sent.None? && amount == old(amount) && date == old(date) && notes == old(notes)
                && store.expenses == old(store.expenses) && ui.toast == old(ui.toast)
                && ui.expenseModalOpen == old(ui.expenseModalOpen)
      ensures FormError(old(categoryId), Typed(old(amount)), parse).None? ==>
                !saving && sent == Some(Payload(old(categoryId), AmountNumber(Typed(old(amount)), parse).value, old(date),
                                     MonthOfDate(old(date)), old(notes)))
      ensures FormError(old(categoryId), Typed(old(amount)), parse).None? && added.Success? ==>
                ui.toast == Some(Toast(SuccessToast, Text("Expense saved"))) && !ui.expenseModalOpen
                && error == None && amount == "" && date == today && notes == ""
                && store.expenses
                   == (if expensesRefetch.Success? then expensesRefetch.data
                       else ExpenseStore.AfterAdd(old(store.expenses), TempId(now), StorePayload(sent.value, instantOf), added))
                && budgetStore.budgets == (if budgetsRefetch.Success? then budgetsRefetch.data else old(budgetStore.budgets))
      ensures FormError(old(categoryId), Typed(old(amount)), parse).None? && added.Failure? ==>
                var msg := Nullish(added.err.serverMessage, added.err.message, "Save failed");
                error == Some(msg) && ui.toast == Some(Toast(ErrorToast, Text(msg)))
                && ui.expenseModalOpen == old(ui.expenseModalOpen)
                && amount == old(amount) && date == old(date) && notes == old(notes)
                && store.expenses == ExpenseStore.AfterAdd(old(store.expenses), TempId(now),
                                                           StorePayload(sent.value, instantOf), added)
    {
      error := None;
      var check := FormError(categoryId, Typed(amount), parse);
      if check.Some? {
        error := check;
        return None;
      }
      saving := true;
      var payload := Payload(categoryId, AmountNumber(Typed(amount), parse).value, date, MonthOfDate(date), notes);
      sent := Some(payload);
      var thrown := store.Add(ui, StorePayload(payload, instantOf), now, added);
      if thrown.None? {
        var _ := store.Fetch(expensesRefetch);
        var _ := budgetStore.Fetch(budgetsRefetch);
        ui.ShowToast(Toast(SuccessToast, Text("Expense saved")));
        HandleClose(ui, today);
      } else {
        var msg := Nullish(thrown.value.serverMessage, thrown.value.message, "Save failed");
        error := Some(msg);
        ui.ShowToast(Toast(ErrorToast, Text(msg)));
      }
      saving := false;
    }
  }

  /** The payload as the store's optimistic entry sees it; `instantOf` is
      `new Date(text).getTime()`, supplied by the caller. */
  function StorePayload(p: Payload, instantOf: string -> int): (s: ExpenseStore.ExpensePayload)
    ensures s.category == p.category && s.amount == p.amount && s.notes == Some(p.notes)
  {
    ExpenseStore.ExpensePayload(p.category, p.amount, instantOf(p.date), Some(p.notes))
  }
}

=== FILE: app_routes.dfy ===
/** The application shell (client/src/App.jsx): the session check on start-up and
    the route guard that decides, from whether the session check has finished,
    whether a user is signed in and the path, what is shown. */
module AppRoutes {
  import opened Base
  import opened ClientData
  import AuthStore

  /** What the shell shows. */
  datatype Screen = CheckingSession | AuthScreen | PageView(path: string) | RedirectTo(path: string)

  /** The paths that need a signed-in user. */
  predicate PrivatePath(path: string)
  {
    path in {"/dashboard", "/reports", "/categories", "/budgets", "/expenses"}
  }

  /** The guard. Until the session check ends only the waiting text shows; `/auth`
      sends a signed-in user to the dashboard; a private path shows its page to a
      signed-in user and sends anyone else to `/auth`; any other path redirects to
      the dashboard or to `/auth`. */
  function Route(authChecked: bool, hasUser: bool, path: string): (s: Screen)
    ensures !authChecked <==> s == CheckingSession
    ensures s.PageView? ==> hasUser && PrivatePath(path) && s.path == path
    ensures s == AuthScreen <==> authChecked && !hasUser && path == "/auth"
    ensures authChecked && hasUser && PrivatePath(path) ==> s == PageView(path)
    ensures authChecked && !hasUser && path != "/auth" ==> s == RedirectTo("/auth")
    ensures authChecked && hasUser && !PrivatePath(path) ==> s == RedirectTo("/dashboard")
  {
    if !authChecked then CheckingSession
    else if path == "/auth" then (if hasUser then RedirectTo("/dashboard") else AuthScreen)
    else if PrivatePath(path) then (if hasUser then PageView(path) else RedirectTo("/auth"))
    else RedirectTo(if hasUser then "/dashboard" else "/auth")
  }

  /** One redirect is enough: where the guard redirects, it renders a screen. */
  lemma RedirectSettles(hasUser: bool, path: string)
    requires Route(true, hasUser, path).RedirectTo?
    ensures var target := Route(true, hasUser, path).path;
            Route(true, hasUser, target) == if hasUser then PageView("/dashboard") else AuthScreen
  {
  }

  /** `checkAuth`: the user the server reports (`data.user ?? null`), or none when the
      call fails, and the session marked as checked either way. After the shell has
      gone, nothing is set. */
  method CheckAuth(store: AuthStore.Store, mounted: bool, response: Outcome<Option<AuthUser>>)
    modifies store
    ensures mounted ==> store.authChecked && store.error == None
                        && store.user == (if response.Success? then response.data else None)
    ensures !mounted ==> store.user == old(store.user) && store.authChecked == old(store.authChecked)
                         && store.error == old(store.error)
    ensures store.loading == old(store.loading)
  {
    if !mounted {
      return;
    }
    match response {
      case Success(user) => store.SetAuth(user);
      case Failure(_) => store.SetAuth(None);
    }
    store.MarkAuthChecked(Some(true));
  }
}

=== FILE: auth_controller.dfy ===
/** Sign-up, login, logout and the current-user lookup over the user table
    (server/controllers/authController.js). Password hashing and token signing are
    supplied by the caller. */
module AuthController {
  import opened Base
  import opened ServerData

  /** `bcrypt.hash`, `bcrypt.compare(password, hash)` and the token signed for a user id. */
  datatype Crypto = Crypto(hash: string -> string, compare: (string, string) -> bool, sign: ObjectId -> string)

  /** What a reply does to the client's `token` cookie. */
  datatype Cookie = Keep | SetToken(token: string) | ClearToken

  datatype AuthReply = AuthReply(reply: Reply, cookie: Cookie)

  /** No two users share an email. */
  predicate UniqueEmails(users: seq<User>)
  {
    forall i, j :: 0 <= i < j < |users| ==> users[i].email != users[j].email
  }

  /** `User.findOne({ email })`. */
  function FindByEmail(users: seq<User>, email: string): (r: Option<User>)
    ensures r.Some? ==> r.value in users && r.value.email == email
    ensures r.None? <==> forall u :: u in users ==> u.email != email
  {
    match FirstIndex(users, (u: User) => u.email == email)
    case None => None
    case Some(i) => Some(users[i])
  }

  datatype SignupOutcome = SignupOutcome(users: seq<User>, answer: AuthReply)

  /** `signup`: refuses a used email; otherwise stores the email with the hash of the
      password (never the password), sets the token cookie and answers with the new
      id and email. A missing password makes hashing throw. */
  function SignupSpec(crypto: Crypto, users: seq<User>, email: string, password: Option<string>, newId: ObjectId)
    : (r: SignupOutcome)
    ensures FindByEmail(users, email).Some?
        ==> r == SignupOutcome(users, AuthReply(Fail(400, "Email already used"), Keep))
    ensures FindByEmail(users, email).None? && password.None?
        ==> r == SignupOutcome(users, AuthReply(Fail(500, "Signup failed"), Keep))
    ensures r.answer.reply.Reply? && r.answer.reply.status == 200 <==> FindByEmail(users, email).None? && password.Some?
    ensures r.answer.reply.Reply? && r.answer.reply.status == 200 ==>
              r.users == users + [User(newId, email, crypto.hash(password.value))]
              && r.answer == AuthReply(Reply(200, UserInfo(newId, email)), SetToken(crypto.sign(newId)))
  {
    if FindByEmail(users, email).Some? then SignupOutcome(users, AuthReply(Fail(400, "Email already used"), Keep))
    else if password.None? then SignupOutcome(users, AuthReply(Fail(500, "Signup failed"), Keep))
    else
      var user := User(newId, email, crypto.hash(password.value));
      SignupOutcome(users + [user], AuthReply(Reply(200, UserInfo(newId, email)), SetToken(crypto.sign(newId))))
  }

  /** Sign-up keeps emails unique. */
  lemma SignupKeepsEmailsUnique(crypto: Crypto, users: seq<User>, email: string, password: Option<string>,
                                newId: ObjectId)
    requires UniqueEmails(users)
    ensures UniqueEmails(SignupSpec(crypto, users, email, password, newId).users)
  {
    var r := SignupSpec(crypto, users, email, password, newId);
    if r.users != users {
      forall i, j | 0 <= i < j < |r.users|
        ensures r.users[i].email != r.users[j].email
      {
        if j == |users| {
          assert users[i] in users;
        }
      }
    }
  }

  method Signup(db: Database, crypto: Crypto, email: string, password: Option<string>, newId: ObjectId)
    returns (answer: AuthReply)
    modifies db
    ensures db.categories == old(db.categories) && db.budgets == old(db.budgets) && db.expenses == old(db.expenses)
    ensures SignupOutcome(db.users, answer) == SignupSpec(crypto, old(db.users), email, password, newId)
  {
    var taken := FindByEmail(db.users, email);
    if taken.Some? {
      return AuthReply(Fail(400, "Email already used"), Keep);
    }
    if password.None? {
      return AuthReply(Fail(500, "Signup failed"), Keep);
    }
    var passwordHash := crypto.hash(password.value);
    db.users := db.users + [User(newId, email, passwordHash)];
    answer := AuthReply(Reply(200, UserInfo(newId, email)), SetToken(crypto.sign(newId)));
  }

  const BadCredentials := AuthReply(Fail(400, "Invalid credentials"), Keep)

  /** `login`: the same answer for an unknown email as for a wrong password; on a
      match, the stored user's id and email and a fresh token cookie. Comparing a
      missing password throws. */
  function Login(crypto: Crypto, users: seq<User>, email: string, password: Option<string>): (r: AuthReply)
    ensures FindByEmail(users, email).None? ==> r == BadCredentials
    ensures FindByEmail(users, email).Some? && password.None? ==> r == AuthReply(Fail(500, "Login failed"), Keep)
    ensures FindByEmail(users, email).Some? && password.Some?
            && !crypto.compare(password.value, FindByEmail(users, email).value.passwordHash)
        ==> r == BadCredentials
    ensures r.reply.Reply? && r.reply.status == 200 <==>
              FindByEmail(users, email).Some? && password.Some?
              && crypto.compare(password.value, FindByEmail(users, email).value.passwordHash)
    ensures r.reply.Reply? && r.reply.status == 200 ==>
              exists u :: u in users && u.email == email
                          && r == AuthReply(Reply(200, UserInfo(u.id, u.email)), SetToken(crypto.sign(u.id)))
  {
    match FindByEmail(users, email)
    case None => BadCredentials
    case Some(u) =>
      if password.None? then AuthReply(Fail(500, "Login failed"), Keep)
      else if !crypto.compare(password.value, u.passwordHash) then BadCredentials
      else AuthReply(Reply(200, UserInfo(u.id, u.email)), SetToken(crypto.sign(u.id)))
  }

  /** A caller cannot tell an unknown email from a wrong password. */
  lemma LoginFailuresAlike(crypto: Crypto, users: seq<User>, unknown: string, known: string, password: string)
    requires forall u :: u in users ==> u.email != unknown
    requires FindByEmail(users, known).Some?
    requires !crypto.compare(password, FindByEmail(users, known).value.passwordHash)
    ensures Login(crypto, users, unknown, Some(password)) == Login(crypto, users, known, Some(password))
  {
  }

  /** `logout`: clears the token cookie and answers "Logged out". */
  function Logout(): (r: AuthReply)
    ensures r.cookie == ClearToken && r.reply == Fail(200, "Logged out")
  {
    AuthReply(Fail(200, "Logged out"), ClearToken)
  }

  /** `me`: the caller's id and email. */
  function Me(isValidId: IdCheck, users: seq<User>, user: Option<ObjectId>): (r: Reply)
    ensures Falsy(user) <==> r == Fail(401, "Not authenticated")
    ensures r == Fail(500, "Failed to fetch user") <==> !Falsy(user) && !isValidId(user.value)
    ensures r == Fail(404, "User not found")
        <==> !Falsy(user) && isValidId(user.value) && forall u :: u in users ==> u.id != user.value
    ensures r.Reply? && r.status == 200 ==> exists u :: u in users && u.id == user.value && r == Reply(200, UserInfo(u.id, u.email))
    ensures !Falsy(user) && isValidId(user.value) ==>
              forall i :: 0 <= i < |users| && users[i].id == user.value
                          && (forall j :: 0 <= j < i ==> users[j].id != user.value)
                          ==> r == Reply(200, UserInfo(users[i].id, users[i].email))
  {
    if Falsy(user) then Fail(401, "Not authenticated")
    else if !isValidId(user.value) then Fail(500, "Failed to fetch user")
    else match FirstIndex(users, (u: User) => u.id == user.value)
      case None => Fail(404, "User not found")
      case Some(i) => Reply(200, UserInfo(users[i].id, users[i].email))
  }
}

=== FILE: auth_middleware.dfy ===
/** The `protect` middleware (server/middlewares/auth.js): finds the request's token in
    the `Authorization` header or the `token` cookie, verifies it, records the caller
    on the request and passes control on. */
module AuthMiddleware {
  import opened Base
  import opened Text
  import opened ServerData

  /** The payload of a verified token; `id` may be missing from it. */
  datatype Payload = Payload(id: Option<ObjectId>)

  /** `jwt.verify` with the server's secret: `None` when verification throws. */
  type Verifier = string -> Option<Payload>

  const Bearer := "Bearer "

  /** `header.split(' ')[1]` for a header that starts with "Bearer ". */
  function HeaderToken(header: string): (t: string)
    requires StartsWith(header, Bearer)
  {
    assert header == "Bearer" + [' '] + header[|Bearer|..];
    SplitSecond("Bearer", ' ', header[|Bearer|..]);
    Split(header, ' ')[1]
  }

  /** The header token is what follows "Bearer " up to the next space: empty when a
      second space follows at once. */
  lemma BearerToken(t: string)
    ensures StartsWith(Bearer + t, Bearer)
    ensures HeaderToken(Bearer + t) == if ' ' in t then t[..IndexOf(t, ' ')] else t
  {
    var h := Bearer + t;
    assert h[..|Bearer|] == Bearer;
    assert h[|Bearer|..] == t;
    assert h == "Bearer" + [' '] + t;
    SplitSecond("Bearer", ' ', t);
  }

  /** The token `protect` goes on with: the header token when the header starts with
      "Bearer " and that token is not empty, else the cookie when it is not empty. */
  function TokenOf(header: Option<string>, cookie: Option<string>): (r: Option<string>)
    ensures r.Some? ==> r.value != ""
    ensures header.Some? && StartsWith(header.value, Bearer) && HeaderToken(header.value) != ""
        ==> r == Some(HeaderToken(header.value))
    ensures !(header.Some? && StartsWith(header.value, Bearer) && HeaderToken(header.value) != "")
        ==> r == if Falsy(cookie) then None else cookie
  {
    if header.Some? && StartsWith(header.value, Bearer) && HeaderToken(header.value) != "" then
      Some(HeaderToken(header.value))
    else if Falsy(cookie) then None
    else cookie
  }

  /** A header carrying a token wins over the cookie, whatever the cookie holds. */
  lemma HeaderWins(t: string, cookie: Option<string>)
    requires t != "" && ' ' !in t
    ensures TokenOf(Some(Bearer + t), cookie) == Some(t)
  {
    BearerToken(t);
  }

  /** "Bearer" followed by two spaces yields an empty header token, so the cookie is used. */
  lemma DoubleSpaceFallsBack(t: string, cookie: string)
    requires cookie != ""
    ensures TokenOf(Some(Bearer + " " + t), Some(cookie)) == Some(cookie)
  {
    BearerToken(" " + t);
    assert Bearer + " " + t == Bearer + (" " + t);
    assert IndexOf(" " + t, ' ') == 0;
  }

  /** The parts of a request `protect` reads and writes; `nextCalls` counts the calls
      of `next()`. */
  class Request {
    const authorization: Option<string>
    const cookieToken: Option<string>
    var user: Option<ObjectId>
    var nextCalls: nat

    constructor (authorization: Option<string>, cookieToken: Option<string>)
      ensures this.authorization == authorization && this.cookieToken == cookieToken
      ensures user == None && nextCalls == 0
    {
      this.authorization := authorization;
      this.cookieToken := cookieToken;
      user := None;
      nextCalls := 0;
    }
  }

  /** Answers 401 without a token or with one that does not verify, and then neither
      sets the caller nor calls `next`; otherwise records the payload's id as the
      caller and calls `next` exactly once. */
  method Protect(req: Request, verify: Verifier) returns (reply: Option<Reply>)
    modifies req
    ensures TokenOf(req.authorization, req.cookieToken).None?
        ==> reply == Some(Fail(401, "Not authorized")) && req.user == old(req.user) && req.nextCalls == old(req.nextCalls)
    ensures TokenOf(req.authorization, req.cookieToken).Some? && verify(TokenOf(req.authorization, req.cookieToken).value).None?
        ==> reply == Some(Fail(401, "Token invalid")) && req.user == old(req.user) && req.nextCalls == old(req.nextCalls)
    ensures TokenOf(req.authorization, req.cookieToken).Some? && verify(TokenOf(req.authorization, req.cookieToken).value).Some?
        ==> reply.None? && req.user == verify(TokenOf(req.authorization, req.cookieToken).value).value.id
            && req.nextCalls == old(req.nextCalls) + 1
  {
    var token: Option<string> := None;
    var header := req.authorization;
    if header.Some? && StartsWith(header.value, Bearer) {
      token := Some(HeaderToken(header.value));
    }
    if Falsy(token) && !Falsy(req.cookieToken) {
      token := req.cookieToken;
    }
    if Falsy(token) {
      return Some(Fail(401, "Not authorized"));
    }
    var decoded := verify(token.value);
    if decoded.None? {
      return Some(Fail(401, "Token invalid"));
    }
    req.user := decoded.value.id;
    req.nextCalls := req.nextCalls + 1;
    reply := None;
  }
}

=== FILE: auth_store.dfy ===
/** The client's session state (client/src/stores/authStore.js). */
module AuthStore {
  import opened Base
  import opened ClientData

  /** `err?.response?.data?.message || err.message`. */
  function AuthError(err: ApiError): (r: Option<string>)
    ensures r == err.serverMessage || r == err.message
    ensures Truthy(err.serverMessage) ==> r == err.serverMessage
    ensures !Truthy(err.serverMessage) ==> r == err.message
  {
    Or(err.serverMessage, err.message)
  }

  class Store {
    var user: Option<AuthUser>
    var loading: bool
    var error: Option<string>
    var authChecked: bool

    /** No user, and the session check not yet done. */
    constructor ()
      ensures user == None && !loading && error == None && !authChecked
    {
      user, loading, error, authChecked := None, false, None, false;
    }

    /** `setAuth`: sets the user and clears the error. */
    method SetAuth(u: Option<AuthUser>)
      modifies this
      ensures user == u && error == None
      ensures loading == old(loading) && authChecked == old(authChecked)
    {
      user, error := u, None;
    }

    /** `markAuthChecked`: the flag takes the given value, `true` when none is given. */
    method MarkAuthChecked(val: Option<bool>)
      modifies this
      ensures authChecked == val.GetOr(true)
      ensures user == old(user) && loading == old(loading) && error == old(error)
    {
      authChecked := val.GetOr(true);
    }

    /** `signup` and `login`, which change the state alike: a success sets the user the
        server reports (`data.user`, absent as `None`) and leaves no error; a failure
        keeps the user, records the error and rethrows. */
    method Authenticate(response: Outcome<Option<AuthUser>>) returns (thrown: Option<ApiError>)
      modifies this
      ensures !loading && authChecked == old(authChecked)
      ensures response.Success? ==> user == response.data && error == None && thrown.None?
      ensures response.Failure? ==>
                user == old(user) && error == AuthError(response.err) && thrown == Some(response.err)
    {
      loading, error := true, None;
      match response {
        case Success(data) =>
          user, loading := data, false;
          thrown := None;
        case Failure(err) =>
          error, loading := AuthError(err), false;
          thrown := Some(err);
      }
    }

    /** `logout`: the user is cleared whether or not the server call succeeds; a
        failure is only logged. */
    method Logout(response: Outcome<()>)
      modifies this
      ensures user == None
      ensures loading == old(loading) && error == old(error) && authChecked == old(authChecked)
    {
      user := None;
    }
  }
}

=== FILE: base.dfy ===
/** Values shared by every tier of the budgeting application: optional values,
    results, sums of amounts, and the abstract JavaScript `Number(text)` conversion. */
module Base {

  /** `None` stands for JavaScript's `null`/`undefined` (or NaN, for numbers). */
  datatype Option<+T> = None | Some(value: T) {
    function GetOr(default: T): T {
      match this
      case Some(v) => v
      case None => default
    }
  }

  datatype Result<+T, +E> = Ok(value: T) | Err(error: E)

  /** JavaScript `Number(text)`: the numeric value of a text, `None` for NaN.
      It is supplied by the caller; the model never looks inside it. */
  type NumberParser = string -> Option<real>

  /** Sum of a sequence of amounts, folded from the left as `reduce` does. */
  function Sum(xs: seq<real>): real
  {
    if xs == [] then 0.0 else Sum(xs[..|xs| - 1]) + xs[|xs| - 1]
  }

  lemma {:induction false} SumAppend(xs: seq<real>, ys: seq<real>)
    ensures Sum(xs + ys) == Sum(xs) + Sum(ys)
    decreases |ys|
  {
    if ys == [] {
      assert xs + ys == xs;
    } else {
      var init := ys[..|ys| - 1];
      assert (xs + ys)[..|xs + ys| - 1] == xs + init;
      SumAppend(xs, init);
    }
  }

  /** Changing one amount changes the sum by the difference. */
  lemma {:induction false} SumUpdate(xs: seq<real>, k: nat, v: real)
    requires k < |xs|
    ensures Sum(xs[k := v]) == Sum(xs) - xs[k] + v
    decreases |xs|
  {
    var n := |xs| - 1;
    var ys := xs[k := v];
    assert ys[..n] == if k == n then xs[..n] else xs[..n][k := v];
    if k < n {
      SumUpdate(xs[..n], k, v);
    }
  }

  lemma SumSnoc(xs: seq<real>, v: real)
    ensures Sum(xs + [v]) == Sum(xs) + v
  {
    assert (xs + [v])[..|xs|] == xs;
  }

  lemma {:induction false} SumNonNegative(xs: seq<real>)
    requires forall i :: 0 <= i < |xs| ==> xs[i] >= 0.0
    ensures Sum(xs) >= 0.0
    decreases |xs|
  {
    if xs != [] {
      SumNonNegative(xs[..|xs| - 1]);
    }
  }

  /** `Math.round`: the nearest integer, halves rounded up. */
  function Round(x: real): (r: int)
    ensures x - 0.5 < r as real <= x + 0.5
  {
    (x + 0.5).Floor
  }

  /** `Math.abs` on an exact amount. */
  function Abs(x: real): (r: real)
    ensures r >= 0.0 && (r == x || r == -x)
  {
    if x < 0.0 then -x else x
  }

  /** `map`: `f` applied to every element, in order. */
  function Map<T, U>(s: seq<T>, f: T -> U): (r: seq<U>)
    ensures |r| == |s| && forall i :: 0 <= i < |s| ==> r[i] == f(s[i])
  {
    if s == [] then [] else [f(s[0])] + Map(s[1..], f)
  }

  /** `filter`: the elements satisfying `p`, in their original order. */
  function Filter<T(!new)>(s: seq<T>, p: T -> bool): (r: seq<T>)
    ensures |r| <= |s|
    ensures forall x :: x in r <==> x in s && p(x)
    ensures forall i :: 0 <= i < |r| ==> p(r[i])
  {
    if s == [] then []
    else
      var init := s[..|s| - 1];
      assert s == init + [s[|s| - 1]];
      Filter(init, p) + (if p(s[|s| - 1]) then [s[|s| - 1]] else [])
  }

  lemma FilterAppend<T(!new)>(s: seq<T>, x: T, p: T -> bool)
    ensures Filter(s + [x], p) == Filter(s, p) + (if p(x) then [x] else [])
  {
    assert (s + [x])[..|s|] == s;
  }

  /** Two tests that agree on every element keep the same elements. */
  lemma {:induction false} FilterAgree<T(!new)>(s: seq<T>, p: T -> bool, q: T -> bool)
    requires forall x :: x in s ==> p(x) == q(x)
    ensures Filter(s, p) == Filter(s, q)
    decreases |s|
  {
    if s != [] {
      var init := s[..|s| - 1];
      assert forall x :: x in init ==> x in s;
      FilterAgree(init, p, q);
      assert s[|s| - 1] in s;
    }
  }

  lemma FilterNone<T(!new)>(s: seq<T>, p: T -> bool)
    requires forall x :: x in s ==> !p(x)
    ensures Filter(s, p) == []
  {
    var r := Filter(s, p);
    assert forall k :: 0 <= k < |r| ==> r[k] in r;
  }

  /** Index of the first element satisfying `p`, as a query that stops at its first
      match finds it. */
  function FirstIndex<T>(s: seq<T>, p: T -> bool): (r: Option<nat>)
    ensures r.Some? ==> r.value < |s| && p(s[r.value])
    ensures r.Some? ==> forall j :: 0 <= j < r.value ==> !p(s[j])
    ensures r.None? <==> forall j :: 0 <= j < |s| ==> !p(s[j])
  {
    if s == [] then None
    else if p(s[0]) then Some(0)
    else match FirstIndex(s[1..], p)
      case None => None
      case Some(i) => Some(i + 1)
  }

  /** The first match is at `k` when `s[k]` matches and nothing before it does. */
  lemma FirstIndexAt<T>(s: seq<T>, p: T -> bool, k: nat)
    requires k < |s| && p(s[k])
    requires forall j :: 0 <= j < k ==> !p(s[j])
    ensures FirstIndex(s, p) == Some(k)
  {
  }

  /** Mapping a sequence with one more element at the end. */
  lemma MapSnoc<T, U>(s: seq<T>, x: T, f: T -> U)
    ensures Map(s + [x], f) == Map(s, f) + [f(x)]
  {
    var l := Map(s + [x], f);
    assert forall i :: 0 <= i < |s| ==> l[i] == f(s[i]) by {
      forall i | 0 <= i < |s| ensures l[i] == f(s[i]) {
        assert (s + [x])[i] == s[i];
      }
    }
  }

  /** The sequence without its element at index `i`. */
  function RemoveAt<T>(s: seq<T>, i: nat): (r: seq<T>)
    requires i < |s|
    ensures |r| == |s| - 1
    ensures forall j :: 0 <= j < i ==> r[j] == s[j]
    ensures forall j :: i <= j < |r| ==> r[j] == s[j + 1]
    ensures multiset(r) + multiset{s[i]} == multiset(s)
  {
    assert s == s[..i] + [s[i]] + s[i + 1..];
    s[..i] + s[i + 1..]
  }
}

=== FILE: budget_card.dfy ===
/** One budget's card on the Dashboard (client/src/components/BudgetCard.jsx): the
    percentage of the budget spent, capped at 100, the remaining amount, the
    over-budget badge and footer, and the colour dot. */
module BudgetCard {
  import opened Base
  import opened Text
  import opened Figures

  /** The card's inputs; an absent colour, spent amount or budget takes its default. */
  datatype CardProps = CardProps(title: string, color: Option<string>, spent: Option<real>, budget: Option<real>)

  function Color(p: CardProps): string
  {
    p.color.GetOr("bg-blue-500")
  }

  function Spent(p: CardProps): real
  {
    p.spent.GetOr(0.0)
  }

  function Budget(p: CardProps): real
  {
    p.budget.GetOr(0.0)
  }

  /** `budget === 0 ? 0 : Math.min(100, Math.round((spent / budget) * 100))`. */
  function CardPercent(spent: real, budget: real): (p: int)
    ensures p <= 100
    ensures budget == 0.0 ==> p == 0
    ensures p == if PercentOf(spent, budget) > 100 then 100 else PercentOf(spent, budget)
  {
    if budget == 0.0 then 0
    else
      var r := Round(spent / budget * 100.0);
      if r < 100 then r else 100
  }

  /** Spending more than the budget fills the bar and no more. */
  lemma OverspentShowsFull(spent: real, budget: real)
    requires 0.0 < budget <= spent
    ensures CardPercent(spent, budget) == 100
  {
    var q := spent / budget;
    assert q * budget == spent;
    assert q >= 1.0;
  }

  /** The footer: how far over budget, or how much is left. */
  datatype Footer = OverBy(amount: real) | Left(amount: real)

  /** What the card shows. */
  datatype Card = Card(title: string, dot: Option<string>, percent: int, over: bool, footer: Footer)

  /** The colour goes into an inline style only when it is a `#` colour. */
  function Dot(color: string): (d: Option<string>)
    ensures d.Some? <==> StartsWith(color, "#")
    ensures d.Some? ==> d.value == color
  {
    if StartsWith(color, "#") then Some(color) else None
  }

  /** The card: the badge shows exactly when the remaining amount `budget - spent`
      is below zero, and the footer then reports its magnitude. */
  function Render(p: CardProps): (c: Card)
    ensures c.title == p.title
    ensures c.percent == CardPercent(Spent(p), Budget(p))
    ensures c.percent <= 100 && (Budget(p) == 0.0 ==> c.percent == 0)
    ensures c.over <==> Spent(p) > Budget(p)
    ensures c.over ==> c.footer == OverBy(Spent(p) - Budget(p)) && c.footer.amount > 0.0
    ensures !c.over ==> c.footer == Left(Budget(p) - Spent(p)) && c.footer.amount >= 0.0
    ensures c.dot.Some? <==> StartsWith(Color(p), "#")
  {
    var remaining := Budget(p) - Spent(p);
    var over := remaining < 0.0;
    Card(p.title, Dot(Color(p)), CardPercent(Spent(p), Budget(p)), over,
         if over then OverBy(Abs(remaining)) else Left(remaining))
  }
}

=== FILE: budget_controller.dfy ===
/** The budget handlers: the month query, the upsert keyed on (user, category, month)
    and the owner-scoped delete (server/controllers/budgetController.js). None of them
    catches a failing database call: an id that does not cast to an ObjectId, or a row
    the schema rejects, leaves the request without a reply. */
module BudgetController {
  import opened Base
  import opened ServerData

  /** `getBudgets`: the caller's rows for the queried month, in stored order; an
      absent month matches no row. */
  function GetBudgets(isValidId: IdCheck, budgets: seq<Budget>, user: ObjectId, month: Option<string>): (r: Reply)
    ensures !isValidId(user) <==> r == NoReply
    ensures r.Reply? ==> r.status == 200 && r.body.BudgetList?
    ensures r.Reply? ==> forall b :: b in r.body.budgets <==> b in budgets && b.user == user && Some(b.month) == month
  {
    if !isValidId(user) then NoReply
    else Reply(200, BudgetList(Filter(budgets, (b: Budget) => b.user == user && Some(b.month) == month)))
  }

  predicate SameTriple(b: Budget, user: ObjectId, category: ObjectId, month: string)
  {
    b.user == user && b.category == category && b.month == month
  }

  /** At most one row per (user, category, month). */
  predicate UniqueTriples(rows: seq<Budget>)
  {
    forall i, j :: 0 <= i < j < |rows| ==> !SameTriple(rows[j], rows[i].user, rows[i].category, rows[i].month)
  }

  /** The rows holding the triple. */
  function TripleRows(rows: seq<Budget>, user: ObjectId, category: ObjectId, month: string): seq<Budget>
  {
    Filter(rows, (b: Budget) => SameTriple(b, user, category, month))
  }

  /** The rows after an upsert: the first row with the triple gets the new limit,
      or a new row is appended when there is none. */
  function Upsert(rows: seq<Budget>, user: ObjectId, category: ObjectId, month: string, limit: real,
                  newId: ObjectId): (r: seq<Budget>)
  {
    match FirstIndex(rows, (b: Budget) => SameTriple(b, user, category, month))
    case Some(i) => rows[i := rows[i].(limit := limit)]
    case None => rows + [Budget(newId, user, category, month, limit)]
  }

  /** The row an upsert answers with. */
  function UpsertedRow(rows: seq<Budget>, user: ObjectId, category: ObjectId, month: string, limit: real,
                       newId: ObjectId): (r: Budget)
    ensures SameTriple(r, user, category, month) && r.limit == limit
    ensures r in Upsert(rows, user, category, month, limit, newId)
  {
    match FirstIndex(rows, (b: Budget) => SameTriple(b, user, category, month))
    case Some(i) =>
      assert Upsert(rows, user, category, month, limit, newId)[i] == rows[i].(limit := limit);
      rows[i].(limit := limit)
    case None =>
      var row := Budget(newId, user, category, month, limit);
      assert Upsert(rows, user, category, month, limit, newId)[|rows|] == row;
      row
  }

  /** With a row for the triple, only that row's limit changes: same length, every
      other row and every other field untouched. */
  lemma UpsertExisting(rows: seq<Budget>, user: ObjectId, category: ObjectId, month: string, limit: real,
                       newId: ObjectId, i: nat)
    requires UniqueTriples(rows) && i < |rows| && SameTriple(rows[i], user, category, month)
    ensures |Upsert(rows, user, category, month, limit, newId)| == |rows|
    ensures Upsert(rows, user, category, month, limit, newId)[i] == rows[i].(limit := limit)
    ensures forall j :: 0 <= j < |rows| && j != i ==> Upsert(rows, user, category, month, limit, newId)[j] == rows[j]
  {
    var found := FirstIndex(rows, (b: Budget) => SameTriple(b, user, category, month));
    assert found == Some(i);
  }

  /** Without a row for the triple, exactly one row is added, holding the given
      user, category, month and limit. */
  lemma UpsertNew(rows: seq<Budget>, user: ObjectId, category: ObjectId, month: string, limit: real, newId: ObjectId)
    requires forall b :: b in rows ==> !SameTriple(b, user, category, month)
    ensures Upsert(rows, user, category, month, limit, newId) == rows + [Budget(newId, user, category, month, limit)]
  {
  }

  /** An upsert keeps at most one row per triple. */
  lemma UpsertKeepsUnique(rows: seq<Budget>, user: ObjectId, category: ObjectId, month: string, limit: real,
                          newId: ObjectId)
    requires UniqueTriples(rows)
    ensures UniqueTriples(Upsert(rows, user, category, month, limit, newId))
  {
    var r := Upsert(rows, user, category, month, limit, newId);
    var found := FirstIndex(rows, (b: Budget) => SameTriple(b, user, category, month));
    if found.None? {
      forall i, j | 0 <= i < j < |r|
        ensures !SameTriple(r[j], r[i].user, r[i].category, r[i].month)
      {
        if j == |rows| {
          assert r[i] == rows[i];
          assert !SameTriple(rows[i], user, category, month);
        }
      }
    }
  }

  /** The number of rows holding a triple: one after an upsert on a table that kept
      at most one per triple. */
  lemma UpsertLeavesOneRow(rows: seq<Budget>, user: ObjectId, category: ObjectId, month: string, limit: real,
                           newId: ObjectId)
    requires UniqueTriples(rows)
    ensures TripleRows(Upsert(rows, user, category, month, limit, newId), user, category, month)
         == [UpsertedRow(rows, user, category, month, limit, newId)]
  {
    var r := Upsert(rows, user, category, month, limit, newId);
    UpsertKeepsUnique(rows, user, category, month, limit, newId);
    var row := UpsertedRow(rows, user, category, month, limit, newId);
    OnlyRow(r, row, user, category, month);
  }

  /** In a table with at most one row per triple, the rows holding a triple are that
      row alone. */
  lemma {:induction false} OnlyRow(rows: seq<Budget>, row: Budget, user: ObjectId, category: ObjectId, month: string)
    requires UniqueTriples(rows) && row in rows && SameTriple(row, user, category, month)
    ensures TripleRows(rows, user, category, month) == [row]
    decreases |rows|
  {
    var init, last := rows[..|rows| - 1], rows[|rows| - 1];
    assert rows == init + [last];
    FilterAppend(init, last, (b: Budget) => SameTriple(b, user, category, month));
    if last == row {
      assert forall b :: b in init ==> !SameTriple(b, user, category, month) by {
        forall b | b in init ensures !SameTriple(b, user, category, month) {
          var k :| 0 <= k < |init| && init[k] == b;
          assert !SameTriple(rows[|rows| - 1], rows[k].user, rows[k].category, rows[k].month);
        }
      }
      FilterNone(init, (b: Budget) => SameTriple(b, user, category, month));
    } else {
      assert row in init;
      var k :| 0 <= k < |init| && init[k] == row;
      assert !SameTriple(rows[|rows| - 1], rows[k].user, rows[k].category, rows[k].month);
      OnlyRow(init, row, user, category, month);
    }
  }

  /** Upserting the limit L1 and then L2 for the same triple leaves one row for it:
      the row the first upsert answered with (the old row, or the one it created
      with id1), now holding L2. */
  lemma UpsertTwice(rows: seq<Budget>, user: ObjectId, category: ObjectId, month: string, l1: real, l2: real,
                    id1: ObjectId, id2: ObjectId)
    requires UniqueTriples(rows)
    ensures var once := Upsert(rows, user, category, month, l1, id1);
            var twice := Upsert(once, user, category, month, l2, id2);
            |TripleRows(twice, user, category, month)| == 1
            && TripleRows(twice, user, category, month)[0].limit == l2
            && TripleRows(twice, user, category, month)[0] == UpsertedRow(rows, user, category, month, l1, id1).(limit := l2)
  {
    var once := Upsert(rows, user, category, month, l1, id1);
    var first := UpsertedRow(rows, user, category, month, l1, id1);
    UpsertKeepsUnique(rows, user, category, month, l1, id1);
    UpsertLeavesOneRow(rows, user, category, month, l1, id1);
    UpsertLeavesOneRow(once, user, category, month, l2, id2);
    var found := FirstIndex(once, (b: Budget) => SameTriple(b, user, category, month));
    assert first in once;
    assert found.Some?;
    assert once[found.value] in TripleRows(once, user, category, month);
  }

  /** `upsertBudget`: casts the caller and category ids while looking the row up, and
      writes a row only when it has a non-empty month and a numeric limit. The limit
      is stored as given, without any sign check, and the month without any format
      check. */
  function UpsertBudgetSpec(isValidId: IdCheck, budgets: seq<Budget>, user: ObjectId, categoryId: ObjectId,
                            month: Option<string>, limit: Option<real>, newId: ObjectId): (r: Outcome)
    ensures r.reply == NoReply <==> !isValidId(user) || !isValidId(categoryId) || Falsy(month) || limit.None?
    ensures r.reply == NoReply ==> r.rows == budgets
    ensures r.reply.Reply? ==>
              r.reply.status == 200 && r.reply.body.BudgetRow?
              && r.rows == Upsert(budgets, user, categoryId, month.value, limit.value, newId)
              && r.reply.body.row == UpsertedRow(budgets, user, categoryId, month.value, limit.value, newId)
  {
    if !isValidId(user) || !isValidId(categoryId) || Falsy(month) || limit.None? then Outcome(budgets, NoReply)
    else
      var rows := Upsert(budgets, user, categoryId, month.value, limit.value, newId);
      Outcome(rows, Reply(200, BudgetRow(UpsertedRow(budgets, user, categoryId, month.value, limit.value, newId))))
  }

  datatype Outcome = Outcome(rows: seq<Budget>, reply: Reply)

  method UpsertBudget(db: Database, isValidId: IdCheck, user: ObjectId, categoryId: ObjectId,
                      month: Option<string>, limit: Option<real>, newId: ObjectId) returns (reply: Reply)
    modifies db
    ensures db.users == old(db.users) && db.categories == old(db.categories) && db.expenses == old(db.expenses)
    ensures Outcome(db.budgets, reply) == UpsertBudgetSpec(isValidId, old(db.budgets), user, categoryId, month, limit, newId)
  {
    if !isValidId(user) || !isValidId(categoryId) {
      return NoReply;
    }
    var found := FirstIndex(db.budgets, (b: Budget) => SameTriple(b, user, categoryId, month.GetOr("")));
    if Falsy(month) || limit.None? {
      return NoReply;
    }
    var row: Budget;
    if found.Some? {
      row := db.budgets[found.value].(limit := limit.value);
      db.budgets := db.budgets[found.value := row];
    } else {
      row := Budget(newId, user, categoryId, month.value, limit.value);
      db.budgets := db.budgets + [row];
    }
    reply := Reply(200, BudgetRow(row));
  }

  /** `deleteBudget`: removes the first row with that id owned by the caller, and
      answers "Deleted" whether or not one matched. */
  function DeleteBudgetSpec(isValidId: IdCheck, budgets: seq<Budget>, user: ObjectId, id: ObjectId): (r: Outcome)
    ensures r.reply == NoReply <==> !isValidId(id) || !isValidId(user)
    ensures r.reply.Reply? ==> r.reply == Fail(200, "Deleted")
    ensures (forall b :: b in budgets ==> !(b.id == id && b.user == user)) ==> r.rows == budgets
    ensures isValidId(id) && isValidId(user) ==>
              forall i :: 0 <= i < |budgets| && budgets[i].id == id && budgets[i].user == user
                          && (forall j :: 0 <= j < i ==> !(budgets[j].id == id && budgets[j].user == user))
                          ==> r == Outcome(RemoveAt(budgets, i), Fail(200, "Deleted"))
    ensures r.rows != budgets ==>
              |r.rows| == |budgets| - 1
              && exists i :: 0 <= i < |budgets| && budgets[i].id == id && budgets[i].user == user
                             && multiset(r.rows) + multiset{budgets[i]} == multiset(budgets)
  {
    if !isValidId(id) || !isValidId(user) then Outcome(budgets, NoReply)
    else match FirstIndex(budgets, (b: Budget) => b.id == id && b.user == user)
      case None => Outcome(budgets, Fail(200, "Deleted"))
      case Some(i) => Outcome(RemoveAt(budgets, i), Fail(200, "Deleted"))
  }

  method DeleteBudget(db: Database, isValidId: IdCheck, user: ObjectId, id: ObjectId) returns (reply: Reply)
    modifies db
    ensures db.users == old(db.users) && db.categories == old(db.categories) && db.expenses == old(db.expenses)
    ensures Outcome(db.budgets, reply) == DeleteBudgetSpec(isValidId, old(db.budgets), user, id)
  {
    if !isValidId(id) || !isValidId(user) {
      return NoReply;
    }
    var found := FirstIndex(db.budgets, (b: Budget) => b.id == id && b.user == user);
    if found.Some? {
      db.budgets := RemoveAt(db.budgets, found.value);
    }
    reply := Fail(200, "Deleted");
  }
}

=== FILE: budget_store.dfy ===
/** The client's budget list (client/src/stores/budgetStore.js): a fetch that replaces
    it, a replace-or-prepend by id after the server saves a budget, and a removal that
    waits for the server. */
module BudgetStore {
  import opened Base
  import opened ClientData

  function BudgetId(b: ClientBudget): string
  {
    b.id
  }

  class Store {
    var budgets: seq<ClientBudget>
    var loading: bool
    var error: Option<string>

    constructor ()
      ensures budgets == [] && !loading && error == None
    {
      budgets, loading, error := [], false, None;
    }

    /** `fetchBudgets`: a success replaces the list; a failure keeps it, records
        `err.message` and rethrows. */
    method Fetch(response: Outcome<seq<ClientBudget>>) returns (thrown: Option<ApiError>)
      modifies this
      ensures !loading
      ensures response.Success? ==> budgets == response.data && error == old(error) && thrown.None?
      ensures response.Failure? ==>
                budgets == old(budgets) && error == response.err.message && thrown == Some(response.err)
    {
      loading := true;
      match response {
        case Success(data) =>
          budgets, loading := data, false;
          thrown := None;
        case Failure(err) =>
          error, loading := err.message, false;
          thrown := Some(err);
      }
    }

    /** `upsertBudget`: the saved row replaces the entry with its id, or is prepended
        when there is none; ids stay unique. A failure leaves the list as it was. */
    method Upsert(response: Outcome<ClientBudget>) returns (thrown: Option<ApiError>)
      modifies this
      ensures !loading && error == old(error)
      ensures response.Success? ==> budgets == UpsertById(old(budgets), BudgetId, response.data) && thrown.None?
      ensures response.Failure? ==> budgets == old(budgets) && thrown == Some(response.err)
      ensures UniqueIds(old(budgets), BudgetId) ==> UniqueIds(budgets, BudgetId)
    {
      loading := true;
      match response {
        case Success(data) =>
          if UniqueIds(budgets, BudgetId) {
            UpsertKeepsIdsUnique(budgets, BudgetId, data);
          }
          budgets, loading := UpsertById(budgets, BudgetId, data), false;
          thrown := None;
        case Failure(err) =>
          loading := false;
          thrown := Some(err);
      }
    }

    /** `deleteBudget`: the entry is removed only once the server call succeeds. */
    method Delete(id: string, response: Outcome<()>) returns (thrown: Option<ApiError>)
      modifies this
      ensures !loading && error == old(error)
      ensures response.Success? ==> budgets == RemoveId(old(budgets), BudgetId, id) && thrown.None?
      ensures response.Failure? ==> budgets == old(budgets) && thrown == Some(response.err)
    {
      loading := true;
      if response.Failure? {
        loading := false;
        return Some(response.err);
      }
      budgets, loading := RemoveId(budgets, BudgetId, id), false;
      thrown := None;
    }
  }
}

=== FILE: budgets_page.dfy ===
/** The Budgets page (client/src/pages/Budgets.jsx): one limit text per category,
    edited in place, their running total, and the save that upserts a budget for
    each category whose text should be saved, then reloads the month's budgets. */
module BudgetsPage {
  import opened Base
  import opened Text
  import opened ClientData
  import BudgetStore
  import CategoryStore
  import MonthNav

  /** `String(number)`: the text a number is shown as. It is supplied by the caller. */
  type NumberText = real -> string

  /** One key of the `limits` object: a category id and the text in its input. */
  datatype LimitEntry = LimitEntry(categoryId: string, text: string)

  predicate HasKey(e: LimitEntry, id: string)
  {
    e.categoryId == id
  }

  /** `limits[id]`: `None` where the key is absent. */
  function Lookup(limits: seq<LimitEntry>, id: string): (r: Option<string>)
    ensures r.None? <==> forall i :: 0 <= i < |limits| ==> limits[i].categoryId != id
    ensures forall i :: 0 <= i < |limits| && limits[i].categoryId == id
                        && (forall j :: 0 <= j < i ==> limits[j].categoryId != id)
                        ==> r == Some(limits[i].text)
  {
    match FirstIndex(limits, (e: LimitEntry) => HasKey(e, id))
    case None => None
    case Some(k) => Some(limits[k].text)
  }

  /** `{ ...limits, [id]: text }`: a key already present keeps its place and takes
      the new text; a new key is added at the end. */
  function Assign(limits: seq<LimitEntry>, id: string, text: string): (r: seq<LimitEntry>)
    ensures Lookup(r, id) == Some(text)
    ensures Lookup(limits, id).Some? ==> |r| == |limits|
    ensures Lookup(limits, id).None? ==> r == limits + [LimitEntry(id, text)]
  {
    match FirstIndex(limits, (e: LimitEntry) => HasKey(e, id))
    case Some(k) =>
      var r := limits[k := LimitEntry(id, text)];
      FirstIndexAt(r, (e: LimitEntry) => HasKey(e, id), k);
      r
    case None =>
      var r := limits + [LimitEntry(id, text)];
      FirstIndexAt(r, (e: LimitEntry) => HasKey(e, id), |limits|);
      r
  }

  /** After the assignment the key reads the new text and every other key reads
      what it read before. */
  lemma AssignLookup(limits: seq<LimitEntry>, id: string, text: string, other: string)
    ensures Lookup(Assign(limits, id, text), other) == if other == id then Some(text) else Lookup(limits, other)
  {
    if other != id {
      var r := Assign(limits, id, text);
      match FirstIndex(limits, (e: LimitEntry) => HasKey(e, id))
      case Some(k) =>
        assert r == limits[k := LimitEntry(id, text)];
        AssignKeepsOther(limits, r, id, other);
      case None =>
        assert r == limits + [LimitEntry(id, text)];
        AssignKeepsOther(limits, r, id, other);
    }
  }

  /** Entries that differ only where the key is `id` agree on every other key. */
  lemma AssignKeepsOther(limits: seq<LimitEntry>, r: seq<LimitEntry>, id: string, other: string)
    requires other != id && |limits| <= |r|
    requires forall i :: 0 <= i < |limits| && limits[i].categoryId != id ==> r[i] == limits[i]
    requires forall i :: 0 <= i < |limits| && limits[i].categoryId == id ==> r[i].categoryId == id
    requires forall i :: |limits| <= i < |r| ==> r[i].categoryId == id
    ensures Lookup(r, other) == Lookup(limits, other)
  {
    match FirstIndex(limits, (e: LimitEntry) => HasKey(e, other))
    case Some(j) =>
      FirstIndexAt(r, (e: LimitEntry) => HasKey(e, other), j);
    case None =>
  }

  /** `b.category && String(b.category._id)`: a populated category gives its id, a
      bare id has no `_id` and reads "undefined", an absent one never matches. */
  function BudgetCategoryText(b: ClientBudget): Option<string>
  {
    match b.category
    case Populated(id, _, _) => Some(id)
    case Raw(_) => Some("undefined")
    case NoCategory => None
  }

  predicate BudgetFor(b: ClientBudget, categoryId: string)
  {
    BudgetCategoryText(b) == Some(categoryId)
  }

  /** A category's initial text: its first budget's limit (0 when unset), or "0"
      when it has no budget. */
  function LimitText(categoryId: string, budgets: seq<ClientBudget>, format: NumberText): (t: string)
    ensures (forall b :: b in budgets ==> !BudgetFor(b, categoryId)) ==> t == "0"
    ensures forall i :: 0 <= i < |budgets| && BudgetFor(budgets[i], categoryId)
                        && (forall j :: 0 <= j < i ==> !BudgetFor(budgets[j], categoryId))
                        ==> t == format(budgets[i].limit.GetOr(0.0))
  {
    match FirstIndex(budgets, (b: ClientBudget) => BudgetFor(b, categoryId))
    case None => "0"
    case Some(i) => format(budgets[i].limit.GetOr(0.0))
  }

  /** The `limits` object built by walking the categories in order. */
  function LimitsFor(categories: seq<ClientCategory>, budgets: seq<ClientBudget>, format: NumberText)
    : seq<LimitEntry>
  {
    if categories == [] then []
    else
      var c := categories[|categories| - 1];
      Assign(LimitsFor(categories[..|categories| - 1], budgets, format), c.id, LimitText(c.id, budgets, format))
  }

  /** The initial limits hold one entry per category id, with that category's text,
      and no other key. */
  lemma LimitsForLookup(categories: seq<ClientCategory>, budgets: seq<ClientBudget>, format: NumberText, id: string)
    ensures (exists c :: c in categories && c.id == id)
            ==> Lookup(LimitsFor(categories, budgets, format), id) == Some(LimitText(id, budgets, format))
    ensures (forall c :: c in categories ==> c.id != id) ==> Lookup(LimitsFor(categories, budgets, format), id) == None
  {
    if exists c :: c in categories && c.id == id {
      var c :| c in categories && c.id == id;
      var i :| 0 <= i < |categories| && categories[i] == c;
      LimitsForPresent(categories, budgets, format, i);
    } else {
      LimitsForAbsent(categories, budgets, format, id);
    }
  }

  /** A category's id is a key with its text. */
  lemma {:induction false} LimitsForPresent(categories: seq<ClientCategory>, budgets: seq<ClientBudget>,
                                            format: NumberText, i: nat)
    requires i < |categories|
    ensures var id := categories[i].id;
            Lookup(LimitsFor(categories, budgets, format), id) == Some(LimitText(id, budgets, format))
    decreases |categories|
  {
    var n := |categories| - 1;
    if i < n {
      LimitsForPresent(categories[..n], budgets, format, i);
      LimitsForEarlier(categories, budgets, format, i);
    } else {
      LimitsForLast(categories, budgets, format);
    }
  }

  /** An earlier category's key keeps its text once the last category is added. */
  lemma LimitsForEarlier(categories: seq<ClientCategory>, budgets: seq<ClientBudget>, format: NumberText, i: nat)
    requires i < |categories| - 1
    requires var id := categories[..|categories| - 1][i].id;
             Lookup(LimitsFor(categories[..|categories| - 1], budgets, format), id) == Some(LimitText(id, budgets, format))
    ensures var id := categories[i].id;
            Lookup(LimitsFor(categories, budgets, format), id) == Some(LimitText(id, budgets, format))
  {
    var n := |categories| - 1;
    var id := categories[i].id;
    assert categories[..n][i] == categories[i];
    var last := categories[n];
    AssignLookup(LimitsFor(categories[..n], budgets, format), last.id, LimitText(last.id, budgets, format), id);
  }

  /** The last category's id is a key with its text. */
  lemma LimitsForLast(categories: seq<ClientCategory>, budgets: seq<ClientBudget>, format: NumberText)
    requires categories != []
    ensures var id := categories[|categories| - 1].id;
            Lookup(LimitsFor(categories, budgets, format), id) == Some(LimitText(id, budgets, format))
  {
  }

  /** An id no category has is no key. */
  lemma {:induction false} LimitsForAbsent(categories: seq<ClientCategory>, budgets: seq<ClientBudget>,
                                           format: NumberText, id: string)
    requires forall i :: 0 <= i < |categories| ==> categories[i].id != id
    ensures Lookup(LimitsFor(categories, budgets, format), id) == None
    decreases |categories|
  {
    if categories != [] {
      var n := |categories| - 1;
      var init, last := categories[..n], categories[n];
      var before := LimitsFor(init, budgets, format);
      assert LimitsFor(categories, budgets, format) == Assign(before, last.id, LimitText(last.id, budgets, format));
      assert forall i :: 0 <= i < n ==> init[i] == categories[i];
      LimitsForAbsent(init, budgets, format, id);
      AssignLookup(before, last.id, LimitText(last.id, budgets, format), id);
    }
  }

  /** `Number(v || 0)`: an empty text counts as 0. */
  function EntryNumber(text: string, parse: NumberParser): (r: Option<real>)
    ensures text == "" ==> r == Some(0.0)
  {
    if text == "" then Some(0.0) else parse(text)
  }

  function EntryAmount(e: LimitEntry, parse: NumberParser): real
  {
    EntryNumber(e.text, parse).GetOr(0.0)
  }

  /** Each entry's number, in order. */
  function Amounts(limits: seq<LimitEntry>, parse: NumberParser): (r: seq<real>)
    ensures |r| == |limits| && forall i :: 0 <= i < |limits| ==> r[i] == EntryAmount(limits[i], parse)
  {
    Map(limits, (e: LimitEntry) => EntryAmount(e, parse))
  }

  /** `totalMonthlyBudget`: the sum of every entry's number; one text that is not a
      number makes the whole total `NaN` (`None`). */
  function Total(limits: seq<LimitEntry>, parse: NumberParser): (r: Option<real>)
    ensures r.Some? <==> forall i :: 0 <= i < |limits| ==> EntryNumber(limits[i].text, parse).Some?
  {
    if forall i :: 0 <= i < |limits| ==> EntryNumber(limits[i].text, parse).Some? then
      Some(Sum(Amounts(limits, parse)))
    else None
  }

  /** Storing a text for a category moves the total by the difference between the
      new number and the old one; a new key adds its number. */
  lemma TotalAssign(limits: seq<LimitEntry>, id: string, text: string, parse: NumberParser)
    requires Total(limits, parse).Some? && EntryNumber(text, parse).Some?
    ensures Total(Assign(limits, id, text), parse).Some?
    ensures Lookup(limits, id).None? ==>
              Total(Assign(limits, id, text), parse).value
              == Total(limits, parse).value + EntryNumber(text, parse).value
    ensures Lookup(limits, id).Some? ==>
              Total(Assign(limits, id, text), parse).value
              == Total(limits, parse).value - EntryNumber(Lookup(limits, id).value, parse).value
                 + EntryNumber(text, parse).value
  {
    var x := LimitEntry(id, text);
    match FirstIndex(limits, (e: LimitEntry) => HasKey(e, id))
    case Some(k) =>
      assert Assign(limits, id, text) == limits[k := x];
      TotalReplace(limits, k, x, parse);
    case None =>
      assert Assign(limits, id, text) == limits + [x];
      TotalAppend(limits, x, parse);
  }

  /** The total after one entry's text is replaced. */
  lemma TotalReplace(limits: seq<LimitEntry>, k: nat, x: LimitEntry, parse: NumberParser)
    requires k < |limits| && Total(limits, parse).Some? && EntryNumber(x.text, parse).Some?
    ensures Total(limits[k := x], parse)
         == Some(Total(limits, parse).value - EntryNumber(limits[k].text, parse).value + EntryNumber(x.text, parse).value)
  {
    var r := limits[k := x];
    var before, after := Amounts(limits, parse), Amounts(r, parse);
    forall i | 0 <= i < |r|
      ensures EntryNumber(r[i].text, parse).Some? && after[i] == before[k := EntryAmount(x, parse)][i]
    {
      if i != k {
        assert r[i] == limits[i];
      }
    }
    assert after == before[k := EntryAmount(x, parse)];
    assert Total(r, parse) == Some(Sum(after));
    assert before[k] == EntryNumber(limits[k].text, parse).value;
    SumUpdate(before, k, EntryAmount(x, parse));
  }

  /** The total after one entry is added at the end. */
  lemma TotalAppend(limits: seq<LimitEntry>, x: LimitEntry, parse: NumberParser)
    requires Total(limits, parse).Some? && EntryNumber(x.text, parse).Some?
    ensures Total(limits + [x], parse) == Some(Total(limits, parse).value + EntryNumber(x.text, parse).value)
  {
    var r := limits + [x];
    assert forall i :: 0 <= i < |r| ==> EntryNumber(r[i].text, parse).Some?;
    assert Amounts(r, parse) == Amounts(limits, parse) + [EntryAmount(x, parse)];
    SumSnoc(Amounts(limits, parse), EntryAmount(x, parse));
  }

  /** `Number(limits[c._id] || 0)`: an absent or empty text counts as 0. */
  function SaveValue(limits: seq<LimitEntry>, categoryId: string, parse: NumberParser): (r: Option<real>)
    ensures Lookup(limits, categoryId).None? ==> r == Some(0.0)
  {
    match Lookup(limits, categoryId)
    case None => Some(0.0)
    case Some(t) => EntryNumber(t, parse)
  }

  /** Some budget in the list is this category's. */
  predicate HasBudget(budgets: seq<ClientBudget>, categoryId: string)
  {
    exists i :: 0 <= i < |budgets| && BudgetFor(budgets[i], categoryId)
  }

  /** The save loop's test: the value is a number, not negative, and it is either
      non-zero or replaces a budget the category already has. */
  predicate Saves(c: ClientCategory, limits: seq<LimitEntry>, budgets: seq<ClientBudget>, parse: NumberParser)
  {
    var v := SaveValue(limits, c.id, parse);
    v.Some? && v.value >= 0.0 && (HasBudget(budgets, c.id) || v.value != 0.0)
  }

  /** The body `upsertBudget` posts. */
  datatype UpsertRequest = UpsertRequest(categoryId: string, month: string, limit: real)

  function RequestFor(c: ClientCategory, limits: seq<LimitEntry>, month: string, parse: NumberParser): UpsertRequest
  {
    UpsertRequest(c.id, month, SaveValue(limits, c.id, parse).GetOr(0.0))
  }

  /** The upserts a save makes: one per category that passes the test, in category
      order. */
  function SavePlan(categories: seq<ClientCategory>, limits: seq<LimitEntry>, budgets: seq<ClientBudget>,
                    month: string, parse: NumberParser): seq<UpsertRequest>
  {
    Map(Filter(categories, (c: ClientCategory) => Saves(c, limits, budgets, parse)),
        (c: ClientCategory) => RequestFor(c, limits, month, parse))
  }

  /** Every request in the plan is for the page's month with a number that is not
      negative, and a category has a request exactly when it passes the test. */
  lemma PlanCovers(categories: seq<ClientCategory>, limits: seq<LimitEntry>, budgets: seq<ClientBudget>,
                   month: string, parse: NumberParser, c: ClientCategory)
    requires c in categories
    ensures var plan := SavePlan(categories, limits, budgets, month, parse);
            (forall t :: t in plan ==> t.month == month && t.limit >= 0.0)
            && (Saves(c, limits, budgets, parse) <==> RequestFor(c, limits, month, parse) in plan)
  {
    var p := (c: ClientCategory) => Saves(c, limits, budgets, parse);
    var f := (c: ClientCategory) => RequestFor(c, limits, month, parse);
    var kept := Filter(categories, p);
    var plan := Map(kept, f);
    forall t | t in plan
      ensures t.month == month && t.limit >= 0.0
    {
      var j :| 0 <= j < |plan| && plan[j] == t;
      assert p(kept[j]);
    }
    if Saves(c, limits, budgets, parse) {
      assert c in kept;
      var j :| 0 <= j < |kept| && kept[j] == c;
      assert plan[j] == f(c);
    }
    if f(c) in plan {
      var j :| 0 <= j < |plan| && plan[j] == f(c);
      assert kept[j].id == c.id;
      assert p(kept[j]);
    }
  }

  /** A category that has no budget and whose text is absent, empty or zero gets no
      request. */
  lemma NoBudgetZeroSkipped(categories: seq<ClientCategory>, limits: seq<LimitEntry>, budgets: seq<ClientBudget>,
                            month: string, parse: NumberParser, c: ClientCategory)
    requires c in categories && !HasBudget(budgets, c.id)
    requires SaveValue(limits, c.id, parse) == Some(0.0)
    ensures RequestFor(c, limits, month, parse) !in SavePlan(categories, limits, budgets, month, parse)
  {
    PlanCovers(categories, limits, budgets, month, parse, c);
  }

  /** The budget list after the store takes one upsert's outcome: the saved row by
      id, or nothing on a failure. */
  function AfterUpsert(budgets: seq<ClientBudget>, outcome: Outcome<ClientBudget>): seq<ClientBudget>
  {
    match outcome
    case Success(saved) => UpsertById(budgets, BudgetStore.BudgetId, saved)
    case Failure(_) => budgets
  }

  /** The budget list after the store has taken each upsert's outcome in turn. */
  function AfterUpserts(budgets: seq<ClientBudget>, plan: seq<UpsertRequest>,
                        respond: (nat, UpsertRequest) -> Outcome<ClientBudget>): seq<ClientBudget>
  {
    if plan == [] then budgets
    else
      var n := |plan| - 1;
      AfterUpsert(AfterUpserts(budgets, plan[..n], respond), respond(n, plan[n]))
  }

  /** One more upsert of the plan. */
  lemma AfterUpsertsStep(budgets: seq<ClientBudget>, plan: seq<UpsertRequest>, i: nat,
                         respond: (nat, UpsertRequest) -> Outcome<ClientBudget>)
    requires i < |plan|
    ensures AfterUpserts(budgets, plan[..i + 1], respond)
         == AfterUpsert(AfterUpserts(budgets, plan[..i], respond), respond(i, plan[i]))
  {
    assert plan[..i + 1][..i] == plan[..i];
  }

  /** Failed upserts leave the list as it was, whichever of them fail. */
  lemma {:induction false} AllFailedUnchanged(budgets: seq<ClientBudget>, plan: seq<UpsertRequest>,
                                              respond: (nat, UpsertRequest) -> Outcome<ClientBudget>)
    requires forall i :: 0 <= i < |plan| ==> respond(i, plan[i]).Failure?
    ensures AfterUpserts(budgets, plan, respond) == budgets
    decreases |plan|
  {
    if plan != [] {
      var n := |plan| - 1;
      assert forall i :: 0 <= i < n ==> plan[..n][i] == plan[i];
      AllFailedUnchanged(budgets, plan[..n], respond);
    }
  }

  class Page {
    var currentMonth: string
    var limits: seq<LimitEntry>
    var saving: bool

    /** The first render: the clock's month (`MonthNav.CurrentMonth`) and no limits. */
    constructor (month: string)
      ensures currentMonth == month && limits == [] && !saving
    {
      currentMonth, limits, saving := month, [], false;
    }

    /** The month effect: loads the categories and the month's budgets; failures of
        either are swallowed. */
    method Load(categoryStore: CategoryStore.Store, budgetStore: BudgetStore.Store,
                categoriesResponse: Outcome<seq<ClientCategory>>, budgetsResponse: Outcome<seq<ClientBudget>>)
      modifies categoryStore, budgetStore
      ensures categoryStore.categories
           == if categoriesResponse.Success? then categoriesResponse.data else old(categoryStore.categories)
      ensures budgetStore.budgets
           == if budgetsResponse.Success? then budgetsResponse.data else old(budgetStore.budgets)
    {
      var _ := categoryStore.Fetch(categoriesResponse);
      var _ := budgetStore.Fetch(budgetsResponse);
    }

    /** The limits effect: the entries rebuilt from the categories and budgets. */
    method InitLimits(categories: seq<ClientCategory>, budgets: seq<ClientBudget>, format: NumberText)
      modifies this
      ensures limits == LimitsFor(categories, budgets, format)
      ensures currentMonth == old(currentMonth) && saving == old(saving)
    {
      var map_ := [];
      for i := 0 to |categories|
        invariant map_ == LimitsFor(categories[..i], budgets, format)
      {
        var c := categories[i];
        assert categories[..i + 1][..i] == categories[..i];
        map_ := Assign(map_, c.id, LimitText(c.id, budgets, format));
      }
      assert categories[..|categories|] == categories;
      limits := map_;
    }

    /** `handleInputChange`: an empty text is stored, a text opening with "-" is
        ignored, any other text is stored. */
    method HandleInputChange(categoryId: string, value: string)
      modifies this
      ensures value != "" && StartsWith(value, "-") ==> limits == old(limits)
      ensures !(value != "" && StartsWith(value, "-")) ==> limits == Assign(old(limits), categoryId, value)
      ensures currentMonth == old(currentMonth) && saving == old(saving)
    {
      if value == "" {
        limits := Assign(limits, categoryId, "");
        return;
      }
      if StartsWith(value, "-") {
        return;
      }
      limits := Assign(limits, categoryId, value);
    }

    /** `nextMonth` (`forward`) and `prevMonth`. */
    method StepMonth(forward: bool)
      modifies this
      ensures currentMonth == MonthNav.Step(old(currentMonth), forward).GetOr("NaN-NaN")
      ensures limits == old(limits) && saving == old(saving)
    {
      currentMonth := MonthNav.Step(currentMonth, forward).GetOr("NaN-NaN");
    }

    /** `handleSave`: every planned upsert goes to the store, each failure swallowed,
        then the month's budgets are reloaded; the toast reports the reload. */
    method HandleSave(ui: UiStore, store: BudgetStore.Store, categories: seq<ClientCategory>, parse: NumberParser,
                      respond: (nat, UpsertRequest) -> Outcome<ClientBudget>, refetch: Outcome<seq<ClientBudget>>)
      returns (sent: seq<UpsertRequest>)
      modifies this, ui, store
      ensures sent == SavePlan(categories, old(limits), old(store.budgets), old(currentMonth), parse)
      ensures !saving && limits == old(limits) && currentMonth == old(currentMonth)
      ensures refetch.Success? ==>
                store.budgets == refetch.data && ui.toast == Some(Toast(SuccessToast, Text("Budgets saved")))
      ensures refetch.Failure? ==>
                store.budgets == AfterUpserts(old(store.budgets), sent, respond)
                && ui.toast == Some(Toast(ErrorToast, Text("Failed to save budgets")))
    {
      saving := true;
      sent := PlanSaves(categories, limits, store.budgets, currentMonth, parse);
      for i := 0 to |sent|
        invariant store.budgets == AfterUpserts(old(store.budgets), sent[..i], respond)
        invariant saving && limits == old(limits) && currentMonth == old(currentMonth)
      {
        AfterUpsertsStep(old(store.budgets), sent, i, respond);
        var _ := store.Upsert(respond(i, sent[i]));
      }
      assert sent[..|sent|] == sent;
      var thrown := store.Fetch(refetch);
      if thrown.None? {
        ui.ShowToast(Toast(SuccessToast, Text("Budgets saved")));
      } else {
        ui.ShowToast(Toast(ErrorToast, Text("Failed to save budgets")));
      }
      saving := false;
    }
  }

  /** One more category of the plan's loop. */
  lemma PlanStep(categories: seq<ClientCategory>, i: nat, p: ClientCategory -> bool,
                 f: ClientCategory -> UpsertRequest)
    requires i < |categories|
    ensures Map(Filter(categories[..i + 1], p), f)
         == Map(Filter(categories[..i], p), f) + (if p(categories[i]) then [f(categories[i])] else [])
  {
    assert categories[..i + 1] == categories[..i] + [categories[i]];
    FilterAppend(categories[..i], categories[i], p);
    MapSnoc(Filter(categories[..i], p), categories[i], f);
  }

  /** The loop's own test, written with the first matching budget, is `Saves`. */
  lemma SavesTest(c: ClientCategory, limits: seq<LimitEntry>, budgets: seq<ClientBudget>, parse: NumberParser)
    ensures var v := SaveValue(limits, c.id, parse);
            Saves(c, limits, budgets, parse)
            <==> v.Some? && v.value >= 0.0
                 && (FirstIndex(budgets, (b: ClientBudget) => BudgetFor(b, c.id)).Some? || v.value != 0.0)
  {
  }

  /** The first loop of `handleSave`: one request pushed per category that passes
      the test. */
  method PlanSaves(categories: seq<ClientCategory>, limits: seq<LimitEntry>, budgets: seq<ClientBudget>,
                   month: string, parse: NumberParser) returns (tasks: seq<UpsertRequest>)
    ensures tasks == SavePlan(categories, limits, budgets, month, parse)
  {
    var p := (c: ClientCategory) => Saves(c, limits, budgets, parse);
    var f := (c: ClientCategory) => RequestFor(c, limits, month, parse);
    tasks := [];
    for i := 0 to |categories|
      invariant tasks == Map(Filter(categories[..i], p), f)
    {
      var c := categories[i];
      PlanStep(categories, i, p, f);
      SavesTest(c, limits, budgets, parse);
      var value := SaveValue(limits, c.id, parse);
      if value.None? || value.value < 0.0 {
        continue;
      }
      var existing := FirstIndex(budgets, (b: ClientBudget) => BudgetFor(b, c.id));
      if existing.None? && value.value == 0.0 {
        continue;
      }
      tasks := tasks + [UpsertRequest(c.id, month, value.value)];
    }
    assert categories[..|categories|] == categories;
  }
}

=== FILE: calendar.dfy ===
/** The proleptic Gregorian calendar over instants counted in UTC milliseconds
    since 1970-01-01T00:00:00.000Z, as JavaScript `Date` counts them: leap years,
    month lengths, the half-open window of a calendar month, and the `YYYY-MM`
    and `YYYY-MM-DD` tokens the application exchanges. */
module Calendar {
  import opened Base
  import opened Text

  /** Milliseconds in a day. */
  const DayMs: int := 86400000

  predicate IsLeapYear(y: int)
  {
    (y % 4 == 0 && y % 100 != 0) || y % 400 == 0
  }

  function DaysInYear(y: int): int
  {
    if IsLeapYear(y) then 366 else 365
  }

  /** A calendar month: the value a `YYYY-MM` month token names. */
  datatype YearMonth = YearMonth(year: int, month: int)
  {
    predicate Valid() { 1 <= month <= 12 }
  }

  /** The position of a month on the line of all months. */
  function MonthIndex(ym: YearMonth): int
  {
    12 * ym.year + ym.month - 1
  }

  lemma MonthIndexInjective(a: YearMonth, b: YearMonth)
    requires a.Valid() && b.Valid() && MonthIndex(a) == MonthIndex(b)
    ensures a == b
  {
  }

  /** The following month: December wraps to January of the next year. */
  function Next(ym: YearMonth): (r: YearMonth)
    requires ym.Valid()
    ensures r.Valid() && MonthIndex(r) == MonthIndex(ym) + 1
  {
    if ym.month == 12 then YearMonth(ym.year + 1, 1) else YearMonth(ym.year, ym.month + 1)
  }

  /** The preceding month: January wraps to December of the previous year. */
  function Prev(ym: YearMonth): (r: YearMonth)
    requires ym.Valid()
    ensures r.Valid() && MonthIndex(r) == MonthIndex(ym) - 1
    ensures Next(r) == ym
  {
    if ym.month == 1 then YearMonth(ym.year - 1, 12) else YearMonth(ym.year, ym.month - 1)
  }

  lemma PrevNext(ym: YearMonth)
    requires ym.Valid()
    ensures Prev(Next(ym)) == ym
  {
    MonthIndexInjective(Prev(Next(ym)), ym);
  }

  function DaysInMonth(ym: YearMonth): (n: int)
    requires ym.Valid()
    ensures 28 <= n <= 31
    ensures n == 29 <==> ym.month == 2 && IsLeapYear(ym.year)
  {
    if ym.month == 2 then (if IsLeapYear(ym.year) then 29 else 28)
    else if ym.month == 4 || ym.month == 6 || ym.month == 9 || ym.month == 11 then 30
    else 31
  }

  /** Leap years among 1..n (for n >= 0; floor division keeps the count additive
      for every n). */
  function LeapYearsUpTo(n: int): int
  {
    n / 4 - n / 100 + n / 400
  }

  /** Days from 1970-01-01 to the first of January of year `y` (negative before 1970). */
  function DaysBeforeYear(y: int): int
  {
    365 * (y - 1970) + LeapYearsUpTo(y - 1) - LeapYearsUpTo(1969)
  }

  lemma DaysBeforeNextYear(y: int)
    ensures DaysBeforeYear(y + 1) == DaysBeforeYear(y) + DaysInYear(y)
  {
    DivStep(y, 4);
    DivStep(y, 100);
    DivStep(y, 400);
    if y % 100 == 0 {
      MultipleOfMultiple(y, 4, 25);
    }
    if y % 400 == 0 {
      MultipleOfMultiple(y, 100, 4);
    }
  }

  /** Floor division by `k` goes up by one exactly at the multiples of `k`. */
  lemma DivStep(y: int, k: int)
    requires k > 0
    ensures y / k - (y - 1) / k == if y % k == 0 then 1 else 0
  {
    var q, r := (y - 1) / k, (y - 1) % k;
    assert y == k * q + r + 1;
    if r == k - 1 {
      assert y == k * (q + 1);
      DivUnique(y, k, q + 1, 0);
    } else {
      DivUnique(y, k, q, r + 1);
    }
  }

  /** The quotient and remainder of a division are the only ones in range. */
  lemma DivUnique(y: int, k: int, q: int, r: int)
    requires k > 0 && 0 <= r < k && y == k * q + r
    ensures y / k == q && y % k == r
  {
    var q', r' := y / k, y % k;
    if q' < q {
      Overshoot(k, q', q, r', r);
    } else if q < q' {
      Overshoot(k, q, q', r, r');
    }
  }

  /** Two quotients that differ leave remainders a whole `k` apart. */
  lemma Overshoot(k: int, lo: int, hi: int, rlo: int, rhi: int)
    requires k > 0 && lo < hi && 0 <= rlo < k && 0 <= rhi
    ensures k * lo + rlo != k * hi + rhi
  {
    assert k * hi == k * lo + k * (hi - lo);
    MulAtLeast(k, hi - lo);
  }

  lemma MulAtLeast(k: int, a: int)
    requires k > 0 && a >= 1
    ensures k * a >= k
  {
    assert k * a == k + k * (a - 1);
  }

  /** A multiple of `k * m` is a multiple of `m`. */
  lemma MultipleOfMultiple(y: int, m: int, n: int)
    requires m > 0 && n > 0 && y % (m * n) == 0
    ensures y % m == 0
  {
    var q := y / (m * n);
    assert y == (m * n) * q;
    assert y == m * (n * q);
    DivUnique(y, m, n * q, 0);
  }

  /** Days from the first of January to the first of the month, in the month's year. */
  function DaysBeforeMonth(ym: YearMonth): int
    requires ym.Valid()
  {
    var m := ym.month;
    (if m == 1 then 0 else if m == 2 then 31 else if m == 3 then 59
     else if m == 4 then 90 else if m == 5 then 120 else if m == 6 then 151
     else if m == 7 then 181 else if m == 8 then 212 else if m == 9 then 243
     else if m == 10 then 273 else if m == 11 then 304 else 334)
    + (if m > 2 && IsLeapYear(ym.year) then 1 else 0)
  }

  /** Days from 1970-01-01 to the first day of the month. */
  function MonthStartDay(ym: YearMonth): int
    requires ym.Valid()
  {
    DaysBeforeYear(ym.year) + DaysBeforeMonth(ym)
  }

  /** Adding one calendar month moves the first day by the month's own length. */
  lemma MonthStartNext(ym: YearMonth)
    requires ym.Valid()
    ensures MonthStartDay(Next(ym)) == MonthStartDay(ym) + DaysInMonth(ym)
  {
    if ym.month == 12 {
      DaysBeforeNextYear(ym.year);
    }
  }

  lemma {:induction false} MonthStartMonotone(a: YearMonth, b: YearMonth)
    requires a.Valid() && b.Valid() && MonthIndex(a) < MonthIndex(b)
    ensures MonthStartDay(Next(a)) <= MonthStartDay(b)
    decreases MonthIndex(b) - MonthIndex(a)
  {
    var p := Prev(b);
    MonthStartNext(p);
    if MonthIndex(p) == MonthIndex(a) {
      MonthIndexInjective(p, a);
    } else {
      MonthStartMonotone(a, p);
      MonthStartNext(a);
    }
  }

  function SearchUp(d: int, ym: YearMonth): (r: YearMonth)
    requires ym.Valid() && MonthStartDay(ym) <= d
    ensures r.Valid() && MonthStartDay(r) <= d < MonthStartDay(Next(r))
    decreases d - MonthStartDay(ym)
  {
    MonthStartNext(ym);
    if d < MonthStartDay(Next(ym)) then ym else SearchUp(d, Next(ym))
  }

  function SearchDown(d: int, ym: YearMonth): (r: YearMonth)
    requires ym.Valid() && d < MonthStartDay(Next(ym))
    ensures r.Valid() && MonthStartDay(r) <= d < MonthStartDay(Next(r))
    decreases MonthStartDay(Next(ym)) - d
  {
    MonthStartNext(ym);
    MonthStartNext(Prev(ym));
    if MonthStartDay(ym) <= d then ym else SearchDown(d, Prev(ym))
  }

  /** The calendar month holding day number `d` (days since 1970-01-01). */
  function YearMonthOfDay(d: int): (r: YearMonth)
    ensures r.Valid() && MonthStartDay(r) <= d < MonthStartDay(Next(r))
  {
    var epoch := YearMonth(1970, 1);
    if MonthStartDay(epoch) <= d then SearchUp(d, epoch) else SearchDown(d, Prev(epoch))
  }

  /** A day lies in exactly one month. */
  lemma MonthOfDayUnique(d: int, ym: YearMonth)
    requires ym.Valid() && MonthStartDay(ym) <= d < MonthStartDay(Next(ym))
    ensures YearMonthOfDay(d) == ym
  {
    var r := YearMonthOfDay(d);
    if MonthIndex(r) < MonthIndex(ym) {
      MonthStartMonotone(r, ym);
      assert false;
    }
    if MonthIndex(ym) < MonthIndex(r) {
      MonthStartMonotone(ym, r);
      assert false;
    }
    MonthIndexInjective(r, ym);
  }

  /** The day number of an instant: `Math.floor(t / DayMs)`. */
  function DayOf(t: int): int
  {
    t / DayMs
  }

  /** The calendar month (UTC) of an instant. */
  function YearMonthOf(t: int): (r: YearMonth)
    ensures r.Valid()
  {
    YearMonthOfDay(DayOf(t))
  }

  /** The first instant of a month: `new Date("YYYY-MM-01T00:00:00.000Z")`. */
  function MonthStart(ym: YearMonth): int
    requires ym.Valid()
  {
    MonthStartDay(ym) * DayMs
  }

  /** The half-open window `[start of month, start of next calendar month)`; the end
      is `setMonth(getMonth() + 1)` applied to the start. */
  predicate InMonth(t: int, ym: YearMonth)
    requires ym.Valid()
  {
    MonthStart(ym) <= t < MonthStart(Next(ym))
  }

  lemma DayScale(a: int, t: int)
    ensures a * DayMs <= t <==> a <= DayOf(t)
  {
    var d := DayOf(t);
    assert d * DayMs <= t < d * DayMs + DayMs;
    if a <= d {
      assert a * DayMs <= d * DayMs;
    } else {
      assert a * DayMs >= (d + 1) * DayMs;
    }
  }

  /** An instant lies in the window of a month exactly when it falls in that month:
      month lengths are the calendar's own, so 29 February of a leap year counts
      and the first of the next month does not. */
  lemma InMonthIff(t: int, ym: YearMonth)
    requires ym.Valid()
    ensures InMonth(t, ym) <==> YearMonthOf(t) == ym
  {
    DayScale(MonthStartDay(ym), t);
    DayScale(MonthStartDay(Next(ym)), t);
    var d := DayOf(t);
    if InMonth(t, ym) {
      MonthOfDayUnique(d, ym);
    }
  }

  /** A calendar date; `day` may run past the month's end, as the lenient parser
      of `YYYY-MM-DD` accepts up to 31 and rolls over into the next month. */
  datatype Date = Date(year: int, month: int, day: int)
  {
    function Month(): YearMonth { YearMonth(year, month) }
    predicate Valid() { Month().Valid() && 1 <= day <= DaysInMonth(Month()) }
  }

  /** Days from 1970-01-01 to the date. */
  function DayNumber(date: Date): int
    requires date.Month().Valid()
  {
    MonthStartDay(date.Month()) + date.day - 1
  }

  /** The calendar date of a day number. */
  function DateOfDay(d: int): (r: Date)
    ensures r.Valid() && DayNumber(r) == d
    ensures r.Month() == YearMonthOfDay(d)
  {
    var ym := YearMonthOfDay(d);
    MonthStartNext(ym);
    Date(ym.year, ym.month, d - MonthStartDay(ym) + 1)
  }

  lemma DateOfDayNumber(date: Date)
    requires date.Valid()
    ensures DateOfDay(DayNumber(date)) == date
  {
    MonthStartNext(date.Month());
    MonthOfDayUnique(DayNumber(date), date.Month());
  }

  /** `YYYY-MM` for a month with a four-digit year. */
  function MonthToken(ym: YearMonth): string
    requires ym.Valid() && ym.year >= 0
  {
    Pad(ym.year, 4) + "-" + Pad(ym.month, 2)
  }

  /** Reads a `YYYY-MM` token: four year digits, a dash, two month digits 01..12. */
  function ParseMonthToken(s: string): (r: Option<YearMonth>)
    ensures r.Some? ==> r.value.Valid() && 0 <= r.value.year <= 9999
    ensures r.Some? ==> |s| == 7 && s[4] == '-'
  {
    if |s| == 7 && s[4] == '-' && AllDigits(s[..4]) && AllDigits(s[5..])
       && 1 <= DigitsValue(s[5..]) <= 12
    then
      DigitsValueBound(s[..4]);
      Some(YearMonth(DigitsValue(s[..4]), DigitsValue(s[5..])))
    else None
  }

  lemma ParseMonthTokenRoundTrip(ym: YearMonth)
    requires ym.Valid() && 0 <= ym.year <= 9999
    ensures ParseMonthToken(MonthToken(ym)) == Some(ym)
  {
    PadWidth(ym.year, 4);
    PadWidth(ym.month, 2);
    var s := MonthToken(ym);
    assert s[..4] == Pad(ym.year, 4);
    assert s[5..] == Pad(ym.month, 2);
  }

  /** `YYYY-MM-DD` for a date with a four-digit year. */
  function DayToken(date: Date): string
    requires date.year >= 0 && date.month >= 0 && date.day >= 0
  {
    Pad(date.year, 4) + "-" + Pad(date.month, 2) + "-" + Pad(date.day, 2)
  }

  /** Reads a `YYYY-MM-DD` token into a day number, as `new Date("YYYY-MM-DD")` does
      in UTC: month 01..12 and day 01..31, a day past the month's end rolling over. */
  function ParseDay(s: string): (r: Option<int>)
  {
    if |s| == 10 && s[4] == '-' && s[7] == '-'
       && AllDigits(s[..4]) && AllDigits(s[5..7]) && AllDigits(s[8..])
       && 1 <= DigitsValue(s[5..7]) <= 12 && 1 <= DigitsValue(s[8..]) <= 31
    then Some(DayNumber(Date(DigitsValue(s[..4]), DigitsValue(s[5..7]), DigitsValue(s[8..]))))
    else None
  }

  /** The three fields of a `YYYY-MM-DD` token sit at fixed offsets. */
  lemma DayTokenFields(date: Date)
    requires date.Valid() && 0 <= date.year <= 9999
    ensures |DayToken(date)| == 10
    ensures DayToken(date)[4] == '-' && DayToken(date)[7] == '-'
    ensures DayToken(date)[..4] == Pad(date.year, 4)
    ensures DayToken(date)[5..7] == Pad(date.month, 2)
    ensures DayToken(date)[8..] == Pad(date.day, 2)
    ensures IsDigit(DayToken(date)[0])
  {
    PadWidth(date.year, 4);
    PadWidth(date.month, 2);
    PadWidth(date.day, 2);
    var y := Pad(date.year, 4);
    JoinedFields(y, Pad(date.month, 2), Pad(date.day, 2));
    assert IsDigit(y[0]);
  }

  /** Where the pieces of `y-m-d` sit, for a four-character `y` and a two-character `m`. */
  lemma JoinedFields(y: string, m: string, d: string)
    requires |y| == 4 && |m| == 2 && |d| == 2
    ensures var s := y + "-" + m + "-" + d;
            |s| == 10 && s[4] == '-' && s[7] == '-' && s[..4] == y && s[5..7] == m && s[8..] == d && s[0] == y[0]
            && s[..7] == y + "-" + m
  {
    var s := y + "-" + m + "-" + d;
    assert s[..7] == y + "-" + m;
    assert s[..4] == y;
    assert s[5..7] == m;
    assert s[8..] == d;
  }

  lemma ParseDayRoundTrip(date: Date)
    requires date.Valid() && 0 <= date.year <= 9999
    ensures ParseDay(DayToken(date)) == Some(DayNumber(date))
  {
    DayTokenFields(date);
  }

  /** Distinct dates have distinct tokens. */
  lemma DayTokenInjective(a: Date, b: Date)
    requires a.Valid() && 0 <= a.year <= 9999
    requires b.Valid() && 0 <= b.year <= 9999
    requires DayToken(a) == DayToken(b)
    ensures a == b
  {
    DayTokenFields(a);
    DayTokenFields(b);
  }

  /** `toISOString()` of the first instant of a date, up to the `T`: four year digits
      for years 0..9999, a sign and six digits otherwise. */
  function IsoDate(date: Date): string
    requires date.Valid()
  {
    if 0 <= date.year <= 9999 then DayToken(date)
    else
      (if date.year < 0 then "-" else "+") + Pad(Abs(date.year as real).Floor, 6)
      + "-" + Pad(date.month, 2) + "-" + Pad(date.day, 2)
  }

  /** Outside years 0..9999 the ISO text opens with a sign, never a digit. */
  lemma IsoDateSign(date: Date)
    requires date.Valid() && !(0 <= date.year <= 9999)
    ensures |IsoDate(date)| > 10 && !IsDigit(IsoDate(date)[0])
  {
    var y := Abs(date.year as real).Floor;
    assert |Pad(y, 6)| >= 6;
  }

  /** `new Date(t).toISOString().slice(0, 10)`. */
  function IsoDay(t: int): (r: string)
    ensures |r| == 10
  {
    var e := DateOfDay(DayOf(t));
    if 0 <= e.year <= 9999 then
      DayTokenFields(e);
      IsoDate(e)
    else
      IsoDateSign(e);
      IsoDate(e)[..10]
  }

  /** The `YYYY-MM` token of an instant (UTC): the first seven characters of its ISO text. */
  function IsoMonth(t: int): (r: string)
    ensures |r| == 7
  {
    IsoDay(t)[..7]
  }

  /** For years 0..9999 the token of an instant names the instant's own month, and
      the instant lies in that month's window. */
  lemma IsoMonthOf(t: int)
    requires 0 <= YearMonthOf(t).year <= 9999
    ensures IsoMonth(t) == MonthToken(YearMonthOf(t))
    ensures ParseMonthToken(IsoMonth(t)) == Some(YearMonthOf(t))
    ensures InMonth(t, YearMonthOf(t))
  {
    var e := DateOfDay(DayOf(t));
    assert IsoDay(t) == DayToken(e);
    DayTokenMonth(e);
    ParseMonthTokenRoundTrip(e.Month());
    InMonthIff(t, e.Month());
  }

  /** The first seven characters of a day token are its month's token. */
  lemma DayTokenMonth(date: Date)
    requires date.Valid() && 0 <= date.year <= 9999
    ensures DayToken(date)[..7] == MonthToken(date.Month())
  {
    PadWidth(date.year, 4);
    PadWidth(date.month, 2);
    PadWidth(date.day, 2);
    JoinedFields(Pad(date.year, 4), Pad(date.month, 2), Pad(date.day, 2));
  }

  /** The day token of an instant names a date exactly when the instant lies between
      that date's first and last millisecond. */
  lemma IsoDayIff(t: int, date: Date)
    requires date.Valid() && 0 <= date.year <= 9999
    ensures IsoDay(t) == DayToken(date)
        <==> DayNumber(date) * DayMs <= t <= DayNumber(date) * DayMs + DayMs - 1
  {
    var n := DayNumber(date);
    DayScale(n, t);
    DayScale(n + 1, t);
    if DayOf(t) == n {
      DateOfDayNumber(date);
      assert IsoDay(t) == DayToken(date);
    }
    if IsoDay(t) == DayToken(date) {
      IsoDayNamesDate(t, date);
    }
  }

  /** A day token that is the token of an instant names that instant's date. */
  lemma IsoDayNamesDate(t: int, date: Date)
    requires date.Valid() && 0 <= date.year <= 9999
    requires IsoDay(t) == DayToken(date)
    ensures DayOf(t) == DayNumber(date)
  {
    var e := DateOfDay(DayOf(t));
    DayTokenFields(date);
    IsoDayLeadingDigit(t);
    DayTokenFields(e);
    DayTokenInjective(e, date);
  }

  /** First millisecond of a day (`T00:00:00.000` in UTC). */
  function DayStart(day: int): int
  {
    day * DayMs
  }

  /** Last millisecond of a day (`T23:59:59.999` in UTC). */
  function DayEnd(day: int): int
  {
    day * DayMs + DayMs - 1
  }

  /** Only an instant in years 0..9999 has a day token opening with a digit. */
  lemma IsoDayLeadingDigit(t: int)
    ensures IsDigit(IsoDay(t)[0]) ==> 0 <= DateOfDay(DayOf(t)).year <= 9999
  {
    var e := DateOfDay(DayOf(t));
    if !(0 <= e.year <= 9999) {
      IsoDateSign(e);
      assert IsoDay(t)[0] == IsoDate(e)[0];
    }
  }

  /** The first of March follows the 29th of February in a leap year: the window of
      February 2024 holds its 29th day and ends where March begins. */
  lemma LeapFebruaryWindow()
    ensures Date(2024, 2, 29).Valid()
    ensures InMonth(DayNumber(Date(2024, 2, 29)) * DayMs, YearMonth(2024, 2))
    ensures InMonth(DayNumber(Date(2024, 2, 29)) * DayMs + DayMs - 1, YearMonth(2024, 2))
    ensures !InMonth(DayNumber(Date(2024, 3, 1)) * DayMs, YearMonth(2024, 2))
    ensures !Date(2023, 2, 29).Valid()
  {
    MonthStartNext(YearMonth(2024, 2));
  }
}

=== FILE: category_controller.dfy ===
/** The category handlers, each scoped to the caller (server/controllers/categoryController.js).
    Like the budget handlers they catch nothing: a value the database cannot cast, or
    a row the schema rejects, leaves the request without a reply. */
module CategoryController {
  import opened Base
  import opened Sorting
  import opened ServerData

  function CreatedKey(c: Category): real
  {
    c.createdAt as real
  }

  /** `getCategories`: the caller's categories, newest first. */
  function GetCategories(isValidId: IdCheck, categories: seq<Category>, user: ObjectId): (r: Reply)
    ensures !isValidId(user) <==> r == NoReply
    ensures r.Reply? ==> r.status == 200 && r.body.CategoryList? && SortedBy(r.body.categories, CreatedKey, true)
    ensures r.Reply? ==> forall c :: c in r.body.categories <==> c in categories && c.user == user
  {
    if !isValidId(user) then NoReply
    else
      var mine := Filter(categories, (c: Category) => c.user == user);
      var sorted := SortBy(mine, CreatedKey, true);
      assert forall c :: c in sorted <==> c in mine by {
        forall c ensures c in sorted <==> c in mine {
          assert c in multiset(sorted) <==> c in multiset(mine);
        }
      }
      Reply(200, CategoryList(sorted))
  }

  /** The colour the schema stores when none is given. */
  const DefaultColor := "#E5E7EB"

  datatype Outcome = Outcome(rows: seq<Category>, reply: Reply)

  /** `createCategory`: stores the name and colour for the caller and answers 201; a
      missing or empty name fails the schema's `required` check. */
  function CreateCategorySpec(isValidId: IdCheck, categories: seq<Category>, user: ObjectId, name: Option<string>,
                              color: Option<string>, now: int, newId: ObjectId): (r: Outcome)
    ensures r.reply == NoReply <==> !isValidId(user) || Falsy(name)
    ensures r.reply == NoReply ==> r.rows == categories
    ensures r.reply.Reply? ==>
              var c := Category(newId, name.value, color.GetOr(DefaultColor), user, now);
              r.rows == categories + [c] && r.reply == Reply(201, CategoryRow(Some(c)))
  {
    if !isValidId(user) || Falsy(name) then Outcome(categories, NoReply)
    else
      var c := Category(newId, name.value, color.GetOr(DefaultColor), user, now);
      Outcome(categories + [c], Reply(201, CategoryRow(Some(c))))
  }

  method CreateCategory(db: Database, isValidId: IdCheck, user: ObjectId, name: Option<string>,
                        color: Option<string>, now: int, newId: ObjectId) returns (reply: Reply)
    modifies db
    ensures db.users == old(db.users) && db.budgets == old(db.budgets) && db.expenses == old(db.expenses)
    ensures Outcome(db.categories, reply)
         == CreateCategorySpec(isValidId, old(db.categories), user, name, color, now, newId)
  {
    if !isValidId(user) || Falsy(name) {
      return NoReply;
    }
    var c := Category(newId, name.value, color.GetOr(DefaultColor), user, now);
    db.categories := db.categories + [c];
    reply := Reply(201, CategoryRow(Some(c)));
  }

  /** The schema fields of an update body; the whole body is applied, the owner and
      the creation time included (`createdAt` as the instant its text denotes). */
  datatype CategoryPatch = CategoryPatch(name: Option<string>, color: Option<string>, user: Option<ObjectId>,
                                         createdAt: Option<int>)

  /** A stored category after an update: each field the body carries replaces the
      stored one; the id stays. */
  function Patched(c: Category, patch: CategoryPatch): (r: Category)
    ensures r.id == c.id
    ensures r.name == patch.name.GetOr(c.name) && r.color == patch.color.GetOr(c.color)
    ensures r.user == patch.user.GetOr(c.user) && r.createdAt == patch.createdAt.GetOr(c.createdAt)
  {
    c.(name := patch.name.GetOr(c.name), color := patch.color.GetOr(c.color), user := patch.user.GetOr(c.user),
       createdAt := patch.createdAt.GetOr(c.createdAt))
  }

  /** An empty body leaves the category as it was. */
  lemma EmptyPatchKeeps(c: Category)
    ensures Patched(c, CategoryPatch(None, None, None, None)) == c
  {
  }

  predicate Owned(c: Category, id: ObjectId, user: ObjectId)
  {
    c.id == id && c.user == user
  }

  /** `updateCategory`: patches the first category with that id owned by the caller
      and answers with it, or answers `null` and changes nothing. */
  function UpdateCategorySpec(isValidId: IdCheck, categories: seq<Category>, user: ObjectId, id: ObjectId,
                              patch: CategoryPatch): (r: Outcome)
    ensures r.reply == NoReply
        <==> !isValidId(id) || !isValidId(user) || (patch.user.Some? && !isValidId(patch.user.value))
    ensures r.reply.Reply? ==> r.reply.status == 200 && r.reply.body.CategoryRow?
    ensures |r.rows| == |categories|
    ensures forall i :: 0 <= i < |categories| && !Owned(categories[i], id, user) ==> r.rows[i] == categories[i]
    ensures r.reply == Reply(200, CategoryRow(None))
        <==> r.reply.Reply? && forall c :: c in categories ==> !Owned(c, id, user)
    ensures r.reply == Reply(200, CategoryRow(None)) ==> r.rows == categories
    ensures r.reply.Reply? && r.reply.body.category.Some? ==>
              exists i :: 0 <= i < |categories| && Owned(categories[i], id, user)
                          && r.rows == categories[i := Patched(categories[i], patch)]
                          && r.reply.body.category.value == Patched(categories[i], patch)
  {
    if !isValidId(id) || !isValidId(user) || (patch.user.Some? && !isValidId(patch.user.value)) then
      Outcome(categories, NoReply)
    else match FirstIndex(categories, (c: Category) => Owned(c, id, user))
      case None => Outcome(categories, Reply(200, CategoryRow(None)))
      case Some(i) =>
        var c := Patched(categories[i], patch);
        Outcome(categories[i := c], Reply(200, CategoryRow(Some(c))))
  }

  method UpdateCategory(db: Database, isValidId: IdCheck, user: ObjectId, id: ObjectId, patch: CategoryPatch)
    returns (reply: Reply)
    modifies db
    ensures db.users == old(db.users) && db.budgets == old(db.budgets) && db.expenses == old(db.expenses)
    ensures Outcome(db.categories, reply) == UpdateCategorySpec(isValidId, old(db.categories), user, id, patch)
  {
    if !isValidId(id) || !isValidId(user) || (patch.user.Some? && !isValidId(patch.user.value)) {
      return NoReply;
    }
    var found := FirstIndex(db.categories, (c: Category) => Owned(c, id, user));
    if found.None? {
      return Reply(200, CategoryRow(None));
    }
    var c := Patched(db.categories[found.value], patch);
    db.categories := db.categories[found.value := c];
    reply := Reply(200, CategoryRow(Some(c)));
  }

  /** `deleteCategory`: removes the first category with that id owned by the caller
      and answers "Deleted" whether or not one matched. */
  function DeleteCategorySpec(isValidId: IdCheck, categories: seq<Category>, user: ObjectId, id: ObjectId): (r: Outcome)
    ensures r.reply == NoReply <==> !isValidId(id) || !isValidId(user)
    ensures r.reply.Reply? ==> r.reply == Fail(200, "Deleted")
    ensures (forall c :: c in categories ==> !Owned(c, id, user)) ==> r.rows == categories
    ensures isValidId(id) && isValidId(user) ==>
              forall i :: 0 <= i < |categories| && Owned(categories[i], id, user)
                          && (forall j :: 0 <= j < i ==> !Owned(categories[j], id, user))
                          ==> r == Outcome(RemoveAt(categories, i), Fail(200, "Deleted"))
    ensures r.rows != categories ==>
              |r.rows| == |categories| - 1
              && exists i :: 0 <= i < |categories| && Owned(categories[i], id, user)
                             && multiset(r.rows) + multiset{categories[i]} == multiset(categories)
  {
    if !isValidId(id) || !isValidId(user) then Outcome(categories, NoReply)
    else match FirstIndex(categories, (c: Category) => Owned(c, id, user))
      case None => Outcome(categories, Fail(200, "Deleted"))
      case Some(i) => Outcome(RemoveAt(categories, i), Fail(200, "Deleted"))
  }

  /** Deleting a category does not cascade: budgets and expenses that reference it
      are left as they are. */
  method DeleteCategory(db: Database, isValidId: IdCheck, user: ObjectId, id: ObjectId) returns (reply: Reply)
    modifies db
    ensures db.users == old(db.users) && db.budgets == old(db.budgets) && db.expenses == old(db.expenses)
    ensures Outcome(db.categories, reply) == DeleteCategorySpec(isValidId, old(db.categories), user, id)
  {
    if !isValidId(id) || !isValidId(user) {
      return NoReply;
    }
    var found := FirstIndex(db.categories, (c: Category) => Owned(c, id, user));
    if found.Some? {
      db.categories := RemoveAt(db.categories, found.value);
    }
    reply := Fail(200, "Deleted");
  }
}

=== FILE: category_store.dfy ===
/** The client's category list (client/src/stores/categoryStore.js): a fetch that
    replaces it, an optimistic add through a temporary entry, an update by id, and an
    optimistic delete that restores the previous list on failure. */
module CategoryStore {
  import opened Base
  import opened ClientData

  function CategoryId(c: ClientCategory): string
  {
    c.id
  }

  /** The entry shown until the server answers: the payload under the temporary id. */
  function TempCategory(tempId: string, name: Option<string>, color: Option<string>): (c: ClientCategory)
    ensures c.id == tempId && c.name == name && c.color == color
  {
    ClientCategory(tempId, name, color)
  }

  /** The list after an add: the temporary entry is replaced by the server's record on
      success and filtered out on failure. */
  function AfterAdd(prev: seq<ClientCategory>, temp: ClientCategory, response: Outcome<ClientCategory>)
    : seq<ClientCategory>
  {
    match response
    case Success(data) => ReplaceId([temp] + prev, CategoryId, temp.id, data)
    case Failure(_) => RemoveId([temp] + prev, CategoryId, temp.id)
  }

  /** With a fresh temporary id, a successful add puts the server's record in front of
      the previous list and a failed one gives the previous list back. */
  lemma AddOutcome(prev: seq<ClientCategory>, temp: ClientCategory, response: Outcome<ClientCategory>)
    requires FreshId(prev, CategoryId, temp.id)
    ensures response.Success? ==> AfterAdd(prev, temp, response) == [response.data] + prev
    ensures response.Failure? ==> AfterAdd(prev, temp, response) == prev
  {
    if response.Success? {
      ReplaceTemp(prev, CategoryId, temp, response.data);
    } else {
      RollbackTemp(prev, CategoryId, temp);
    }
  }

  class Store {
    var categories: seq<ClientCategory>
    var loading: bool
    var error: Option<string>

    constructor ()
      ensures categories == [] && !loading && error == None
    {
      categories, loading, error := [], false, None;
    }

    /** `fetchCategories`: a success replaces the list; a failure keeps it, records
        `err.message` and rethrows. */
    method Fetch(response: Outcome<seq<ClientCategory>>) returns (thrown: Option<ApiError>)
      modifies this
      ensures !loading
      ensures response.Success? ==> categories == response.data && error == old(error) && thrown.None?
      ensures response.Failure? ==>
                categories == old(categories) && error == response.err.message && thrown == Some(response.err)
    {
      loading := true;
      match response {
        case Success(data) =>
          categories, loading := data, false;
          thrown := None;
        case Failure(err) =>
          error, loading := err.message, false;
          thrown := Some(err);
      }
    }

    /** `addCategory`: prepends the payload under `temp-<now>`, then swaps in the
        server's record or removes the temporary entry and rethrows. */
    method Add(name: Option<string>, color: Option<string>, now: nat, response: Outcome<ClientCategory>)
      returns (thrown: Option<ApiError>)
      modifies this
      ensures loading == old(loading) && error == old(error)
      ensures categories == AfterAdd(old(categories), TempCategory(TempId(now), name, color), response)
      ensures thrown == if response.Failure? then Some(response.err) else None
    {
      var tempId := TempId(now);
      categories := [TempCategory(tempId, name, color)] + categories;
      match response {
        case Success(data) =>
          categories := ReplaceId(categories, CategoryId, tempId, data);
          thrown := None;
        case Failure(err) =>
          categories := RemoveId(categories, CategoryId, tempId);
          thrown := Some(err);
      }
    }

    /** `updateCategory`: on success every entry with that id becomes the server's
        record, the others and the length stay; on failure the list is kept. */
    method Update(id: string, response: Outcome<ClientCategory>) returns (thrown: Option<ApiError>)
      modifies this
      ensures !loading && error == old(error)
      ensures |categories| == |old(categories)|
      ensures response.Success? ==> categories == ReplaceId(old(categories), CategoryId, id, response.data) && thrown.None?
      ensures response.Failure? ==> categories == old(categories) && thrown == Some(response.err)
    {
      loading := true;
      match response {
        case Success(data) =>
          categories, loading := ReplaceId(categories, CategoryId, id, data), false;
          thrown := None;
        case Failure(err) =>
          loading := false;
          thrown := Some(err);
      }
    }

    /** `deleteCategory`: removes the id at once and puts the exact previous list back
        when the server call fails. */
    method Delete(id: string, response: Outcome<()>) returns (thrown: Option<ApiError>)
      modifies this
      ensures loading == old(loading) && error == old(error)
      ensures response.Success? ==> categories == RemoveId(old(categories), CategoryId, id) && thrown.None?
      ensures response.Failure? ==> categories == old(categories) && thrown == Some(response.err)
    {
      var prev := categories;
      categories := RemoveId(categories, CategoryId, id);
      if response.Failure? {
        categories := prev;
        return Some(response.err);
      }
      thrown := None;
    }
  }
}

=== FILE: client_data.dfy ===
/** The client's view of the records, the outcome of a call to the server, the
    shared toast state, and the list edits the stores make by record id. */
module ClientData {
  import opened Base
  import Text

  /** An expense's `category` as the client receives it: populated by the server,
      a bare id, or absent. */
  datatype CategoryRef = Populated(id: string, name: string, color: string) | Raw(id: string) | NoCategory
  {
    /** `e.category?._id ?? e.category` as a string, `None` when absent. */
    function Key(): Option<string>
    {
      match this
      case Populated(id, _, _) => Some(id)
      case Raw(id) => Some(id)
      case NoCategory => None
    }
  }

  /** An expense on the client; `date` is the instant its date text denotes. */
  datatype ClientExpense = ClientExpense(id: string, category: CategoryRef, amount: real, date: int,
                                         notes: Option<string>)

  datatype ClientCategory = ClientCategory(id: string, name: Option<string>, color: Option<string>)

  /** A budget row; `totalSpent` and `spent` are the optional figures the report
      views read. */
  datatype ClientBudget = ClientBudget(id: string, category: CategoryRef, month: string, limit: Option<real>,
                                       totalSpent: Option<real>, spent: Option<real>)

  /** The user the server reports: `{ id, email }`. */
  datatype AuthUser = AuthUser(id: string, email: string)

  /** A failed call: `err.response.data.message`, `err.response.data.error` and
      `err.message`, each possibly absent. */
  datatype ApiError = ApiError(serverMessage: Option<string>, serverError: Option<string>, message: Option<string>)

  /** The outcome of one call to the server, taken as atomic. */
  datatype Outcome<+T> = Success(data: T) | Failure(err: ApiError)

  /** A text JavaScript treats as true: present and not empty. */
  predicate Truthy(a: Option<string>)
  {
    a.Some? && a.value != ""
  }

  /** JavaScript `a || b` on optional texts. */
  function Or(a: Option<string>, b: Option<string>): (r: Option<string>)
    ensures r == a || r == b
    ensures Truthy(a) ==> r == a
    ensures !Truthy(a) ==> r == b
    ensures Truthy(r) <==> Truthy(a) || Truthy(b)
  {
    if a.Some? && a.value != "" then a else b
  }

  /** JavaScript `a || fallback` for a text fallback. */
  function OrElse(a: Option<string>, fallback: string): (r: string)
    ensures r == fallback || Some(r) == a
    ensures Truthy(a) ==> r == a.value
    ensures !Truthy(a) ==> r == fallback
    ensures r != "" || fallback == ""
  {
    if a.Some? && a.value != "" then a.value else fallback
  }

  /** JavaScript `a ?? b ?? fallback`: only an absent text falls through. */
  function Nullish(a: Option<string>, b: Option<string>, fallback: string): (r: string)
    ensures a.Some? ==> r == a.value
    ensures a.None? && b.Some? ==> r == b.value
    ensures a.None? && b.None? ==> r == fallback
  {
    if a.Some? then a.value else b.GetOr(fallback)
  }

  datatype ToastKind = SuccessToast | ErrorToast

  /** A toast's text; the over-budget message is kept as the amount it reports. */
  datatype ToastText = Text(text: string) | OverBudgetBy(amount: real)

  datatype Toast = Toast(kind: ToastKind, text: ToastText)

  /** The shared UI state (client/src/stores/uiStore.js): the toast on screen and
      whether the add-expense modal is open. */
  class UiStore {
    var toast: Option<Toast>
    var expenseModalOpen: bool

    constructor ()
      ensures toast == None && !expenseModalOpen
    {
      toast, expenseModalOpen := None, false;
    }

    method ShowToast(t: Toast)
      modifies this
      ensures toast == Some(t) && expenseModalOpen == old(expenseModalOpen)
    {
      toast := Some(t);
    }

    method OpenExpenseModal()
      modifies this
      ensures expenseModalOpen && toast == old(toast)
    {
      expenseModalOpen := true;
    }

    method CloseExpenseModal()
      modifies this
      ensures !expenseModalOpen && toast == old(toast)
    {
      expenseModalOpen := false;
    }
  }

  /** `temp-${Date.now()}`. */
  function TempId(now: nat): string
  {
    "temp-" + Text.DecimalString(now)
  }

  /** `list.map(e => e._id === id ? x : e)`. */
  function ReplaceId<T>(s: seq<T>, idOf: T -> string, id: string, x: T): (r: seq<T>)
    ensures |r| == |s|
    ensures forall i :: 0 <= i < |s| ==> r[i] == if idOf(s[i]) == id then x else s[i]
  {
    if s == [] then [] else [if idOf(s[0]) == id then x else s[0]] + ReplaceId(s[1..], idOf, id, x)
  }

  /** `list.filter(e => e._id !== id)`. */
  function RemoveId<T>(s: seq<T>, idOf: T -> string, id: string): (r: seq<T>)
    ensures |r| <= |s|
    ensures forall i :: 0 <= i < |r| ==> idOf(r[i]) != id
    ensures (forall i :: 0 <= i < |s| ==> idOf(s[i]) != id) ==> r == s
    ensures forall i :: 0 <= i < |r| ==> r[i] in s
    ensures forall i :: 0 <= i < |s| && idOf(s[i]) != id ==> s[i] in r
  {
    if s == [] then []
    else if idOf(s[0]) == id then RemoveId(s[1..], idOf, id)
    else [s[0]] + RemoveId(s[1..], idOf, id)
  }

  /** Filtering distributes over concatenation, so the survivors keep their order. */
  lemma {:induction false} RemoveIdAppend<T>(a: seq<T>, b: seq<T>, idOf: T -> string, id: string)
    ensures RemoveId(a + b, idOf, id) == RemoveId(a, idOf, id) + RemoveId(b, idOf, id)
  {
    if a != [] {
      var x, t := a[0], a[1..];
      assert a == [x] + t && a + b == [x] + (t + b);
      RemoveIdCons(x, t, idOf, id);
      RemoveIdCons(x, t + b, idOf, id);
      RemoveIdAppend(t, b, idOf, id);
    } else {
      assert a + b == b;
    }
  }

  /** Removal on a list with a first entry: that entry if it survives, then the rest. */
  lemma RemoveIdCons<T>(x: T, t: seq<T>, idOf: T -> string, id: string)
    ensures RemoveId([x] + t, idOf, id) == (if idOf(x) == id then [] else [x]) + RemoveId(t, idOf, id)
  {
    assert ([x] + t)[0] == x && ([x] + t)[1..] == t;
  }

  /** No entry of `s` has the id. */
  predicate FreshId<T>(s: seq<T>, idOf: T -> string, id: string)
  {
    forall i :: 0 <= i < |s| ==> idOf(s[i]) != id
  }

  /** Replacing a freshly prepended temporary entry puts the saved record in its
      place and leaves the rest as it was. */
  lemma ReplaceTemp<T>(s: seq<T>, idOf: T -> string, temp: T, saved: T)
    requires FreshId(s, idOf, idOf(temp))
    ensures ReplaceId([temp] + s, idOf, idOf(temp), saved) == [saved] + s
  {
    var r := ReplaceId([temp] + s, idOf, idOf(temp), saved);
    assert forall i :: 0 <= i < |s| ==> r[i + 1] == s[i] by {
      forall i | 0 <= i < |s| ensures r[i + 1] == s[i] {
        assert ([temp] + s)[i + 1] == s[i];
      }
    }
  }

  /** Removing a freshly prepended temporary entry gives back the list as it was. */
  lemma RollbackTemp<T>(s: seq<T>, idOf: T -> string, temp: T)
    requires FreshId(s, idOf, idOf(temp))
    ensures RemoveId([temp] + s, idOf, idOf(temp)) == s
  {
    assert ([temp] + s)[1..] == s;
  }

  /** Every entry but those with the id survives a removal, in order. */
  lemma {:induction false} RemoveIdKeeps<T>(s: seq<T>, idOf: T -> string, id: string, x: T)
    requires x in s && idOf(x) != id
    ensures x in RemoveId(s, idOf, id)
    decreases |s|
  {
    if s[0] != x {
      RemoveIdKeeps(s[1..], idOf, id, x);
    }
  }

  /** No two entries share an id. */
  predicate UniqueIds<T>(s: seq<T>, idOf: T -> string)
  {
    forall i, j :: 0 <= i < j < |s| ==> idOf(s[i]) != idOf(s[j])
  }

  /** Replace the entry with the record's id in place, or prepend the record when
      no entry has its id. */
  function UpsertById<T>(s: seq<T>, idOf: T -> string, x: T): (r: seq<T>)
    ensures (exists i :: 0 <= i < |s| && idOf(s[i]) == idOf(x)) ==> r == ReplaceId(s, idOf, idOf(x), x)
    ensures FreshId(s, idOf, idOf(x)) ==> r == [x] + s
  {
    if exists i :: 0 <= i < |s| && idOf(s[i]) == idOf(x) then ReplaceId(s, idOf, idOf(x), x) else [x] + s
  }

  /** Replace-or-prepend keeps ids unique. */
  lemma UpsertKeepsIdsUnique<T>(s: seq<T>, idOf: T -> string, x: T)
    requires UniqueIds(s, idOf)
    ensures UniqueIds(UpsertById(s, idOf, x), idOf)
  {
    var r := UpsertById(s, idOf, x);
    if exists i :: 0 <= i < |s| && idOf(s[i]) == idOf(x) {
      forall i, j | 0 <= i < j < |r|
        ensures idOf(r[i]) != idOf(r[j])
      {
        var k :| 0 <= k < |s| && idOf(s[k]) == idOf(x);
        if idOf(s[i]) == idOf(x) {
          assert idOf(s[j]) != idOf(x);
        } else if idOf(s[j]) == idOf(x) {
          assert idOf(s[i]) != idOf(x);
        }
      }
    } else {
      forall i, j | 0 <= i < j < |r|
        ensures idOf(r[i]) != idOf(r[j])
      {
        if i == 0 {
          assert r[j] == s[j - 1];
        } else {
          assert r[i] == s[i - 1] && r[j] == s[j - 1];
        }
      }
    }
  }
}

=== FILE: dashboard_page.dfy ===
/** The Dashboard (client/src/pages/Dashboard.jsx): the month's budget cards, the month
    navigation that reloads them, and the expense-list modal a card opens. */
module DashboardPage {
  import opened Base
  import opened ClientData
  import BudgetStore
  import BudgetCard
  import MonthNav

  /** The props a budget row gives its card: `name || "Unnamed Category"`, the
      colour when it is set and not empty, `totalSpent || 0`, and the limit. */
  function CardPropsOf(b: ClientBudget): (p: BudgetCard.CardProps)
    ensures !(b.category.Populated? && b.category.name != "") ==> p.title == "Unnamed Category"
    ensures b.category.Populated? && b.category.name != "" ==> p.title == b.category.name
    ensures BudgetCard.Color(p) == if b.category.Populated? && b.category.color != "" then b.category.color
                                   else "bg-blue-500"
    ensures BudgetCard.Spent(p) == b.totalSpent.GetOr(0.0)
    ensures BudgetCard.Budget(p) == b.limit.GetOr(0.0)
  {
    var title := if b.category.Populated? && b.category.name != "" then b.category.name else "Unnamed Category";
    var color := if b.category.Populated? && b.category.color != "" then b.category.color else "bg-blue-500";
    BudgetCard.CardProps(title, Some(color), Some(b.totalSpent.GetOr(0.0)), b.limit)
  }

  /** `b.category?._id`: a bare id has no `_id`. */
  function CardCategoryId(b: ClientBudget): Option<string>
  {
    if b.category.Populated? then Some(b.category.id) else None
  }

  /** The cards, one per budget in order. */
  function Cards(budgets: seq<ClientBudget>): (r: seq<BudgetCard.Card>)
    ensures |r| == |budgets|
    ensures forall i :: 0 <= i < |budgets| ==> r[i] == BudgetCard.Render(CardPropsOf(budgets[i]))
  {
    Map(budgets, (b: ClientBudget) => BudgetCard.Render(CardPropsOf(b)))
  }

  /** The main area: a loading line while the store loads, a hint when the month
      has no budget, otherwise the grid of cards. */
  datatype View = LoadingBudgets | NoBudgets | Grid(cards: seq<BudgetCard.Card>)

  function ViewOf(loading: bool, budgets: seq<ClientBudget>): (v: View)
    ensures v == LoadingBudgets <==> loading
    ensures v == NoBudgets <==> !loading && budgets == []
    ensures v.Grid? ==> |v.cards| == |budgets| > 0
  {
    if loading then LoadingBudgets
    else if budgets == [] then NoBudgets
    else Grid(Cards(budgets))
  }

  class Page {
    var currentMonth: string
    var selectedCategoryId: Option<string>
    var isExpenseListOpen: bool

    /** The first render: the clock's month (`MonthNav.CurrentMonth`), nothing
        selected, the list closed. */
    constructor (month: string)
      ensures currentMonth == month && selectedCategoryId == None && !isExpenseListOpen
    {
      currentMonth, selectedCategoryId, isExpenseListOpen := month, None, false;
    }

    /** The month effect: loads the month's budgets; a failure is swallowed. */
    method Load(store: BudgetStore.Store, response: Outcome<seq<ClientBudget>>)
      modifies store
      ensures store.budgets == if response.Success? then response.data else old(store.budgets)
      ensures !store.loading
    {
      var _ := store.Fetch(response);
    }

    /** `nextMonth` (`forward`) and `prevMonth`. */
    method StepMonth(forward: bool)
      modifies this
      ensures currentMonth == MonthNav.Step(old(currentMonth), forward).GetOr("NaN-NaN")
      ensures selectedCategoryId == old(selectedCategoryId) && isExpenseListOpen == old(isExpenseListOpen)
    {
      currentMonth := MonthNav.Step(currentMonth, forward).GetOr("NaN-NaN");
    }

    /** `openCategoryExpenses`, from a card's click: the card's category becomes the
        selection and the list opens. */
    method OpenCategoryExpenses(b: ClientBudget)
      modifies this
      ensures selectedCategoryId == CardCategoryId(b) && isExpenseListOpen
      ensures currentMonth == old(currentMonth)
    {
      selectedCategoryId, isExpenseListOpen := CardCategoryId(b), true;
    }

    /** `closeCategoryExpenses`: no selection, list closed. */
    method CloseCategoryExpenses()
      modifies this
      ensures selectedCategoryId == None && !isExpenseListOpen
      ensures currentMonth == old(currentMonth)
    {
      selectedCategoryId, isExpenseListOpen := None, false;
    }

    /** The `categoryId` the list modal filters by: `String` of the selection. */
    function ModalCategory(): (id: string)
      reads this
      ensures selectedCategoryId.Some? ==> id == selectedCategoryId.value
    {
      match selectedCategoryId
      case Some(id) => id
      case None => if isExpenseListOpen then "undefined" else "null"
    }
  }
}

=== FILE: edit_expense_modal.dfy ===
/** The edit-expense form (client/src/components/EditExpenseModal.jsx): the fields
    loaded from the expense being edited, the check before saving, and the save
    through the expense store. */
module EditExpenseModal {
  import opened Base
  import opened Calendar
  import opened ClientData
  import opened ExpenseViews
  import ExpenseStore

  /** The body the form saves: no month, unlike the quick-add form. */
  datatype Payload = Payload(category: string, amount: real, date: string, notes: string)

  /** `expense?.category?._id ?? ""`: a bare id has no `_id`. */
  function CategoryField(e: ClientExpense): (id: string)
    ensures e.category.Populated? ==> id == e.category.id
    ensures !e.category.Populated? ==> id == ""
  {
    if e.category.Populated? then e.category.id else ""
  }

  /** The form's date text reads back as the expense's own day. */
  lemma DateFieldReadsBack(e: ClientExpense)
    requires 0 <= YearMonthOf(e.date).year <= 9999
    ensures ParseDay(IsoDay(e.date)) == Some(DayOf(e.date))
  {
    var d := DateOfDay(DayOf(e.date));
    assert IsoDay(e.date) == DayToken(d);
    ParseDayRoundTrip(d);
  }

  class Form {
    var categoryId: string
    var amount: AmountInput
    var date: string
    var notes: string
    var saving: bool
    var error: Option<string>

    /** The first render, which loads the fields as `Sync` does. */
    constructor (expense: Option<ClientExpense>, today: string)
      ensures expense.Some? ==>
                categoryId == CategoryField(expense.value) && amount == Loaded(expense.value.amount)
                && date == IsoDay(expense.value.date) && notes == expense.value.notes.GetOr("")
      ensures expense.None? ==> categoryId == "" && amount == Typed("") && date == today && notes == ""
      ensures !saving && error == None
    {
      saving, error := false, None;
      match expense {
        case Some(e) =>
          categoryId, amount, date, notes := CategoryField(e), Loaded(e.amount), IsoDay(e.date), e.notes.GetOr("");
        case None =>
          categoryId, amount, date, notes := "", Typed(""), today, "";
      }
    }

    /** The effect on a new expense: every field is loaded from it, the date cut to
        `YYYY-MM-DD` (UTC); without an expense the fields are emptied and the date
        is today. */
    method Sync(expense: Option<ClientExpense>, today: string)
      modifies this
      ensures expense.Some? ==>
                categoryId == CategoryField(expense.value) && amount == Loaded(expense.value.amount)
                && date == IsoDay(expense.value.date) && notes == expense.value.notes.GetOr("")
      ensures expense.None? ==> categoryId == "" && amount == Typed("") && date == today && notes == ""
      ensures saving == old(saving) && error == old(error)
    {
      if expense.Some? {
        var e := expense.value;
        var day := IsoDay(e.date);
        categoryId, amount, date, notes := CategoryField(e), Loaded(e.amount), day, e.notes.GetOr("");
      } else {
        categoryId, amount, date, notes := "", Typed(""), today, "";
      }
    }

    /** What renders: nothing without an expense. */
    function Shown(expense: Option<ClientExpense>): (r: bool)
      ensures r <==> expense.Some?
    {
      expense.Some?
    }

    /** `handleSubmit` for the expense shown. A failed check only sets the message;
        otherwise the store updates the expense; on success `onClose` is called
        (`closed`), on failure the error is set and toasted and the form stays. */
    method HandleSubmit(ui: UiStore, store: ExpenseStore.Store, expense: ClientExpense, parse: NumberParser,
                        response: Outcome<ClientExpense>)
      returns (sent: Option<Payload>, closed: bool)
      modifies this, ui, store
      ensures categoryId == old(categoryId) && amount == old(amount) && date == old(date) && notes == old(notes)
      ensures var check := FormError(old(categoryId), old(amount), parse);
              check.Some? ==>
                error == check && sent.None? && !closed && saving == old(saving)
                && store.expenses == old(store.expenses) && ui.toast == old(ui.toast)
      ensures FormError(old(categoryId), old(amount), parse).None? ==>
                !saving && sent == Some(Payload(old(categoryId), AmountNumber(old(amount), parse).value, old(date), old(notes)))
      ensures FormError(old(categoryId), old(amount), parse).None? && response.Success? ==>
                closed && error == None && ui.toast == Some(Toast(SuccessToast, Text("Expense updated")))
                && store.expenses == ReplaceId(old(store.expenses), ExpenseStore.ExpenseId, expense.id, response.data)
      ensures FormError(old(categoryId), old(amount), parse).None? && response.Failure? ==>
                var msg := Nullish(response.err.serverMessage, response.err.message, "Update failed");
                !closed && error == Some(msg) && ui.toast == Some(Toast(ErrorToast, Text(msg)))
                && store.expenses == old(store.expenses)
    {
      error := None;
      var check := FormError(categoryId, amount, parse);
      if check.Some? {
        error := check;
        return None, false;
      }
      saving := true;
      sent := Some(Payload(categoryId, AmountNumber(amount, parse).value, date, notes));
      var thrown := store.Update(ui, expense.id, response);
      if thrown.None? {
        closed := true;
      } else {
        var msg := Nullish(thrown.value.serverMessage, thrown.value.message, "Update failed");
        error := Some(msg);
        ui.ShowToast(Toast(ErrorToast, Text(msg)));
        closed := false;
      }
      saving := false;
    }
  }

  /** A form loaded from an expense with a populated category and a positive amount
      passes the check. */
  lemma LoadedFormPasses(e: ClientExpense, parse: NumberParser)
    requires e.category.Populated? && e.category.id != "" && e.amount > 0.0
    ensures FormError(CategoryField(e), Loaded(e.amount), parse).None?
  {
  }
}

=== FILE: expense_controller.dfy ===
/** The expense handlers: `addExpense` with its validation chain and budget
    reconciliation, the month and date-range queries, and `deleteExpense`
    (server/controllers/expenseController.js). */
module ExpenseController {
  import opened Base
  import opened Calendar
  import opened Sorting
  import opened ServerData

  /** The primitives the handlers call into: `ObjectId.isValid`, `Number(value)` and
      `new Date(value)` (an instant, `None` for an invalid date). */
  datatype Env = Env(isValidId: IdCheck, parseNumber: NumberParser, parseDate: string -> Option<int>)

  /** The fields of the request body `addExpense` reads. */
  datatype ExpenseBody = ExpenseBody(category: Option<string>, categoryId: Option<string>,
                                     amount: Option<string>, date: Option<string>, notes: Option<string>)

  /** The values `addExpense` goes on with once every check has passed. */
  datatype Checked = Checked(user: ObjectId, category: ObjectId, amount: real, date: int)

  const MissingUser := "Unauthorized: missing user (req.user)"
  const InvalidUser := "Invalid user id"
  const MissingCategory := "category (or categoryId) is required"
  const InvalidCategory := "category must be a valid ObjectId"
  const InvalidAmount := "amount must be a positive number"
  const InvalidDate := "invalid date"

  /** `req.body.category ?? req.body.categoryId`: `category` wins whenever present. */
  function RawCategory(body: ExpenseBody): Option<string>
  {
    if body.category.Some? then body.category else body.categoryId
  }

  /** `Number(req.body.amount)`; an absent amount is NaN. */
  function AmountOf(env: Env, body: ExpenseBody): Option<real>
  {
    if body.amount.None? then None else env.parseNumber(body.amount.value)
  }

  /** `dateRaw ? new Date(dateRaw) : new Date()`. */
  function DateOf(env: Env, body: ExpenseBody, now: int): Option<int>
  {
    if Falsy(body.date) then Some(now) else env.parseDate(body.date.value)
  }

  predicate UserOk(env: Env, user: Option<ObjectId>)
  {
    !Falsy(user) && env.isValidId(user.value)
  }

  predicate CategoryOk(env: Env, body: ExpenseBody)
  {
    !Falsy(RawCategory(body)) && env.isValidId(RawCategory(body).value)
  }

  predicate AmountOk(env: Env, body: ExpenseBody)
  {
    AmountOf(env, body).Some? && AmountOf(env, body).value > 0.0
  }

  /** The checks of `addExpense`, in order: each failure answers only when every
      earlier check has passed, and the request gets through only when all pass. */
  function ValidateExpense(env: Env, user: Option<ObjectId>, body: ExpenseBody, now: int): (r: Result<Checked, Reply>)
    ensures r == Err(Fail(401, MissingUser)) <==> Falsy(user)
    ensures r == Err(Fail(400, InvalidUser)) <==> !Falsy(user) && !env.isValidId(user.value)
    ensures r == Err(Fail(400, MissingCategory)) <==> UserOk(env, user) && Falsy(RawCategory(body))
    ensures r == Err(Fail(400, InvalidCategory))
        <==> UserOk(env, user) && !Falsy(RawCategory(body)) && !env.isValidId(RawCategory(body).value)
    ensures r == Err(Fail(400, InvalidAmount))
        <==> UserOk(env, user) && CategoryOk(env, body) && !AmountOk(env, body)
    ensures r == Err(Fail(400, InvalidDate))
        <==> UserOk(env, user) && CategoryOk(env, body) && AmountOk(env, body) && DateOf(env, body, now).None?
    ensures r.Ok? <==> UserOk(env, user) && CategoryOk(env, body) && AmountOk(env, body) && DateOf(env, body, now).Some?
    ensures r.Ok? ==> r.value == Checked(user.value, RawCategory(body).value, AmountOf(env, body).value,
                                          DateOf(env, body, now).value)
  {
    if Falsy(user) then Err(Fail(401, MissingUser))
    else if !env.isValidId(user.value) then Err(Fail(400, InvalidUser))
    else if Falsy(RawCategory(body)) then Err(Fail(400, MissingCategory))
    else if !env.isValidId(RawCategory(body).value) then Err(Fail(400, InvalidCategory))
    else if !AmountOk(env, body) then Err(Fail(400, InvalidAmount))
    else if DateOf(env, body, now).None? then Err(Fail(400, InvalidDate))
    else Ok(Checked(user.value, RawCategory(body).value, AmountOf(env, body).value, DateOf(env, body, now).value))
  }

  /** The instant lies in the window of the month token: from `${month}-01T00:00:00.000Z`
      up to, not including, the same instant one calendar month later. A token that
      does not read as a month makes an invalid date, and no instant lies in its window. */
  predicate InTokenWindow(t: int, month: string)
  {
    match ParseMonthToken(month)
    case Some(ym) => InMonth(t, ym)
    case None => false
  }

  /** The expense counts toward the spending of (user, category) in the month. */
  predicate Counts(e: Expense, user: ObjectId, category: ObjectId, month: string)
  {
    e.user == user && e.category == category && InTokenWindow(e.date, month)
  }

  function Amounts(s: seq<Expense>): (r: seq<real>)
    ensures |r| == |s| && forall i :: 0 <= i < |s| ==> r[i] == s[i].amount
  {
    seq(|s|, i requires 0 <= i < |s| => s[i].amount)
  }

  /** The `$sum` of amounts over the expenses the aggregation's `$match` keeps. */
  function Spent(expenses: seq<Expense>, user: ObjectId, category: ObjectId, month: string): real
  {
    Sum(Amounts(Filter(expenses, (e: Expense) => Counts(e, user, category, month))))
  }

  /** Adding one expense adds its amount to the spending it counts toward, and
      nothing to any other. */
  lemma SpentAfterInsert(expenses: seq<Expense>, e: Expense, user: ObjectId, category: ObjectId, month: string)
    ensures Spent(expenses + [e], user, category, month)
         == Spent(expenses, user, category, month) + (if Counts(e, user, category, month) then e.amount else 0.0)
  {
    var p := (x: Expense) => Counts(x, user, category, month);
    FilterAppend(expenses, e, p);
    var extra := if p(e) then [e] else [];
    assert Amounts(Filter(expenses, p) + extra) == Amounts(Filter(expenses, p)) + Amounts(extra);
    SumAppend(Amounts(Filter(expenses, p)), Amounts(extra));
  }

  /** Expenses that count toward a spending add up to no less than zero when every
      amount is positive. */
  lemma SpentNonNegative(expenses: seq<Expense>, user: ObjectId, category: ObjectId, month: string)
    requires forall i :: 0 <= i < |expenses| ==> expenses[i].amount > 0.0
    ensures Spent(expenses, user, category, month) >= 0.0
  {
    var kept := Filter(expenses, (e: Expense) => Counts(e, user, category, month));
    forall i | 0 <= i < |kept|
      ensures Amounts(kept)[i] >= 0.0
    {
      assert kept[i] in expenses;
    }
    SumNonNegative(Amounts(kept));
  }

  /** `Budget.findOne({ user, category, month })`: the first row with that triple. */
  function FindBudget(budgets: seq<Budget>, user: ObjectId, category: ObjectId, month: string): (r: Option<Budget>)
    ensures r.Some? ==> r.value in budgets && r.value.user == user && r.value.category == category
                        && r.value.month == month
    ensures r.None? <==> forall b :: b in budgets ==> !(b.user == user && b.category == category && b.month == month)
  {
    match FirstIndex(budgets, (b: Budget) => b.user == user && b.category == category && b.month == month)
    case None => None
    case Some(i) => Some(budgets[i])
  }

  datatype Reconciliation = Reconciliation(summary: BudgetSummary, status: BudgetStatus)

  /** The budget summary and status answered with a new expense. */
  function Reconcile(budgets: seq<Budget>, expenses: seq<Expense>, user: ObjectId, category: ObjectId,
                     month: string): (r: Reconciliation)
    ensures r.status == OverBudget <==> r.summary.remaining < 0.0
    ensures r.summary.remaining == r.summary.limit - r.summary.spent
    ensures FindBudget(budgets, user, category, month).None?
        ==> r == Reconciliation(BudgetSummary(0.0, 0.0, 0.0), WithinBudget)
    ensures FindBudget(budgets, user, category, month).Some?
        ==> r.summary.limit == FindBudget(budgets, user, category, month).value.limit
            && r.summary.spent == Spent(expenses, user, category, month)
  {
    match FindBudget(budgets, user, category, month)
    case None => Reconciliation(BudgetSummary(0.0, 0.0, 0.0), WithinBudget)
    case Some(b) =>
      var spent := Spent(expenses, user, category, month);
      var remaining := b.limit - spent;
      Reconciliation(BudgetSummary(b.limit, spent, remaining), if remaining < 0.0 then OverBudget else WithinBudget)
  }

  /** The record `addExpense` stores. */
  function NewExpense(c: Checked, id: ObjectId, notes: Option<string>): Expense
  {
    Expense(id, c.user, c.category, c.amount, c.date, notes)
  }

  /** Stores the expense and answers with the reconciliation of its month's budget;
      a request failing a check stores nothing. The month token is the UTC
      `YYYY-MM` of the expense's own date. */
  method AddExpense(db: Database, env: Env, user: Option<ObjectId>, body: ExpenseBody, now: int, newId: ObjectId)
    returns (reply: Reply)
    requires forall e :: e in db.expenses ==> e.id != newId
    modifies db
    ensures db.users == old(db.users) && db.categories == old(db.categories) && db.budgets == old(db.budgets)
    ensures ValidateExpense(env, user, body, now).Err?
        ==> reply == ValidateExpense(env, user, body, now).error && db.expenses == old(db.expenses)
    ensures ValidateExpense(env, user, body, now).Ok? ==>
        var e := NewExpense(ValidateExpense(env, user, body, now).value, newId, body.notes);
        var rec := Reconcile(db.budgets, db.expenses, e.user, e.category, IsoMonth(e.date));
        db.expenses == old(db.expenses) + [e] && reply == Reply(201, ExpenseCreated(e, rec.summary, rec.status))
  {
    var checked := ValidateExpense(env, user, body, now);
    if checked.Err? {
      return checked.error;
    }
    var e := NewExpense(checked.value, newId, body.notes);
    db.expenses := db.expenses + [e];
    var month := IsoMonth(e.date);
    var summary := BudgetSummary(0.0, 0.0, 0.0);
    var status := WithinBudget;
    var budget := FindBudget(db.budgets, e.user, e.category, month);
    if budget.Some? {
      var spent := Spent(db.expenses, e.user, e.category, month);
      var remaining := budget.value.limit - spent;
      summary := BudgetSummary(budget.value.limit, spent, remaining);
      if remaining < 0.0 {
        status := OverBudget;
      }
    }
    assert Reconciliation(summary, status) == Reconcile(db.budgets, db.expenses, e.user, e.category, month);
    reply := Reply(201, ExpenseCreated(e, summary, status));
  }

  /** The new expense counts toward its own month's spending: the spent figure
      answered with it is what was spent before plus its amount. */
  lemma NewExpenseCounted(expenses: seq<Expense>, e: Expense)
    requires 0 <= YearMonthOf(e.date).year <= 9999
    ensures Spent(expenses + [e], e.user, e.category, IsoMonth(e.date))
         == Spent(expenses, e.user, e.category, IsoMonth(e.date)) + e.amount
  {
    IsoMonthOf(e.date);
    SpentAfterInsert(expenses, e, e.user, e.category, IsoMonth(e.date));
  }

  /** Without a budget row for the triple the answer is all zeros and within budget,
      however large the amount. */
  lemma NoBudgetNeverOver(budgets: seq<Budget>, expenses: seq<Expense>, e: Expense)
    requires forall b :: b in budgets ==> !(b.user == e.user && b.category == e.category && b.month == IsoMonth(e.date))
    ensures Reconcile(budgets, expenses + [e], e.user, e.category, IsoMonth(e.date))
         == Reconciliation(BudgetSummary(0.0, 0.0, 0.0), WithinBudget)
  {
  }

  /** A limit of 100 with 40 already spent in the month: adding 70 answers
      OVER_BUDGET with 10 too much. */
  lemma OverBudgetExample(budgets: seq<Budget>, earlier: Expense, e: Expense)
    requires 0 <= YearMonthOf(e.date).year <= 9999
    requires budgets == [Budget("b", e.user, e.category, IsoMonth(e.date), 100.0)]
    requires earlier.amount == 40.0 && e.amount == 70.0
    requires Counts(earlier, e.user, e.category, IsoMonth(e.date))
    ensures Reconcile(budgets, [earlier] + [e], e.user, e.category, IsoMonth(e.date))
         == Reconciliation(BudgetSummary(100.0, 110.0, -10.0), OverBudget)
  {
    var month := IsoMonth(e.date);
    SpentAfterInsert([], earlier, e.user, e.category, month);
    assert Filter([], (x: Expense) => Counts(x, e.user, e.category, month)) == [];
    assert [] + [earlier] == [earlier];
    NewExpenseCounted([earlier], e);
  }

  function DateKey(e: Expense): real
  {
    e.date as real
  }

  /** Newest first, as `sort({ date: -1 })`. */
  function NewestFirst(s: seq<Expense>): (r: seq<Expense>)
    ensures multiset(r) == multiset(s) && SortedBy(r, DateKey, true)
  {
    SortBy(s, DateKey, true)
  }

  /** `getExpenses`: the caller's expenses dated in the month window of `month`,
      newest first. A month that does not read as `YYYY-MM` makes the database
      query fail. */
  function GetExpenses(env: Env, expenses: seq<Expense>, user: Option<ObjectId>, month: Option<string>): (r: Reply)
    ensures Falsy(month) ==> r == Fail(400, "month query param required (YYYY-MM)")
    ensures !Falsy(month) && Falsy(user) ==> r == Fail(401, "Unauthorized")
    ensures !Falsy(month) && !Falsy(user) && !env.isValidId(user.value) ==> r == Fail(400, InvalidUser)
    ensures !Falsy(month) && UserOk(env, user) && ParseMonthToken(month.value).None?
        ==> r == Fail(500, "Failed to fetch expenses")
    ensures r.Reply? && r.status == 200
        <==> !Falsy(month) && UserOk(env, user) && ParseMonthToken(month.value).Some?
    ensures r.Reply? && r.status == 200 ==>
        r.body.ExpenseList? && SortedBy(r.body.expenses, DateKey, true)
        && forall x :: x in r.body.expenses
             <==> x in expenses && x.user == user.value && YearMonthOf(x.date) == ParseMonthToken(month.value).value
  {
    if Falsy(month) then Fail(400, "month query param required (YYYY-MM)")
    else if Falsy(user) then Fail(401, "Unauthorized")
    else if !env.isValidId(user.value) then Fail(400, InvalidUser)
    else match ParseMonthToken(month.value)
      case None => Fail(500, "Failed to fetch expenses")
      case Some(ym) =>
        var found := Filter(expenses, (x: Expense) => x.user == user.value && InMonth(x.date, ym));
        var sorted := NewestFirst(found);
        assert forall x :: x in sorted <==> x in found by {
          forall x ensures x in sorted <==> x in found {
            assert x in multiset(sorted) <==> x in multiset(found);
          }
        }
        assert forall x: Expense :: InMonth(x.date, ym) <==> YearMonthOf(x.date) == ym by {
          forall x: Expense ensures InMonth(x.date, ym) <==> YearMonthOf(x.date) == ym {
            InMonthIff(x.date, ym);
          }
        }
        Reply(200, ExpenseList(sorted))
  }

  /** `getExpensesRange`: the query parameters are checked before the caller; the
      answer is the caller's expenses from the first millisecond of `start` to the
      last millisecond of `end`, newest first. */
  function GetExpensesRange(env: Env, expenses: seq<Expense>, user: Option<ObjectId>,
                            start: Option<string>, end: Option<string>): (r: Reply)
    ensures Falsy(start) || Falsy(end) ==> r == Fail(400, "start and end query params required (YYYY-MM-DD)")
    ensures !Falsy(start) && !Falsy(end) && (ParseDay(start.value).None? || ParseDay(end.value).None?)
        ==> r == Fail(400, "Invalid date format. Use YYYY-MM-DD.")
    ensures !Falsy(start) && !Falsy(end) && ParseDay(start.value).Some? && ParseDay(end.value).Some?
        ==> (r == Fail(400, "start must be <= end") <==> ParseDay(start.value).value > ParseDay(end.value).value)
    ensures r.Reply? && r.status == 200 <==>
        !Falsy(start) && !Falsy(end) && ParseDay(start.value).Some? && ParseDay(end.value).Some?
        && ParseDay(start.value).value <= ParseDay(end.value).value && UserOk(env, user)
    ensures r.Reply? && r.status == 200 ==>
        r.body.ExpenseList? && SortedBy(r.body.expenses, DateKey, true)
        && forall x :: x in r.body.expenses
             <==> x in expenses && x.user == user.value
                  && DayStart(ParseDay(start.value).value) <= x.date <= DayEnd(ParseDay(end.value).value)
  {
    if Falsy(start) || Falsy(end) then Fail(400, "start and end query params required (YYYY-MM-DD)")
    else match (ParseDay(start.value), ParseDay(end.value))
      case (Some(s), Some(e)) =>
        if DayStart(s) > DayEnd(e) then Fail(400, "start must be <= end")
        else if Falsy(user) then Fail(401, "Unauthorized")
        else if !env.isValidId(user.value) then Fail(400, InvalidUser)
        else
          var found := Filter(expenses, (x: Expense) => x.user == user.value && DayStart(s) <= x.date <= DayEnd(e));
          var sorted := NewestFirst(found);
          assert forall x :: x in sorted <==> x in found by {
            forall x ensures x in sorted <==> x in found {
              assert x in multiset(sorted) <==> x in multiset(found);
            }
          }
          Reply(200, ExpenseList(sorted))
      case _ => Fail(400, "Invalid date format. Use YYYY-MM-DD.")
  }

  /** A range of one day holds exactly the instants whose ISO date is that day. */
  lemma SingleDayRange(t: int, date: Date)
    requires date.Valid() && 0 <= date.year <= 9999
    ensures DayStart(DayNumber(date)) <= t <= DayEnd(DayNumber(date)) <==> IsoDay(t) == DayToken(date)
  {
    IsoDayIff(t, date);
  }

  /** The outcome of a handler that may change one collection. */
  datatype Outcome<T> = Outcome(rows: seq<T>, reply: Reply)

  predicate OwnedExpense(e: Expense, id: ObjectId, user: ObjectId)
  {
    e.id == id && e.user == user
  }

  /** `deleteExpense`: removes the first expense with that id owned by the caller. */
  function DeleteExpenseSpec(env: Env, expenses: seq<Expense>, user: Option<ObjectId>, id: ObjectId): (r: Outcome<Expense>)
    ensures r.reply == Fail(401, "Unauthorized") <==> Falsy(user)
    ensures r.reply == Fail(500, "Delete failed") <==> UserOk(env, user) && !env.isValidId(id)
    ensures r.reply == Fail(404, "Expense not found")
        <==> UserOk(env, user) && env.isValidId(id) && forall e :: e in expenses ==> !OwnedExpense(e, id, user.value)
    ensures !Falsy(user) && !env.isValidId(user.value) ==> r == Outcome(expenses, Fail(400, InvalidUser))
    ensures r.reply == Fail(200, "Deleted") <==> r.rows != expenses
    ensures UserOk(env, user) && env.isValidId(id) ==>
              forall i :: 0 <= i < |expenses| && OwnedExpense(expenses[i], id, user.value)
                          && (forall j :: 0 <= j < i ==> !OwnedExpense(expenses[j], id, user.value))
                          ==> r == Outcome(RemoveAt(expenses, i), Fail(200, "Deleted"))
    ensures r.rows != expenses ==>
              UserOk(env, user) && |r.rows| == |expenses| - 1
              && exists i :: 0 <= i < |expenses| && OwnedExpense(expenses[i], id, user.value)
                             && multiset(r.rows) + multiset{expenses[i]} == multiset(expenses)
  {
    if Falsy(user) then Outcome(expenses, Fail(401, "Unauthorized"))
    else if !env.isValidId(user.value) then Outcome(expenses, Fail(400, InvalidUser))
    else if !env.isValidId(id) then Outcome(expenses, Fail(500, "Delete failed"))
    else match FirstIndex(expenses, (e: Expense) => OwnedExpense(e, id, user.value))
      case None => Outcome(expenses, Fail(404, "Expense not found"))
      case Some(i) => Outcome(RemoveAt(expenses, i), Fail(200, "Deleted"))
  }

  /** Every expense but the caller's with that id survives a delete. */
  lemma DeleteKeepsOthers(env: Env, expenses: seq<Expense>, user: Option<ObjectId>, id: ObjectId, x: Expense)
    requires !Falsy(user) && !OwnedExpense(x, id, user.value)
    ensures multiset(DeleteExpenseSpec(env, expenses, user, id).rows)[x] == multiset(expenses)[x]
  {
    var r := DeleteExpenseSpec(env, expenses, user, id);
    if r.rows != expenses {
      var i :| 0 <= i < |expenses| && OwnedExpense(expenses[i], id, user.value)
                && multiset(r.rows) + multiset{expenses[i]} == multiset(expenses);
      assert expenses[i] != x;
    }
  }

  method DeleteExpense(db: Database, env: Env, user: Option<ObjectId>, id: ObjectId) returns (reply: Reply)
    modifies db
    ensures db.users == old(db.users) && db.categories == old(db.categories) && db.budgets == old(db.budgets)
    ensures Outcome(db.expenses, reply) == DeleteExpenseSpec(env, old(db.expenses), user, id)
  {
    if Falsy(user) {
      return Fail(401, "Unauthorized");
    }
    if !env.isValidId(user.value) {
      return Fail(400, InvalidUser);
    }
    if !env.isValidId(id) {
      return Fail(500, "Delete failed");
    }
    var found := FirstIndex(db.expenses, (e: Expense) => OwnedExpense(e, id, user.value));
    if found.None? {
      return Fail(404, "Expense not found");
    }
    db.expenses := RemoveAt(db.expenses, found.value);
    reply := Fail(200, "Deleted");
  }
}

=== FILE: expense_list_modal.dfy ===
/** The modal listing one category's expenses for a month
    (client/src/components/ExpenseListModal.jsx): the category filter over the store's
    list, a date filter (every date, one day, or a range of days), the chosen order,
    the reset when it opens, and deletion from the list. */
module ExpenseListModal {
  import opened Base
  import opened Calendar
  import opened Sorting
  import opened ClientData
  import opened ExpenseViews
  import ExpenseStore

  /** `String(e.category?._id ?? e.category)`: an absent category reads "undefined". */
  function CategoryText(e: ClientExpense): string
  {
    e.category.Key().GetOr("undefined")
  }

  /** The category filter: the store's expenses whose category id is `categoryId`,
      in the store's order. */
  function CategoryFiltered(all: seq<ClientExpense>, categoryId: string): (r: seq<ClientExpense>)
    ensures forall x :: x in r <==> x in all && CategoryText(x) == categoryId
    ensures |r| <= |all|
  {
    Filter(all, (x: ClientExpense) => CategoryText(x) == categoryId)
  }

  /** An expense dated on the given `YYYY-MM-DD` day (UTC). */
  predicate OnDay(e: ClientExpense, day: string)
  {
    IsoDay(e.date) == day
  }

  /** An expense dated between the first millisecond of day `s` and the last
      millisecond of day `e`. */
  predicate InDays(x: ClientExpense, s: int, e: int)
  {
    DayStart(s) <= x.date <= DayEnd(e)
  }

  /** `dateFiltered`. "all" and any unknown mode keep the list; "single" keeps the
      expenses on that day; "range" keeps those from the first millisecond of the
      start day to the last millisecond of the end day, and nothing when the start
      is after the end. A date that does not read is `NaN`, which no comparison
      accepts, so it keeps nothing. */
  function DateFiltered(list: seq<ClientExpense>, filterMode: string, singleDate: string,
                        rangeStart: string, rangeEnd: string): (r: seq<ClientExpense>)
    ensures filterMode !in {"single", "range"} ==> r == list
    ensures filterMode == "single" ==> forall x :: x in r <==> x in list && OnDay(x, singleDate)
    ensures filterMode == "range" && ParseDay(rangeStart).Some? && ParseDay(rangeEnd).Some? ==>
              forall x :: x in r <==> x in list && InDays(x, ParseDay(rangeStart).value, ParseDay(rangeEnd).value)
    ensures filterMode == "range" && (ParseDay(rangeStart).None? || ParseDay(rangeEnd).None?) ==> r == []
    ensures (filterMode == "range" && ParseDay(rangeStart).Some? && ParseDay(rangeEnd).Some?
             && ParseDay(rangeStart).value > ParseDay(rangeEnd).value) ==> r == []
    ensures |r| <= |list|
  {
    if filterMode == "all" then list
    else if filterMode == "single" then Filter(list, (x: ClientExpense) => OnDay(x, singleDate))
    else if filterMode == "range" then
      match (ParseDay(rangeStart), ParseDay(rangeEnd))
      case (Some(s), Some(e)) =>
        if DayStart(s) > DayEnd(e) then []
        else Filter(list, (x: ClientExpense) => InDays(x, s, e))
      case _ => []
    else list
  }

  /** A range from a day to the same day keeps exactly what that single day keeps. */
  lemma OneDayRange(list: seq<ClientExpense>, date: Date, other: string)
    requires date.Valid() && 0 <= date.year <= 9999
    ensures DateFiltered(list, "range", other, DayToken(date), DayToken(date))
         == DateFiltered(list, "single", DayToken(date), other, other)
  {
    var n := DayNumber(date);
    var day := DayToken(date);
    ParseDayRoundTrip(date);
    assert DateFiltered(list, "range", other, day, day) == Filter(list, (x: ClientExpense) => InDays(x, n, n));
    forall x | x in list
      ensures InDays(x, n, n) == OnDay(x, day)
    {
      OneDayAgree(x, date);
    }
    FilterAgree(list, (x: ClientExpense) => InDays(x, n, n), (x: ClientExpense) => OnDay(x, day));
  }

  lemma OneDayAgree(x: ClientExpense, date: Date)
    requires date.Valid() && 0 <= date.year <= 9999
    ensures InDays(x, DayNumber(date), DayNumber(date)) == OnDay(x, DayToken(date))
  {
    IsoDayIff(x.date, date);
  }

  /** `sorted`: the date-filtered list in the chosen order, newest first for an
      unknown order. */
  function Sorted(list: seq<ClientExpense>, sortMode: string): (r: seq<ClientExpense>)
    ensures multiset(r) == multiset(list)
    ensures SortedBy(r, KeyOf(SortModeOf(sortMode)), Descending(SortModeOf(sortMode)))
    ensures sortMode !in {"date_asc", "amount_desc", "amount_asc"} ==> SortedBy(r, DateKey, true)
  {
    SortExpenses(list, SortModeOf(sortMode))
  }

  /** The modal's own state; `isOpen`, `categoryId` and `month` are its caller's. */
  class Modal {
    var loading: bool
    var sortMode: string
    var filterMode: string
    var singleDate: string
    var rangeStart: string
    var rangeEnd: string
    var localExpenses: seq<ClientExpense>

    /** The first render: amount descending, every date, today for each date field. */
    constructor (today: string)
      ensures !loading && sortMode == "amount_desc" && filterMode == "all"
      ensures singleDate == today && rangeStart == today && rangeEnd == today
      ensures localExpenses == []
    {
      loading, sortMode, filterMode := false, "amount_desc", "all";
      singleDate, rangeStart, rangeEnd := today, today, today;
      localExpenses := [];
    }

    /** The open effect: loads the month through the store, toasting when that
        fails, and resets the filter, the order and every date to today. A closed
        modal does nothing. */
    method Open(ui: UiStore, store: ExpenseStore.Store, isOpen: bool, today: string,
                response: Outcome<seq<ClientExpense>>)
      modifies this, ui, store
      ensures localExpenses == old(localExpenses)
      ensures !isOpen ==> loading == old(loading) && sortMode == old(sortMode) && filterMode == old(filterMode)
                          && singleDate == old(singleDate) && rangeStart == old(rangeStart)
                          && rangeEnd == old(rangeEnd) && store.expenses == old(store.expenses)
                          && ui.toast == old(ui.toast)
      ensures isOpen ==> !loading && filterMode == "all" && sortMode == "amount_desc"
                         && singleDate == today && rangeStart == today && rangeEnd == today
      ensures isOpen && response.Success? ==> store.expenses == response.data && ui.toast == old(ui.toast)
      ensures isOpen && response.Failure? ==>
                store.expenses == old(store.expenses)
                && ui.toast == Some(Toast(ErrorToast, Text("Failed to load expenses")))
    {
      if !isOpen {
        return;
      }
      loading := true;
      var thrown := store.Fetch(response);
      if thrown.Some? {
        ui.ShowToast(Toast(ErrorToast, Text("Failed to load expenses")));
      }
      loading := false;
      filterMode, sortMode := "all", "amount_desc";
      singleDate, rangeStart, rangeEnd := today, today, today;
    }

    /** The category effect: while open, the local list follows the store's list
        filtered to the category. */
    method SyncCategory(isOpen: bool, all: seq<ClientExpense>, categoryId: string)
      modifies this
      ensures isOpen ==> localExpenses == CategoryFiltered(all, categoryId)
      ensures !isOpen ==> localExpenses == old(localExpenses)
      ensures loading == old(loading) && sortMode == old(sortMode) && filterMode == old(filterMode)
      ensures singleDate == old(singleDate) && rangeStart == old(rangeStart) && rangeEnd == old(rangeEnd)
    {
      if isOpen {
        localExpenses := CategoryFiltered(all, categoryId);
      }
    }

    /** What the modal renders: nothing when closed, otherwise the date-filtered
        expenses in the chosen order. */
    function Rendered(isOpen: bool): (r: Option<seq<ClientExpense>>)
      reads this
      ensures r.None? <==> !isOpen
      ensures r.Some? ==>
                multiset(r.value) == multiset(DateFiltered(localExpenses, filterMode, singleDate, rangeStart, rangeEnd))
                && SortedBy(r.value, KeyOf(SortModeOf(sortMode)), Descending(SortModeOf(sortMode)))
    {
      if !isOpen then None
      else Some(Sorted(DateFiltered(localExpenses, filterMode, singleDate, rangeStart, rangeEnd), sortMode))
    }

    /** `handleDelete`: nothing without confirmation; otherwise the store deletes and
        reloads the month, and either failing shows "Delete failed". */
    method HandleDelete(ui: UiStore, store: ExpenseStore.Store, confirmed: bool, id: string,
                        deleted: Outcome<()>, refetch: Outcome<seq<ClientExpense>>)
      modifies ui, store
      ensures !confirmed ==> store.expenses == old(store.expenses) && ui.toast == old(ui.toast)
      ensures confirmed && deleted.Failure? ==>
                store.expenses == old(store.expenses) && ui.toast == Some(Toast(ErrorToast, Text("Delete failed")))
      ensures confirmed && deleted.Success? && refetch.Failure? ==>
                store.expenses == RemoveId(old(store.expenses), ExpenseStore.ExpenseId, id)
                && ui.toast == Some(Toast(ErrorToast, Text("Delete failed")))
      ensures confirmed && deleted.Success? && refetch.Success? ==>
                store.expenses == refetch.data && ui.toast == Some(Toast(SuccessToast, Text("Expense deleted")))
    {
      if !confirmed {
        return;
      }
      var thrown := store.Delete(id, deleted);
      if thrown.None? {
        thrown := store.Fetch(refetch);
      }
      if thrown.Some? {
        ui.ShowToast(Toast(ErrorToast, Text("Delete failed")));
      } else {
        ui.ShowToast(Toast(SuccessToast, Text("Expense deleted")));
      }
    }
  }
}

=== FILE: expense_store.dfy ===
/** The client's expense list (client/src/stores/expenseStore.js): fetches that
    replace it, an in-place update by id, an optimistic add through a temporary
    entry, and an optimistic delete that restores the previous list on failure.
    Each call to the server is one atomic outcome passed in by the caller. */
module ExpenseStore {
  import opened Base
  import opened ClientData

  function ExpenseId(e: ClientExpense): string
  {
    e.id
  }

  /** The body `addExpense` posts; the temporary entry is built from it. */
  datatype ExpensePayload = ExpensePayload(category: string, amount: real, date: int, notes: Option<string>)

  /** What the server answers to an add: the saved record (`data.expense ?? data`),
      the budget status, the budget's remaining amount and an optional message. */
  datatype AddResponse = AddResponse(saved: ClientExpense, status: Option<string>, remaining: Option<real>,
                                     message: Option<string>)

  /** The optimistic entry shown until the server answers. */
  function TempExpense(tempId: string, payload: ExpensePayload): (e: ClientExpense)
    ensures e.id == tempId && e.category == Raw(payload.category) && e.amount == payload.amount
    ensures e.date == payload.date && e.notes == payload.notes
  {
    ClientExpense(tempId, Raw(payload.category), payload.amount, payload.date, payload.notes)
  }

  /** The toast after a successful add: an error toast exactly when the budget is
      over, reporting the overrun as a magnitude. */
  function AddedToast(data: AddResponse): (t: Toast)
    ensures t.kind == ErrorToast <==> data.status == Some("OVER_BUDGET")
    ensures t.kind == ErrorToast ==> t.text == OverBudgetBy(Abs(data.remaining.GetOr(0.0))) && t.text.amount >= 0.0
    ensures t.kind == SuccessToast ==> t.text == Text(data.message.GetOr("Expense added"))
  {
    if data.status == Some("OVER_BUDGET") then Toast(ErrorToast, OverBudgetBy(Abs(data.remaining.GetOr(0.0))))
    else Toast(SuccessToast, Text(data.message.GetOr("Expense added")))
  }

  /** The error toast after a failed add. */
  function AddFailedToast(err: ApiError): (t: Toast)
    ensures t.kind == ErrorToast
    ensures Truthy(err.serverMessage) ==> t.text == Text(err.serverMessage.value)
    ensures !Truthy(err.serverMessage) && Truthy(err.serverError) ==> t.text == Text(err.serverError.value)
    ensures !Truthy(err.serverMessage) && !Truthy(err.serverError) ==> t.text == Text("Failed to add expense")
    ensures t.text.text != ""
  {
    Toast(ErrorToast, Text(OrElse(Or(err.serverMessage, err.serverError), "Failed to add expense")))
  }

  /** The list after an add: the temporary entry is replaced by the saved record on
      success and filtered out on failure. */
  function AfterAdd(prev: seq<ClientExpense>, tempId: string, payload: ExpensePayload, response: Outcome<AddResponse>)
    : (r: seq<ClientExpense>)
  {
    var optimistic := [TempExpense(tempId, payload)] + prev;
    match response
    case Success(data) => ReplaceId(optimistic, ExpenseId, tempId, data.saved)
    case Failure(_) => RemoveId(optimistic, ExpenseId, tempId)
  }

  /** With a fresh temporary id, a successful add puts the saved record in front
      of the previous list, and a failed one gives the previous list back. */
  lemma AddOutcome(prev: seq<ClientExpense>, tempId: string, payload: ExpensePayload, response: Outcome<AddResponse>)
    requires FreshId(prev, ExpenseId, tempId)
    ensures response.Success? ==> AfterAdd(prev, tempId, payload, response) == [response.data.saved] + prev
    ensures response.Failure? ==> AfterAdd(prev, tempId, payload, response) == prev
  {
    var temp := TempExpense(tempId, payload);
    if response.Success? {
      ReplaceTemp(prev, ExpenseId, temp, response.data.saved);
    } else {
      RollbackTemp(prev, ExpenseId, temp);
    }
  }

  /** `err?.message || err?.response?.data?.message`. */
  function FetchError(err: ApiError): Option<string>
  {
    Or(err.message, err.serverMessage)
  }

  class Store {
    var expenses: seq<ClientExpense>
    var loading: bool
    var error: Option<string>

    constructor ()
      ensures expenses == [] && !loading && error == None
    {
      expenses, loading, error := [], false, None;
    }

    /** `fetchExpenses` and `fetchExpensesRange`: a success replaces the list; a
        failure keeps it, records the error and rethrows. */
    method Fetch(response: Outcome<seq<ClientExpense>>) returns (thrown: Option<ApiError>)
      modifies this
      ensures !loading
      ensures response.Success? ==> expenses == response.data && error == old(error) && thrown.None?
      ensures response.Failure? ==>
                expenses == old(expenses) && error == FetchError(response.err) && thrown == Some(response.err)
    {
      loading := true;
      match response {
        case Success(data) =>
          expenses, loading := data, false;
          thrown := None;
        case Failure(err) =>
          error, loading := FetchError(err), false;
          thrown := Some(err);
      }
    }

    /** `updateExpense`: on success every entry whose id equals `id` becomes the
        updated record and a success toast shows; on failure the list is kept and an
        error toast shows. */
    method Update(ui: UiStore, id: string, response: Outcome<ClientExpense>) returns (thrown: Option<ApiError>)
      modifies this, ui
      ensures !loading && error == old(error) && ui.expenseModalOpen == old(ui.expenseModalOpen)
      ensures response.Success? ==>
                expenses == ReplaceId(old(expenses), ExpenseId, id, response.data)
                && ui.toast == Some(Toast(SuccessToast, Text("Expense updated"))) && thrown.None?
      ensures response.Failure? ==>
                expenses == old(expenses) && thrown == Some(response.err)
                && ui.toast == Some(Toast(ErrorToast, Text(OrElse(Or(response.err.serverMessage, response.err.message),
                                                                   "Update failed"))))
    {
      loading := true;
      match response {
        case Success(updated) =>
          expenses, loading := ReplaceId(expenses, ExpenseId, id, updated), false;
          ui.ShowToast(Toast(SuccessToast, Text("Expense updated")));
          thrown := None;
        case Failure(err) =>
          loading := false;
          var msg := OrElse(Or(err.serverMessage, err.message), "Update failed");
          ui.ShowToast(Toast(ErrorToast, Text(msg)));
          thrown := Some(err);
      }
    }

    /** `addExpense`: prepends a temporary entry, then swaps in the saved record or
        removes the temporary entry and rethrows. */
    method Add(ui: UiStore, payload: ExpensePayload, now: nat, response: Outcome<AddResponse>)
      returns (thrown: Option<ApiError>)
      modifies this, ui
      ensures loading == old(loading) && error == old(error) && ui.expenseModalOpen == old(ui.expenseModalOpen)
      ensures expenses == AfterAdd(old(expenses), TempId(now), payload, response)
      ensures response.Success? ==> ui.toast == Some(AddedToast(response.data)) && thrown.None?
      ensures response.Failure? ==> ui.toast == Some(AddFailedToast(response.err)) && thrown == Some(response.err)
    {
      var tempId := TempId(now);
      expenses := [TempExpense(tempId, payload)] + expenses;
      match response {
        case Success(data) =>
          expenses := ReplaceId(expenses, ExpenseId, tempId, data.saved);
          ui.ShowToast(AddedToast(data));
          thrown := None;
        case Failure(err) =>
          expenses := RemoveId(expenses, ExpenseId, tempId);
          ui.ShowToast(AddFailedToast(err));
          thrown := Some(err);
      }
    }

    /** `deleteExpense`: removes the id at once and puts the exact previous list
        back when the server call fails. */
    method Delete(id: string, response: Outcome<()>) returns (thrown: Option<ApiError>)
      modifies this
      ensures loading == old(loading) && error == old(error)
      ensures response.Success? ==> expenses == RemoveId(old(expenses), ExpenseId, id) && thrown.None?
      ensures response.Failure? ==> expenses == old(expenses) && thrown == Some(response.err)
    {
      var prev := expenses;
      expenses := RemoveId(expenses, ExpenseId, id);
      if response.Failure? {
        expenses := prev;
        return Some(response.err);
      }
      thrown := None;
    }
  }
}

=== FILE: expense_views.dfy ===
/** Expense-list logic the client's views share: the sort orders of the Expenses page
    and the expense-list modal (client/src/pages/Expenses.jsx,
    client/src/components/ExpenseListModal.jsx), the notes search of the Expenses
    page, and the check both expense forms make before saving
    (client/src/components/AddExpenseModal.jsx, EditExpenseModal.jsx). */
module ExpenseViews {
  import opened Base
  import opened Text
  import opened Sorting
  import opened ClientData

  /** The four orders a view offers. */
  datatype SortMode = DateDesc | DateAsc | AmountDesc | AmountAsc

  /** The `switch` on the selected order: an unknown value falls to newest first. */
  function SortModeOf(s: string): (m: SortMode)
    ensures m == AmountAsc <==> s == "amount_asc"
    ensures m == AmountDesc <==> s == "amount_desc"
    ensures m == DateAsc <==> s == "date_asc"
    ensures s !in {"date_asc", "amount_desc", "amount_asc"} ==> m == DateDesc
  {
    if s == "amount_asc" then AmountAsc
    else if s == "amount_desc" then AmountDesc
    else if s == "date_asc" then DateAsc
    else DateDesc
  }

  function AmountKey(e: ClientExpense): real
  {
    e.amount
  }

  function DateKey(e: ClientExpense): real
  {
    e.date as real
  }

  function KeyOf(mode: SortMode): ClientExpense -> real
  {
    if mode.AmountDesc? || mode.AmountAsc? then AmountKey else DateKey
  }

  predicate Descending(mode: SortMode)
  {
    mode.DateDesc? || mode.AmountDesc?
  }

  /** The sorted copy: the same expenses, ordered by the mode's key and direction. */
  function SortExpenses(s: seq<ClientExpense>, mode: SortMode): (r: seq<ClientExpense>)
    ensures multiset(r) == multiset(s)
    ensures SortedBy(r, KeyOf(mode), Descending(mode))
  {
    SortBy(s, KeyOf(mode), Descending(mode))
  }

  /** `(x.notes || "")`. */
  function NotesText(e: ClientExpense): string
  {
    e.notes.GetOr("")
  }

  /** The expenses whose lower-cased notes contain `needle`, in order. */
  function KeepMatching(s: seq<ClientExpense>, needle: string): (r: seq<ClientExpense>)
    ensures |r| <= |s|
    ensures forall x :: x in r <==> x in s && Includes(ToLower(NotesText(x)), needle)
  {
    if s == [] then []
    else (if Includes(ToLower(NotesText(s[0])), needle) then [s[0]] else []) + KeepMatching(s[1..], needle)
  }

  /** The notes search: an empty or blank query keeps every expense; otherwise the
      expenses whose notes contain the trimmed query, ignoring case. */
  function SearchNotes(s: seq<ClientExpense>, query: string): (r: seq<ClientExpense>)
    ensures Trim(query) == "" ==> r == s
    ensures Trim(query) != "" ==>
              forall x :: x in r <==> x in s && Includes(ToLower(NotesText(x)), ToLower(Trim(query)))
  {
    if Trim(query) == "" then s else KeepMatching(s, ToLower(Trim(query)))
  }

  lemma LowerTwice(s: string)
    ensures ToLower(ToLower(s)) == ToLower(s)
  {
  }

  lemma LowerKeepsWhitespace(c: char)
    ensures IsWhitespace(LowerChar(c)) <==> IsWhitespace(c)
  {
  }

  /** Lower-casing touches no white space, so it commutes with trimming. */
  lemma {:induction false} TrimLower(s: string)
    ensures Trim(ToLower(s)) == ToLower(Trim(s))
    decreases |s|
  {
    var l := ToLower(s);
    if s != [] {
      LowerKeepsWhitespace(s[0]);
      LowerKeepsWhitespace(s[|s| - 1]);
      assert l[0] == LowerChar(s[0]) && l[|l| - 1] == LowerChar(s[|s| - 1]);
      if IsWhitespace(s[0]) {
        assert Trim(l) == Trim(l[1..]);
        assert l[1..] == ToLower(s[1..]);
        TrimLower(s[1..]);
      } else if IsWhitespace(s[|s| - 1]) {
        assert Trim(l) == Trim(l[..|l| - 1]);
        assert l[..|l| - 1] == ToLower(s[..|s| - 1]);
        TrimLower(s[..|s| - 1]);
      } else {
        assert Trim(l) == l;
      }
    }
  }

  /** The case of the query does not matter. */
  lemma SearchIgnoresCase(s: seq<ClientExpense>, query: string)
    ensures SearchNotes(s, query) == SearchNotes(s, ToLower(query))
  {
    TrimLower(query);
    LowerTwice(Trim(query));
  }

  /** The amount field of an expense form: text the user typed, or the number an
      existing expense was loaded with. */
  datatype AmountInput = Typed(text: string) | Loaded(value: real)

  /** `Number(amount)`: `None` where it is `NaN`. */
  function AmountNumber(a: AmountInput, parse: NumberParser): Option<real>
  {
    match a
    case Typed(t) => if t == "" then Some(0.0) else parse(t)
    case Loaded(v) => Some(v)
  }

  /** The form check: a category first, then an amount that is present, a number and
      above zero. */
  function FormError(categoryId: string, amount: AmountInput, parse: NumberParser): (r: Option<string>)
    ensures categoryId == "" <==> r == Some("Please select a category")
    ensures r.None? <==> categoryId != "" && AmountNumber(amount, parse).Some? && AmountNumber(amount, parse).value > 0.0
    ensures r.Some? ==> r.value in {"Please select a category", "Please enter a valid amount greater than 0"}
  {
    if categoryId == "" then Some("Please select a category")
    else if amount == Typed("") || AmountNumber(amount, parse).None? || AmountNumber(amount, parse).value <= 0.0 then
      Some("Please enter a valid amount greater than 0")
    else None
  }
}

=== FILE: expenses_page.dfy ===
/** The Expenses page (client/src/pages/Expenses.jsx): a month or a date range of the
    caller's expenses, searched and sorted on the client and shown a page at a time. */
module ExpensesPage {
  import opened Base
  import opened Text
  import opened Calendar
  import opened ClientData
  import opened Sorting
  import opened ExpenseViews
  import MonthNav

  datatype Mode = MonthMode | RangeMode

  /** `filteredAndSorted`: the search result in the selected order. */
  function FilteredAndSorted(expenses: seq<ClientExpense>, query: string, sortMode: string): (r: seq<ClientExpense>)
    ensures multiset(r) == multiset(SearchNotes(expenses, query))
    ensures SortedBy(r, KeyOf(SortModeOf(sortMode)), Descending(SortModeOf(sortMode)))
    ensures Trim(query) == "" ==> multiset(r) == multiset(expenses)
  {
    SortExpenses(SearchNotes(expenses, query), SortModeOf(sortMode))
  }

  /** `visible`: the first `count` entries, or all when there are fewer. */
  function Visible(list: seq<ClientExpense>, count: nat): (r: seq<ClientExpense>)
    ensures |r| == if count < |list| then count else |list|
    ensures r <= list
  {
    if count < |list| then list[..count] else list
  }

  /** The "Load more" button's condition: not loading and more entries than the count. */
  predicate LoadMoreShown(loading: bool, list: seq<ClientExpense>, count: nat)
  {
    !loading && count < |list|
  }

  /** Once loaded, "Load more" is offered exactly while some entries are not shown. */
  lemma LoadMoreIffHidden(loading: bool, list: seq<ClientExpense>, count: nat)
    ensures LoadMoreShown(loading, list, count) <==> !loading && |Visible(list, count)| < |list|
  {
  }

  /** The error toast after a failed load. */
  function LoadFailedToast(err: ApiError): (t: Toast)
    ensures t.kind == ErrorToast && t.text.Text? && t.text.text != ""
    ensures Truthy(err.serverMessage) ==> t.text.text == err.serverMessage.value
    ensures !Truthy(err.serverMessage) ==> t.text.text == "Failed to load expenses"
  {
    Toast(ErrorToast, Text(OrElse(err.serverMessage, "Failed to load expenses")))
  }

  /** The range check of `applyRange`: `None` when both dates read and the start is not
      after the end, otherwise the message shown. */
  function RangeError(start: Option<int>, end: Option<int>): (r: Option<string>)
    ensures r.None? <==> start.Some? && end.Some? && start.value <= end.value
  {
    if start.None? || end.None? then Some("Invalid date(s)")
    else if start.value > end.value then Some("Start must be <= End")
    else None
  }

  class Page {
    var mode: Mode
    var currentMonth: string
    var rangeStart: string
    var rangeEnd: string
    var expenses: seq<ClientExpense>
    var loading: bool
    var sortMode: string
    var query: string
    var pageSize: nat
    var visibleCount: nat

    /** The initial state: the clock's month (`MonthNav.CurrentMonth`), today's
        `YYYY-MM-DD` as both ends of the range, newest first, 25 per page. */
    constructor (month: string, today: string)
      ensures mode == MonthMode && currentMonth == month
      ensures rangeStart == today && rangeEnd == today
      ensures expenses == [] && !loading && sortMode == "date_desc" && query == ""
      ensures pageSize == 25 && visibleCount == 25
    {
      mode, currentMonth := MonthMode, month;
      rangeStart, rangeEnd := today, today;
      expenses, loading, sortMode, query := [], false, "date_desc", "";
      pageSize, visibleCount := 25, 25;
    }

    /** `fetchForMonth` and `fetchForRange`: a success shows the answer; a failure
        toasts and empties the list; either way the page goes back to its first page. */
    method Fetch(ui: UiStore, response: Outcome<seq<ClientExpense>>)
      modifies this, ui
      ensures !loading && visibleCount == pageSize
      ensures expenses == if response.Success? then response.data else []
      ensures response.Failure? ==> ui.toast == Some(LoadFailedToast(response.err))
      ensures response.Success? ==> ui.toast == old(ui.toast)
      ensures ui.expenseModalOpen == old(ui.expenseModalOpen)
      ensures mode == old(mode) && currentMonth == old(currentMonth) && rangeStart == old(rangeStart)
      ensures rangeEnd == old(rangeEnd) && sortMode == old(sortMode) && query == old(query) && pageSize == old(pageSize)
    {
      loading := true;
      match response {
        case Success(data) =>
          expenses := data;
        case Failure(err) =>
          ui.ShowToast(LoadFailedToast(err));
          expenses := [];
      }
      loading, visibleCount := false, pageSize;
    }

    /** `nextMonth` (`forward`) and `prevMonth`: steps the month and reloads it when the
        page is in month mode; in range mode the list stays. A month text that does not
        read as `YYYY-MM` becomes "NaN-NaN". */
    method StepMonth(ui: UiStore, forward: bool, response: Outcome<seq<ClientExpense>>)
      modifies this, ui
      ensures currentMonth == MonthNav.Step(old(currentMonth), forward).GetOr("NaN-NaN")
      ensures mode == old(mode)
      ensures old(mode) == RangeMode ==> expenses == old(expenses) && visibleCount == old(visibleCount)
      ensures old(mode) == MonthMode ==>
                expenses == (if response.Success? then response.data else []) && visibleCount == pageSize
    {
      currentMonth := MonthNav.Step(currentMonth, forward).GetOr("NaN-NaN");
      if mode == MonthMode {
        Fetch(ui, response);
      }
    }

    /** `applyRange`: with a date that does not read, or a start after the end, only a
        toast shows; otherwise the page switches to range mode and loads the range. */
    method ApplyRange(ui: UiStore, parseDate: string -> Option<int>, response: Outcome<seq<ClientExpense>>)
      modifies this, ui
      ensures var err := RangeError(parseDate(old(rangeStart)), parseDate(old(rangeEnd)));
              (err.Some? ==>
                 mode == old(mode) && expenses == old(expenses) && visibleCount == old(visibleCount)
                 && ui.toast == Some(Toast(ErrorToast, Text(err.value))))
              && (err.None? ==>
                 mode == RangeMode && expenses == (if response.Success? then response.data else [])
                 && visibleCount == pageSize)
    {
      var err := RangeError(parseDate(rangeStart), parseDate(rangeEnd));
      if err.Some? {
        ui.ShowToast(Toast(ErrorToast, Text(err.value)));
        return;
      }
      mode := RangeMode;
      Fetch(ui, response);
    }

    /** `switchToMonth`: the picked month in month mode, loaded. */
    method SwitchToMonth(ui: UiStore, month: string, response: Outcome<seq<ClientExpense>>)
      modifies this, ui
      ensures mode == MonthMode && currentMonth == month
      ensures expenses == (if response.Success? then response.data else []) && visibleCount == pageSize
    {
      mode, currentMonth := MonthMode, month;
      Fetch(ui, response);
    }

    /** "Load more": one more page becomes visible. */
    method LoadMore()
      modifies this
      ensures visibleCount == old(visibleCount) + pageSize
      ensures expenses == old(expenses) && query == old(query) && sortMode == old(sortMode) && pageSize == old(pageSize)
    {
      visibleCount := visibleCount + pageSize;
    }

    /** `handleDelete`: nothing without confirmation; a failed delete only toasts; a
        successful one toasts and reloads the current month or range. */
    method HandleDelete(ui: UiStore, confirmed: bool, deleted: Outcome<()>, response: Outcome<seq<ClientExpense>>)
      modifies this, ui
      ensures mode == old(mode) && currentMonth == old(currentMonth)
      ensures !confirmed ==> expenses == old(expenses) && ui.toast == old(ui.toast)
      ensures confirmed && deleted.Failure? ==>
                expenses == old(expenses) && ui.toast == Some(Toast(ErrorToast, Text("Delete failed")))
      ensures confirmed && deleted.Success? ==>
                expenses == (if response.Success? then response.data else []) && visibleCount == pageSize
                && ui.toast == Some(if response.Success? then Toast(SuccessToast, Text("Expense deleted"))
                                    else LoadFailedToast(response.err))
    {
      if !confirmed {
        return;
      }
      if deleted.Failure? {
        ui.ShowToast(Toast(ErrorToast, Text("Delete failed")));
        return;
      }
      ui.ShowToast(Toast(SuccessToast, Text("Expense deleted")));
      Fetch(ui, response);
    }

    /** What the list shows: the visible part of the searched, sorted expenses. */
    function Shown(): (r: seq<ClientExpense>)
      reads this
      ensures |r| <= visibleCount && r <= FilteredAndSorted(expenses, query, sortMode)
    {
      Visible(FilteredAndSorted(expenses, query, sortMode), visibleCount)
    }
  }
}

=== FILE: figures.dfy ===
/** The arithmetic the report views share (client/src/pages/Reports.jsx,
    client/src/components/ReportsTable.jsx, client/src/components/BudgetCard.jsx):
    rounding to cents, a rounded percentage, the progress-bar clamp and a signed
    amount written as a sign and a magnitude. */
module Figures {
  import opened Base

  /** `Math.round(x * 100) / 100` on a magnitude: halves go up. */
  function CentsOfMagnitude(y: real): (r: real)
    requires y >= 0.0
    ensures r >= 0.0 && y - 0.005 < r <= y + 0.005
  {
    ((y * 100.0 + 0.5).Floor as real) / 100.0
  }

  /** `+x.toFixed(2)`: the nearest multiple of 0.01, halves away from zero, the
      sign kept. */
  function Cents(x: real): (r: real)
    ensures x - 0.005 <= r <= x + 0.005
    ensures x >= 0.0 ==> r >= 0.0
  {
    if x < 0.0 then -CentsOfMagnitude(-x) else CentsOfMagnitude(x)
  }

  /** A rounded amount is below zero exactly when the amount is at least half a
      cent below zero. */
  lemma CentsNegative(x: real)
    ensures Cents(x) < 0.0 <==> x <= -0.005
  {
    if x < 0.0 {
      var n := (-x * 100.0 + 0.5).Floor;
      assert Cents(x) == -(n as real) / 100.0;
      if x <= -0.005 {
        assert -x * 100.0 + 0.5 >= 1.0;
        assert n >= 1;
      } else {
        assert -x * 100.0 + 0.5 < 1.0;
        assert n <= 0;
      }
    }
  }

  /** `whole === 0 ? 0 : Math.round((part / whole) * 100)`. */
  function PercentOf(part: real, whole: real): (p: int)
    ensures whole == 0.0 ==> p == 0
    ensures whole != 0.0 ==> part / whole * 100.0 - 0.5 < p as real <= part / whole * 100.0 + 0.5
  {
    if whole == 0.0 then 0 else Round(part / whole * 100.0)
  }

  /** A part that is no more than a positive whole is between 0 and 100 percent of it. */
  lemma PercentWithin(part: real, whole: real)
    requires 0.0 <= part <= whole && whole > 0.0
    ensures 0 <= PercentOf(part, whole) <= 100
  {
    var q := part / whole;
    assert q * whole == part;
    assert 0.0 <= q <= 1.0;
  }

  /** The percentage is not capped: spending 3 of a limit of 2 is 150 percent. */
  lemma PercentNotCapped()
    ensures PercentOf(3.0, 2.0) == 150
  {
    assert 3.0 / 2.0 * 100.0 == 150.0;
  }

  /** `Math.min(100, Math.max(0, percent))`. */
  function ProgressWidth(percent: int): (w: int)
    ensures 0 <= w <= 100
    ensures 0 <= percent <= 100 ==> w == percent
    ensures percent < 0 ==> w == 0
    ensures percent > 100 ==> w == 100
  {
    if percent > 100 then 100 else if percent < 0 then 0 else percent
  }

  /** An amount as shown: a minus sign or none, then the magnitude. */
  datatype Signed = Signed(negative: bool, magnitude: real)

  /** `r < 0 ? "-" + Math.abs(r) : r`. */
  function SignedOf(r: real): (s: Signed)
    ensures s.magnitude >= 0.0
    ensures s.negative <==> r < 0.0
    ensures (if s.negative then -s.magnitude else s.magnitude) == r
  {
    if r < 0.0 then Signed(true, Abs(r)) else Signed(false, r)
  }
}

=== FILE: month_nav.dfy ===
/** The month navigation the Dashboard, Budgets, Reports and Expenses pages share
    (client/src/pages/Expenses.jsx, Budgets.jsx, Reports.jsx, Dashboard.jsx): the
    current month is a `YYYY-MM` text, the arrows read its year and month, step one
    calendar month and write the text back. The four copies in the source are one
    function here. */
module MonthNav {
  import opened Base
  import opened Text
  import opened Calendar

  /** `${year}-${String(month).padStart(2, "0")}`: the year is written without padding. */
  function MonthLabel(ym: YearMonth): (t: string)
    requires ym.Valid()
  {
    IntString(ym.year) + "-" + Pad(ym.month, 2)
  }

  /** For four-digit years the label is the `YYYY-MM` token the server reads. */
  lemma MonthLabelIsToken(ym: YearMonth)
    requires ym.Valid() && 1000 <= ym.year <= 9999
    ensures MonthLabel(ym) == MonthToken(ym)
  {
    assert Pow10(3) == 1000 && Pow10(4) == 10000;
    DecimalStringWidth(ym.year, 4);
  }

  /** The page's initial month: the current instant's year and month. */
  function CurrentMonth(now: int): (t: string)
  {
    MonthLabel(YearMonthOf(now))
  }

  /** `nextMonth` (`forward`) or `prevMonth` on the current month's text: December
      steps to January of the next year, January to December of the previous one.
      `None` stands for a text that is not of the form `YYYY-MM`. */
  function Step(t: string, forward: bool): (r: Option<string>)
    ensures r.Some? <==> ParseMonthToken(t).Some?
    ensures r.Some? ==>
              var ym := ParseMonthToken(t).value;
              r.value == MonthLabel(if forward then Next(ym) else Prev(ym))
  {
    match ParseMonthToken(t)
    case None => None
    case Some(ym) => Some(MonthLabel(if forward then Next(ym) else Prev(ym)))
  }

  /** Stepping forward from a month's token gives the next calendar month's token;
      December moves to January of the next year. */
  lemma StepForward(ym: YearMonth)
    requires ym.Valid() && 1000 <= ym.year <= 9998
    ensures Step(MonthToken(ym), true) == Some(MonthToken(Next(ym)))
    ensures ym.month == 12 ==> Step(MonthToken(ym), true) == Some(MonthToken(YearMonth(ym.year + 1, 1)))
  {
    ParseMonthTokenRoundTrip(ym);
    MonthLabelIsToken(Next(ym));
  }

  /** Stepping back from a month's token gives the previous calendar month's token;
      January moves to December of the previous year. */
  lemma StepBack(ym: YearMonth)
    requires ym.Valid() && 1001 <= ym.year <= 9999
    ensures Step(MonthToken(ym), false) == Some(MonthToken(Prev(ym)))
    ensures ym.month == 1 ==> Step(MonthToken(ym), false) == Some(MonthToken(YearMonth(ym.year - 1, 12)))
  {
    ParseMonthTokenRoundTrip(ym);
    MonthLabelIsToken(Prev(ym));
  }

  /** Back one month and forward one month lands on the same token, and so does
      forward then back. */
  lemma StepBackAndForth(ym: YearMonth)
    requires ym.Valid() && 1001 <= ym.year <= 9998
    ensures Step(MonthToken(ym), false).Some?
    ensures Step(Step(MonthToken(ym), false).value, true) == Some(MonthToken(ym))
    ensures Step(MonthToken(ym), true).Some?
    ensures Step(Step(MonthToken(ym), true).value, false) == Some(MonthToken(ym))
  {
    StepBack(ym);
    StepForward(Prev(ym));
    StepForward(ym);
    StepBack(Next(ym));
    PrevNext(ym);
  }
}

=== FILE: reports_page.dfy ===
/** The Reports page (client/src/pages/Reports.jsx): the month's total budget, total
    spent, remaining amount and percentage of budget used, over the month's budget
    rows, and the month navigation that reloads them. */
module ReportsPage {
  import opened Base
  import opened ClientData
  import opened Figures
  import opened ReportsTable
  import BudgetStore
  import ExpenseStore
  import MonthNav

  /** `totalBudget`: the limits added up, an unset limit counting as 0. */
  function TotalBudget(budgets: seq<ClientBudget>): real
  {
    Sum(Map(budgets, RowLimit))
  }

  /** `totalSpent`: `totalSpent ?? spent ?? 0` added up. */
  function TotalSpent(budgets: seq<ClientBudget>): real
  {
    Sum(Map(budgets, RowSpent))
  }

  /** The unrounded difference a row contributes. */
  function RowLeft(b: ClientBudget): real
  {
    RowLimit(b) - RowSpent(b)
  }

  /** Before rounding, the page's remaining amount is the sum of the rows' remaining
      amounts. */
  lemma {:induction false} TotalsLeft(budgets: seq<ClientBudget>)
    ensures TotalBudget(budgets) - TotalSpent(budgets) == Sum(Map(budgets, RowLeft))
    decreases |budgets|
  {
    if budgets != [] {
      var n := |budgets| - 1;
      var init := budgets[..n];
      TotalsLeft(init);
      assert budgets == init + [budgets[n]];
      MapSnoc(init, budgets[n], RowLimit);
      MapSnoc(init, budgets[n], RowSpent);
      MapSnoc(init, budgets[n], RowLeft);
      SumSnoc(Map(init, RowLimit), RowLimit(budgets[n]));
      SumSnoc(Map(init, RowSpent), RowSpent(budgets[n]));
      SumSnoc(Map(init, RowLeft), RowLeft(budgets[n]));
    }
  }

  /** With every row within its limit, the month as a whole is within budget. */
  lemma {:induction false} RowsWithinTotalWithin(budgets: seq<ClientBudget>)
    requires forall i :: 0 <= i < |budgets| ==> RowSpent(budgets[i]) <= RowLimit(budgets[i])
    ensures TotalSpent(budgets) <= TotalBudget(budgets)
  {
    TotalsLeft(budgets);
    var left := Map(budgets, RowLeft);
    assert forall i :: 0 <= i < |left| ==> left[i] >= 0.0;
    SumNonNegative(left);
  }

  /** The summary cards: spent, budget, the remaining amount as a sign and a
      magnitude, and the percentage of budget used. */
  datatype Summary = Summary(totalSpent: real, totalBudget: real, remaining: Signed, percent: int)

  /** `remaining` is the difference rounded to cents; the "Over budget" subtitle and
      the red accent go with its minus sign; `percentOfBudget` is 0 for a zero
      budget. */
  function SummaryOf(budgets: seq<ClientBudget>): (s: Summary)
    ensures s.totalBudget == TotalBudget(budgets) && s.totalSpent == TotalSpent(budgets)
    ensures (if s.remaining.negative then -s.remaining.magnitude else s.remaining.magnitude)
         == Cents(TotalBudget(budgets) - TotalSpent(budgets))
    ensures s.remaining.negative <==> TotalBudget(budgets) - TotalSpent(budgets) <= -0.005
    ensures s.percent == PercentOf(TotalSpent(budgets), TotalBudget(budgets))
    ensures TotalBudget(budgets) == 0.0 ==> s.percent == 0
    ensures 0.0 <= TotalSpent(budgets) <= TotalBudget(budgets) && TotalBudget(budgets) > 0.0 ==>
              0 <= s.percent <= 100 && !s.remaining.negative
  {
    var budget := TotalBudget(budgets);
    var spent := TotalSpent(budgets);
    CentsNegative(budget - spent);
    if 0.0 <= spent <= budget && budget > 0.0 then
      PercentWithin(spent, budget);
      Summary(spent, budget, SignedOf(Cents(budget - spent)), PercentOf(spent, budget))
    else
      Summary(spent, budget, SignedOf(Cents(budget - spent)), PercentOf(spent, budget))
  }

  class Page {
    var currentMonth: string

    /** The first render: the clock's month (`MonthNav.CurrentMonth`). */
    constructor (month: string)
      ensures currentMonth == month
    {
      currentMonth := month;
    }

    /** The month effect: loads the month's budgets and expenses; failures are
        swallowed. */
    method Load(budgetStore: BudgetStore.Store, expenseStore: ExpenseStore.Store,
                budgetsResponse: Outcome<seq<ClientBudget>>, expensesResponse: Outcome<seq<ClientExpense>>)
      modifies budgetStore, expenseStore
      ensures budgetStore.budgets
           == if budgetsResponse.Success? then budgetsResponse.data else old(budgetStore.budgets)
      ensures expenseStore.expenses
           == if expensesResponse.Success? then expensesResponse.data else old(expenseStore.expenses)
    {
      var _ := budgetStore.Fetch(budgetsResponse);
      var _ := expenseStore.Fetch(expensesResponse);
    }

    /** `nextMonth` (`forward`) and `prevMonth`. */
    method StepMonth(forward: bool)
      modifies this
      ensures currentMonth == MonthNav.Step(old(currentMonth), forward).GetOr("NaN-NaN")
    {
      currentMonth := MonthNav.Step(currentMonth, forward).GetOr("NaN-NaN");
    }
  }
}

=== FILE: reports_table.dfy ===
/** The category breakdown table (client/src/components/ReportsTable.jsx): one row
    per budget with its spent amount, limit, remaining amount and percentage, and a
    single placeholder row when there are no budgets. */
module ReportsTable {
  import opened Base
  import opened ClientData
  import opened Figures

  /** `Number(r.totalSpent ?? r.spent ?? 0)`. */
  function RowSpent(b: ClientBudget): (s: real)
    ensures b.totalSpent.Some? ==> s == b.totalSpent.value
    ensures b.totalSpent.None? && b.spent.Some? ==> s == b.spent.value
    ensures b.totalSpent.None? && b.spent.None? ==> s == 0.0
  {
    b.totalSpent.GetOr(b.spent.GetOr(0.0))
  }

  /** `Number(r.limit ?? 0)`. */
  function RowLimit(b: ClientBudget): (l: real)
    ensures b.limit.None? ==> l == 0.0
    ensures b.limit.Some? ==> l == b.limit.value
  {
    b.limit.GetOr(0.0)
  }

  /** `r.category?.name ?? "Unnamed"`: a bare id has no name. */
  function RowTitle(b: ClientBudget): (title: string)
    ensures b.category.Populated? ==> title == b.category.name
    ensures !b.category.Populated? ==> title == "Unnamed"
  {
    if b.category.Populated? then b.category.name else "Unnamed"
  }

  /** `r.category?.color ?? "#0ea5e9"`. */
  function RowColor(b: ClientBudget): (color: string)
    ensures b.category.Populated? ==> color == b.category.color
    ensures !b.category.Populated? ==> color == "#0ea5e9"
  {
    if b.category.Populated? then b.category.color else "#0ea5e9"
  }

  datatype TableRow =
    | BudgetRow(title: string, color: string, spent: real, limit: real, remaining: Signed, percent: int, width: int)
    | Placeholder

  /** One budget's row. */
  function RowOf(b: ClientBudget): (row: TableRow)
    ensures row.BudgetRow?
    ensures row.title == RowTitle(b) && row.color == RowColor(b)
    ensures row.spent == RowSpent(b) && row.limit == RowLimit(b)
    ensures row.percent == PercentOf(RowSpent(b), RowLimit(b))
    ensures (if row.remaining.negative then -row.remaining.magnitude else row.remaining.magnitude)
         == Cents(RowLimit(b) - RowSpent(b))
    ensures row.remaining.negative <==> RowLimit(b) - RowSpent(b) <= -0.005
    ensures RowLimit(b) == 0.0 ==> row.percent == 0
    ensures 0 <= row.width <= 100
    ensures 0 <= row.percent <= 100 ==> row.width == row.percent
  {
    var spent := RowSpent(b);
    var limit := RowLimit(b);
    CentsNegative(limit - spent);
    var percent := PercentOf(spent, limit);
    BudgetRow(RowTitle(b), RowColor(b), spent, limit, SignedOf(Cents(limit - spent)), percent,
              ProgressWidth(percent))
  }

  /** A budget spent within its limit shows a percentage between 0 and 100, a full
      bar of that width and no minus sign. */
  lemma RowWithinLimit(b: ClientBudget)
    requires 0.0 <= RowSpent(b) <= RowLimit(b) && RowLimit(b) > 0.0
    ensures 0 <= RowOf(b).percent <= 100 && RowOf(b).width == RowOf(b).percent
    ensures !RowOf(b).remaining.negative
  {
    PercentWithin(RowSpent(b), RowLimit(b));
  }

  /** The table body: each budget's row in order, or exactly one placeholder row
      when there is no budget. */
  function Rows(budgets: seq<ClientBudget>): (r: seq<TableRow>)
    ensures budgets == [] <==> r == [Placeholder]
    ensures budgets != [] ==> |r| == |budgets| && forall i :: 0 <= i < |budgets| ==> r[i] == RowOf(budgets[i])
  {
    if budgets == [] then [Placeholder]
    else
      var r := Map(budgets, RowOf);
      assert r[0].BudgetRow?;
      r
  }
}

=== FILE: server_data.dfy ===
/** The server's records, its four collections and the replies its handlers send. */
module ServerData {
  import opened Base

  /** A record id as text: what `String(id)` gives for a Mongo ObjectId. */
  type ObjectId = string

  /** `mongoose.Types.ObjectId.isValid`, supplied by the caller. */
  type IdCheck = ObjectId -> bool

  datatype User = User(id: ObjectId, email: string, passwordHash: string)

  datatype Category = Category(id: ObjectId, name: string, color: string, user: ObjectId, createdAt: int)

  /** A spending limit for one category in one month (`YYYY-MM`). */
  datatype Budget = Budget(id: ObjectId, user: ObjectId, category: ObjectId, month: string, limit: real)

  /** An expense; `date` is an instant in UTC milliseconds. The expense schema has
      no month field, so none is stored. */
  datatype Expense = Expense(id: ObjectId, user: ObjectId, category: ObjectId, amount: real, date: int,
                             notes: Option<string>)

  /** The database: one sequence per collection, in natural (insertion) order. */
  class Database {
    var users: seq<User>
    var categories: seq<Category>
    var budgets: seq<Budget>
    var expenses: seq<Expense>

    constructor ()
      ensures users == [] && categories == [] && budgets == [] && expenses == []
    {
      users, categories, budgets, expenses := [], [], [], [];
    }
  }

  datatype BudgetStatus = WithinBudget | OverBudget

  datatype BudgetSummary = BudgetSummary(limit: real, spent: real, remaining: real)

  /** The JSON body of a reply. */
  datatype Body =
    | Message(text: string)
    | ExpenseCreated(expense: Expense, summary: BudgetSummary, status: BudgetStatus)
    | ExpenseList(expenses: seq<Expense>)
    | BudgetList(budgets: seq<Budget>)
    | BudgetRow(row: Budget)
    | CategoryList(categories: seq<Category>)
    | CategoryRow(category: Option<Category>)
    | UserInfo(id: ObjectId, email: string)

  /** What a handler sends: a status and a body, or nothing at all when a handler
      without a `try` block meets a rejected database call. */
  datatype Reply = Reply(status: int, body: Body) | NoReply

  function Fail(status: int, text: string): Reply
  {
    Reply(status, Message(text))
  }

  /** JavaScript truthiness of an optional text: absent and `""` are falsy. */
  predicate Falsy(s: Option<string>)
  {
    s.None? || s.value == ""
  }
}

=== FILE: sorting.dfy ===
/** Ordering a list by a numeric key, ascending or descending: the comparator sorts
    of the client pages (`a.amount - b.amount`, `new Date(b.date) - new Date(a.date)`)
    and the database's `sort({ field: -1 })`. */
module Sorting {

  /** `x` may precede `y` in the chosen direction. */
  predicate Ordered(x: real, y: real, descending: bool)
  {
    if descending then x >= y else x <= y
  }

  predicate SortedBy<T>(s: seq<T>, key: T -> real, descending: bool)
  {
    forall i, j :: 0 <= i < j < |s| ==> Ordered(key(s[i]), key(s[j]), descending)
  }

  /** Places `x` in front of the first element it may precede. */
  function Insert<T>(x: T, s: seq<T>, key: T -> real, descending: bool): (r: seq<T>)
    requires SortedBy(s, key, descending)
    ensures multiset(r) == multiset(s) + multiset{x}
    ensures SortedBy(r, key, descending)
    ensures |r| == |s| + 1 && (r[0] == x || (s != [] && r[0] == s[0]))
  {
    if s == [] then [x]
    else if Ordered(key(x), key(s[0]), descending) then [x] + s
    else
      var rest := Insert(x, s[1..], key, descending);
      assert s == [s[0]] + s[1..];
      SortedCons(s[0], rest, key, descending);
      [s[0]] + rest
  }

  /** A sorted list stays sorted under a new head that may precede its old head. */
  lemma SortedCons<T>(a: T, t: seq<T>, key: T -> real, descending: bool)
    requires SortedBy(t, key, descending)
    requires t != [] ==> Ordered(key(a), key(t[0]), descending)
    ensures SortedBy([a] + t, key, descending)
  {
    var r := [a] + t;
    forall i, j | 0 <= i < j < |r|
      ensures Ordered(key(r[i]), key(r[j]), descending)
    {
      if i == 0 && j > 1 {
        assert Ordered(key(t[0]), key(t[j - 1]), descending);
      }
    }
  }

  /** The list ordered by `key`: a permutation of the input, sorted in the chosen direction. */
  function SortBy<T>(s: seq<T>, key: T -> real, descending: bool): (r: seq<T>)
    ensures multiset(r) == multiset(s)
    ensures SortedBy(r, key, descending)
  {
    if s == [] then []
    else
      assert s == [s[0]] + s[1..];
      Insert(s[0], SortBy(s[1..], key, descending), key, descending)
  }

  /** Sorting keeps exactly the elements it was given. */
  lemma SortByMembers<T>(s: seq<T>, key: T -> real, descending: bool, x: T)
    ensures x in SortBy(s, key, descending) <==> x in s
  {
    assert x in multiset(SortBy(s, key, descending)) <==> x in multiset(s);
  }
}

=== FILE: text.dfy ===
/** Text operations the application relies on: decimal digits and zero padding
    (`String(n).padStart(w, "0")`), `trim`, `toLowerCase`, `includes`, `split`
    and `startsWith`. */
module Text {

  predicate IsDigit(c: char) { '0' <= c <= '9' }

  predicate AllDigits(s: string) { forall i :: 0 <= i < |s| ==> IsDigit(s[i]) }

  function DigitChar(d: nat): (c: char)
    requires d < 10
    ensures IsDigit(c)
  {
    (('0' as int) + d) as char
  }

  function DigitValue(c: char): (d: nat)
    requires IsDigit(c)
    ensures d < 10
  {
    (c as int) - ('0' as int)
  }

  /** The number a string of decimal digits denotes (leading zeros allowed). */
  function DigitsValue(s: string): nat
    requires AllDigits(s)
  {
    if s == [] then 0 else 10 * DigitsValue(s[..|s| - 1]) + DigitValue(s[|s| - 1])
  }

  lemma DigitsValueSnoc(s: string, c: char)
    requires AllDigits(s) && IsDigit(c)
    ensures AllDigits(s + [c]) && DigitsValue(s + [c]) == 10 * DigitsValue(s) + DigitValue(c)
  {
    assert (s + [c])[..|s|] == s;
  }

  function Pow10(w: nat): (p: nat)
    ensures p >= 1
  {
    if w == 0 then 1 else 10 * Pow10(w - 1)
  }

  lemma {:induction false} DigitsValueBound(s: string)
    requires AllDigits(s)
    ensures DigitsValue(s) < Pow10(|s|)
    decreases |s|
  {
    if s != [] {
      DigitsValueBound(s[..|s| - 1]);
    }
  }

  /** `String(n)` for a natural number: no leading zeros, at least one digit. */
  function DecimalString(n: nat): (s: string)
    ensures |s| >= 1 && AllDigits(s)
    ensures DigitsValue(s) == n
    decreases n
  {
    if n < 10 then [DigitChar(n)]
    else
      var prefix := DecimalString(n / 10);
      DigitsValueSnoc(prefix, DigitChar(n % 10));
      prefix + [DigitChar(n % 10)]
  }

  lemma {:induction false} DecimalStringLength(n: nat, w: nat)
    requires n < Pow10(w)
    ensures |DecimalString(n)| <= w || (n == 0 && w == 0)
    decreases w
  {
    if w > 0 && n >= 10 {
      DecimalStringLength(n / 10, w - 1);
    }
  }

  /** A number from 10^(w-1) up to 10^w has exactly `w` digits. */
  lemma {:induction false} DecimalStringWidth(n: nat, w: nat)
    requires w >= 1 && Pow10(w - 1) <= n < Pow10(w)
    ensures |DecimalString(n)| == w
    decreases w
  {
    if w > 1 {
      var p := Pow10(w - 2);
      assert Pow10(w - 1) == 10 * p;
      assert p <= n / 10 < Pow10(w - 1);
      DecimalStringWidth(n / 10, w - 1);
    }
  }

  /** `String(n)` for an integer: a minus sign before the digits of a negative one. */
  function IntString(n: int): (s: string)
    ensures n >= 0 ==> s == DecimalString(n)
    ensures n < 0 ==> s == "-" + DecimalString(-n)
  {
    if n >= 0 then DecimalString(n) else "-" + DecimalString(-n)
  }

  function Zeros(k: nat): (z: string)
    ensures |z| == k && AllDigits(z) && DigitsValue(z) == 0
  {
    if k == 0 then [] else
      var z := Zeros(k - 1);
      DigitsValueSnoc(z, '0');
      z + ['0']
  }

  lemma {:induction false} LeadingZeros(k: nat, s: string)
    requires AllDigits(s)
    ensures AllDigits(Zeros(k) + s) && DigitsValue(Zeros(k) + s) == DigitsValue(s)
    decreases |s|
  {
    if s == [] {
      assert Zeros(k) + s == Zeros(k);
    } else {
      var init, c := s[..|s| - 1], s[|s| - 1];
      assert Zeros(k) + s == (Zeros(k) + init) + [c];
      assert s == init + [c];
      LeadingZeros(k, init);
      DigitsValueSnoc(Zeros(k) + init, c);
      DigitsValueSnoc(init, c);
    }
  }

  /** `String(n).padStart(width, "0")`: never truncates a longer number. */
  function Pad(n: nat, width: nat): (s: string)
    ensures AllDigits(s) && DigitsValue(s) == n
    ensures |s| == if |DecimalString(n)| >= width then |DecimalString(n)| else width
  {
    var d := DecimalString(n);
    var z := Zeros(if |d| >= width then 0 else width - |d|);
    LeadingZeros(|z|, d);
    z + d
  }

  lemma PadWidth(n: nat, width: nat)
    requires n < Pow10(width) && width >= 1
    ensures |Pad(n, width)| == width
  {
    DecimalStringLength(n, width);
  }

  /** White space removed by `String.prototype.trim`. */
  predicate IsWhitespace(c: char)
  {
    c == ' ' || c == '\t' || c == '\n' || c == '\r' || c == '\U{000B}' || c == '\U{000C}'
    || c == '\U{00A0}' || c == '\U{1680}' || ('\U{2000}' <= c <= '\U{200A}')
    || c == '\U{2028}' || c == '\U{2029}' || c == '\U{202F}' || c == '\U{205F}'
    || c == '\U{3000}' || c == '\U{FEFF}'
  }

  /** `trim()`: the longest infix without leading or trailing white space. */
  function Trim(s: string): (r: string)
    ensures |r| <= |s|
    ensures r == [] || (!IsWhitespace(r[0]) && !IsWhitespace(r[|r| - 1]))
    ensures (forall i :: 0 <= i < |s| ==> IsWhitespace(s[i])) <==> r == []
    decreases |s|
  {
    if s == [] then []
    else if IsWhitespace(s[0]) then Trim(s[1..])
    else if IsWhitespace(s[|s| - 1]) then Trim(s[..|s| - 1])
    else s
  }

  /** Every character of `s` is white space. */
  predicate AllWhitespace(s: string)
  {
    forall k :: 0 <= k < |s| ==> IsWhitespace(s[k])
  }

  /** `r` is `s[i..j]`, and only white space lies outside it. */
  predicate InfixAt(s: string, r: string, i: nat, j: nat)
  {
    i <= j <= |s| && r == s[i..j] && AllWhitespace(s[..i]) && AllWhitespace(s[j..])
  }

  lemma InfixAfterSpace(s: string, r: string, i: nat, j: nat)
    requires s != [] && IsWhitespace(s[0]) && InfixAt(s[1..], r, i, j)
    ensures InfixAt(s, r, i + 1, j + 1)
  {
    assert s[1..][i..j] == s[i + 1..j + 1];
    assert s[..i + 1] == [s[0]] + s[1..][..i];
    assert s[j + 1..] == s[1..][j..];
  }

  lemma InfixBeforeSpace(s: string, r: string, i: nat, j: nat)
    requires s != [] && IsWhitespace(s[|s| - 1]) && InfixAt(s[..|s| - 1], r, i, j)
    ensures InfixAt(s, r, i, j)
  {
    var t := s[..|s| - 1];
    assert t[i..j] == s[i..j];
    assert s[..i] == t[..i];
    assert s[j..] == t[j..] + [s[|s| - 1]];
  }

  /** The trimmed text is an infix of `s` with only white space cut off around it. */
  lemma {:induction false} TrimInfix(s: string)
    ensures exists i: nat, j: nat :: InfixAt(s, Trim(s), i, j)
    decreases |s|
  {
    if s == [] {
      assert InfixAt(s, Trim(s), 0, 0);
    } else if IsWhitespace(s[0]) {
      TrimInfix(s[1..]);
      var i: nat, j: nat :| InfixAt(s[1..], Trim(s[1..]), i, j);
      InfixAfterSpace(s, Trim(s[1..]), i, j);
      assert InfixAt(s, Trim(s), i + 1, j + 1);
    } else if IsWhitespace(s[|s| - 1]) {
      TrimInfix(s[..|s| - 1]);
      var i: nat, j: nat :| InfixAt(s[..|s| - 1], Trim(s[..|s| - 1]), i, j);
      InfixBeforeSpace(s, Trim(s[..|s| - 1]), i, j);
      assert InfixAt(s, Trim(s), i, j);
    } else {
      assert s[..0] == [] && s[|s|..] == [] && s[0..|s|] == s;
      assert InfixAt(s, Trim(s), 0, |s|);
    }
  }

  /** `toLowerCase()` on one character, for the ASCII capitals only. */
  function LowerChar(c: char): char
  {
    if 'A' <= c <= 'Z' then (c as int + 32) as char else c
  }

  function ToLower(s: string): (r: string)
    ensures |r| == |s| && forall i :: 0 <= i < |s| ==> r[i] == LowerChar(s[i])
  {
    if s == [] then [] else [LowerChar(s[0])] + ToLower(s[1..])
  }

  /** `q` occurs in `s` starting at index `i`. */
  predicate OccursAt(s: string, q: string, i: int)
  {
    0 <= i && i + |q| <= |s| && s[i..i + |q|] == q
  }

  /** `s.includes(q)`, computed by trying each start position in turn. */
  predicate Includes(s: string, q: string)
    decreases |s|
  {
    |q| <= |s| && (s[..|q|] == q || Includes(s[1..], q))
  }

  lemma {:induction false} IncludesIff(s: string, q: string)
    ensures Includes(s, q) <==> exists i :: OccursAt(s, q, i)
    decreases |s|
  {
    if |q| <= |s| {
      if s[..|q|] == q {
        assert OccursAt(s, q, 0);
      } else {
        IncludesIff(s[1..], q);
        if Includes(s[1..], q) {
          var i :| OccursAt(s[1..], q, i);
          assert s[i + 1..i + 1 + |q|] == s[1..][i..i + |q|];
          assert OccursAt(s, q, i + 1);
        }
        if i :| OccursAt(s, q, i) {
          assert i != 0;
          assert s[1..][i - 1..i - 1 + |q|] == s[i..i + |q|];
          assert OccursAt(s[1..], q, i - 1);
        }
      }
    } else {
      if i :| OccursAt(s, q, i) {
        assert false;
      }
    }
  }

  predicate StartsWith(s: string, p: string)
  {
    |p| <= |s| && s[..|p|] == p
  }

  /** Index of the first occurrence of `c` in `s`. */
  function IndexOf(s: string, c: char): (i: nat)
    requires c in s
    ensures i < |s| && s[i] == c && c !in s[..i]
  {
    if s[0] == c then 0 else 1 + IndexOf(s[1..], c)
  }

  /** `s.split(sep)` for a one-character separator: the pieces between separators. */
  function Split(s: string, sep: char): (parts: seq<string>)
    ensures |parts| >= 1
    ensures forall k :: 0 <= k < |parts| ==> sep !in parts[k]
    ensures sep !in s ==> parts == [s]
    decreases |s|
  {
    if sep !in s then [s]
    else
      var i := IndexOf(s, sep);
      [s[..i]] + Split(s[i + 1..], sep)
  }

  /** `parts.join(sep)`. */
  function Join(parts: seq<string>, sep: char): string
  {
    if parts == [] then []
    else if |parts| == 1 then parts[0]
    else parts[0] + [sep] + Join(parts[1..], sep)
  }

  /** A join of two or more pieces: the first, the separator, then the rest joined. */
  lemma JoinCons(p: string, rest: seq<string>, sep: char)
    requires |rest| >= 1
    ensures Join([p] + rest, sep) == p + [sep] + Join(rest, sep)
  {
    assert ([p] + rest)[1..] == rest;
  }

  /** Joining the pieces with the separator gives the text back. */
  lemma {:induction false} SplitJoin(s: string, sep: char)
    ensures Join(Split(s, sep), sep) == s
    decreases |s|
  {
    if sep in s {
      var i := IndexOf(s, sep);
      var head, tail := s[..i], s[i + 1..];
      SplitJoin(tail, sep);
      JoinCons(head, Split(tail, sep), sep);
      Reassemble(s, i);
    }
  }

  /** Cutting out the character at `i` and putting it back gives the text back. */
  lemma Reassemble(s: string, i: nat)
    requires i < |s|
    ensures s[..i] + [s[i]] + s[i + 1..] == s
  {
  }

  /** Splitting a join of separator-free pieces gives the pieces back. */
  lemma {:induction false} JoinSplit(parts: seq<string>, sep: char)
    requires |parts| >= 1
    requires forall k :: 0 <= k < |parts| ==> sep !in parts[k]
    ensures Split(Join(parts, sep), sep) == parts
    decreases |parts|
  {
    if |parts| > 1 {
      var p, t := parts[0], Join(parts[1..], sep);
      var s := p + [sep] + t;
      JoinSplit(parts[1..], sep);
      assert s[|p|] == sep;
      var i := IndexOf(s, sep);
      assert i == |p|;
      assert s[..i] == p && s[i + 1..] == t;
      assert parts == [p] + parts[1..];
    }
  }

  /** The piece after the first separator, up to the next one: `s.split(sep)[1]`
      when the text holds the separator. */
  lemma SplitSecond(head: string, sep: char, rest: string)
    requires sep !in head
    ensures |Split(head + [sep] + rest, sep)| >= 2
    ensures Split(head + [sep] + rest, sep)[1] == Split(rest, sep)[0]
    ensures Split(rest, sep)[0] == if sep in rest then rest[..IndexOf(rest, sep)] else rest
  {
    var s := head + [sep] + rest;
    assert s[|head|] == sep;
    assert sep in s;
    var i := IndexOf(s, sep);
    assert i == |head|;
    assert s[i + 1..] == rest;
  }
}
